=== FILE: README.md ===
# thisXYH/cache in Dafny

A model of the core of the Go caching library `thisXYH/cache`, with proofs about that model,
covering five areas:

- **Key building.** `Operation` and `CacheOperation` turn a namespace, a prefix and a list of key
  components into the cache key `<namespace>:<prefix>_<c1>_<c2>…`.
- **Key operations.** A `KeyOperation` forwards reads and writes to a cache provider under one key.
  Each write gets a time-to-live drawn from an expiration policy (`Expiration`, `ExpireTime`).
- **The provider contract.** It is stated once, as a reference store over a map from keys to
  entries with deadlines.
- **Three providers.** The in-memory provider and the two two-level providers (`Level2`, `L2`),
  where level 2 is the primary store and level 1 a copy in front of it.
- **The conversion engines.** The in-memory provider reads values back through the older engine
  (`conv/conv.go`). The newer, configurable engine (`internal/conv.go`) is the library's
  general-purpose converter. `UnixTime` is a millisecond timestamp with a JSON form.

How Go constructs map to Dafny:

- A dynamic Go value (`interface{}`) is the datatype `Values.Value`, and a `reflect.Type` is
  `Values.Shape`.
- `int` and `uint` are 64 bits wide. Wrap-around of `int64` and `time.Duration` arithmetic is
  written out (`GoInt.Wrap64`).
- A panic is a distinguished error value (`Panic`) in the result of the call that panics.
- The clock (`time.Now()`) is a `now` parameter. Each random draw of an expiration policy is a
  `Draw` parameter, constrained by the contracts of `rand.Int31n(2)` and `rand.Int63n(n)`.
- A provider is a record of four functions (`TryGet`, `Create`, `Set`, `Remove`) over an explicit
  state. Every call returns the next state and its result.
- Both conversion engines and the in-memory provider have defects (see Findings).
  - One `Revision` parameter (`Conv.Revision`), shared by both engines and the in-memory
    provider, selects the code as written (`AsWritten`) or the repaired code (`Repaired`).
  - The proofs of the documented properties are about the repaired code. Lemmas about the code as
    written exhibit each defect.

Helper modules model the parts of Go's standard library the core relies on:

- `Strings`: `strings.Split`/`Join`, byte conversion;
- `Strconv`: `FormatInt`, `FormatUint`, `ParseInt`, `ParseUint` and `ParseBool`. Parsing covers
  base prefixes, underscores between digits (base 0) and range errors. Errors are reported in
  reading order;
- `GoInt`: integer widths, wrap-around, truncating division;
- `Values`: Go maps with last-write-wins `SetMapIndex`;
- `Wrappers`: `Result`/`Option`, and `MapResults`, the first-failure loop that every "convert each
  element, abort on the first error" loop of the engines shares.

Where the library's doc comments or tests and its code disagree, the model follows the code:

- **nil key component.** A nil key component renders as `@.nil.@*` (`operation.go:110-113`),
  although `operation_test.go:49` expects a panic. A typed nil pointer panics unless its pointer
  type has a `String` method (see "## Left out").
- **Source pointers.** `ConvertType` does not strip pointers from the source value: a pointer
  source is not converted.
- **Strings to times.** No branch of `convertToNonPtr` converts a string to a `time.Time`. The
  `StringToTime` hook is never called.
- **`interface{}` destination.** Conversion to `interface{}` is not handled and fails.
- **Older engine return values.** The older engine's `ConvertMapToStruct` and `ConvertMapToMap`
  return a `reflect.Value` rather than the converted value (`conv/conv.go:276`, `:315`). It has
  no struct-to-struct path. As a result:
  - a `time.Time` stored in the in-memory provider is never read back;
  - a map read back panics.
- **Mismatched types.**
  - `operation.go` declares its policy as `*ExpireTime`, but its default `CacheExpirationZero` is
    an `*Expiration`. Both are the one policy datatype here; `NewExpireTime` is the constructor
    without the base-above-range check.
  - `memory_cache_provider.go` asserts the interface `ICacheProvider`, which is not the
    `CacheProvider` of `cache_provider.go`, and has no `Increase` methods.
  - `unix_time.go` declares package `caching`.
  - `cache_operation.go:74` stores a `*CacheOperation` in `KeyOperation.cp`, which
    `key_operation.go:4` declares as `*Operation`. So `CacheOperation.Key` is modelled as
    returning only the key string.
- **The key-operation example.** `internal/example_test.go` uses the key-operation API of another
  version of the library (`MustTryGet`, a duration argument to `NewMemoryCacheProvider`).

## Model

| member | source | states |
|---|---|---|
| Conv.FormatTime | internal/conv.go:286-292 | a nil `TimeToString` hook formats as RFC 3339; a set hook decides success |
| Conv.IndexName | internal/conv.go:400-407 | the name indexer finds nothing iff no key matches, else the first matching key |
| Conv.CaseInsensitiveNameIndexer | internal/conv.go:118-129 | a value is found iff some string key equals the name under case folding, and it is that key's value |
| Conv.ConverToBool | internal/conv.go:177-204 | nil is false, bools are themselves, numbers and times are true iff non-zero, strings follow `ParseBool`, everything else fails |
| Conv.ConvertStringToPrimitive | internal/conv.go:207-272 | a string reads as a primitive of the destination type exactly when the matching `strconv` parser accepts it, and the result fits its kind |
| Conv.ConvertSimpleToString | internal/conv.go:279-317 | nil fails, bools give "1"/"0", strings are kept, integers are decimal, times use the time hook, non-simple values fail |
| Conv.ConvertPrimitiveToPrimitive | internal/conv.go:866-890 | a bool destination applies the bool rule; any other destination goes through the value's string form |
| Conv.ConvertStringToSlice | internal/conv.go:136-168 | element i is part i of the split string read as the element type; a failure names the first failing index |
| Conv.PtrBase | internal/conv.go:715-719 | the destination type with every pointer level removed |
| Conv.Rewrap | internal/conv.go:727-741 | the converted value behind one fresh pointer per pointer level of the destination |
| Conv.RewrapPointers | internal/conv.go:727-741 | no pointer level passes the value through; as written, any pointer level panics; repaired, the value is rewrapped |
| Conv.TryFlattenEmptyKeyMap | internal/conv.go:851-864 | a one-entry `map[string]interface{}` under key "" with a non-nil value stands for that value, and nothing else flattens |
| Conv.DetermineSliceType | internal/conv.go:590-619 | an empty slice of simple elements keeps its type; a result is always a slice type |
| Conv.ConvertType | internal/conv.go:701-744 | nil converts to nil exactly for map, slice and pointer types and fails otherwise; a non-nil value never converts to nil |
| Conv.ConvertToNonPtr | internal/conv.go:774-840 | a successful conversion of a non-nil value is non-nil |
| Conv.ConvertSliceToSlice | internal/conv.go:322-354 | a nil or non-slice source fails; succeeds iff every element converts to an assignable value, and then element i is element i of the source converted; otherwise it panics or reports the first failing index with that element's error |
| Conv.ConvertMapToMap | internal/conv.go:414-452 | a nil map becomes the nil map of the destination type; success iff every entry converts; the result has unique keys and each entry's last write |
| Conv.FillFieldFromMap | internal/conv.go:375-395 | a filled field keeps the destination field's name and type |
| Conv.ConvertMapToStruct | internal/conv.go:361-398 | a nil map fails; a non-struct destination fails; success iff every field fills; field i of the result is the filled field i |
| Conv.FillFieldFromStruct | internal/conv.go:660-677 | a filled field keeps the destination field's name and type |
| Conv.ConvertStructToStruct | internal/conv.go:630-681 | nil fails, non-structs fail, success iff every field fills, field i of the result is the filled field i |
| Conv.FieldToMapEntry | internal/conv.go:484-498 | an entry exists iff the field is exported; it sits under the field's name with the converted value |
| Conv.ConvertStructToMap | internal/conv.go:468-502 | the result is a `map[string]interface{}` with unique keys holding each exported field's converted value under its name |
| Conv.FieldEntriesLookup | internal/conv.go:484-498 | with distinct field names, the built map holds each exported field's converted value under its name |
| Conv.ConvertToMapValue | internal/conv.go:504-588 | nil and primitives are kept, structs become maps; as written a time becomes an empty map, repaired it is kept |
| Conv.TargetShape | internal/conv.go:761-763 | the type under all pointer levels of a destination is never a pointer type |
| Conv.StoreThrough | internal/conv.go:761-770 | storing through a destination pointer keeps the outer pointer's type |
| Conv.StoreLoad | internal/conv.go:761-770 | what was stored through a destination is what it then designates, and the target type is unchanged |
| Conv.Convert | internal/conv.go:749-772 | a non-pointer destination panics, a nil source leaves it untouched, else the designated variable holds the conversion of the source |
| ConvProperties.PrimitiveIdentity | internal/conv.go:866-890 | converting a primitive to its own type gives it back |
| ConvProperties.PrimitiveStringRoundTrip | internal/conv.go:866-890 | a primitive converted to string and back is unchanged |
| ConvProperties.IntegerToSigned | internal/conv.go:866-890 | an integer converts to a signed kind exactly when it fits, keeping the number |
| ConvProperties.IntegerToUnsigned | internal/conv.go:866-890 | an integer converts to an unsigned kind exactly when it is non-negative and fits |
| ConvProperties.BoolRuleNotStringBridge | internal/conv.go:872-878 | 33 converts to true although "33" is not a bool string: the bool rule bypasses the string bridge |
| ConvProperties.IntegerToBool | internal/conv.go:177-204 | an integer converts to true exactly when non-zero |
| ConvProperties.FlattenConvertsInner | internal/conv.go:800-804 | a map holding one value under "" converts exactly as that value |
| ConvProperties.PointerTargetRewrapped | internal/conv.go:727-741 | repaired, conversion to `*T` is conversion to `T` behind a pointer |
| ConvProperties.PointerTargetAsWritten | internal/conv.go:727-741 | as written, no value converts to a pointer type; where the inner conversion succeeds it panics |
| ConvProperties.PointerToIntExample | internal/conv.go:727-741 | `ConvertType(1, *int)` panics as written and gives a pointer to 1 repaired |
| ConvProperties.TimeToStringAsWritten | internal/conv.go:786-791 | as written, with a nil hook, time to string panics; repaired it formats as RFC 3339 |
| ConvProperties.TimeToStringRepaired | internal/conv.go:286-292 | repaired, time to string agrees with `ConvertSimpleToString` for every configuration |
| ConvProperties.FlatValueConverts | internal/conv.go:504-588 | a primitive (or, repaired, a time) converts to its own type and into a map value unchanged |
| ConvProperties.StructToMapFlat | internal/conv.go:468-502 | a record of flat fields becomes a map holding each exported field under its name |
| ConvProperties.StructMapRoundTrip | internal/conv.go:454-457 | struct to map and back to the struct type gives the struct back |
| ConvProperties.StructCloneRoundTrip | internal/conv.go:620-628 | converting a flat record to its own type copies it |
| ConvProperties.TimeFieldInStructToMap | internal/conv.go:509-516 | as written, a time field appears in the map as an empty map |
| ConvProperties.TimeFieldRoundTripExample | internal/conv.go:509-516 | a record with one time field does not survive struct to map and back as written, and does when repaired |
| ConvProperties.TimeFieldToEmptyMap | internal/conv.go:509-516 | the time field of the example becomes an empty map |
| ConvProperties.EmptyMapToTimeField | internal/conv.go:361-398 | that empty map converts back to the zero time |
| ConvProperties.SliceToSliceIdentity | internal/conv.go:322-354 | a slice of primitives (or, repaired, times) converted to its own type is returned unchanged |
| ConvProperties.MapToMapKeepsEntries | internal/conv.go:414-452 | a map of primitives converted to its own type keeps every entry |
| ConvProperties.EntryIdentity | internal/conv.go:433-448 | an entry of primitives converts to itself |
| ConvProperties.MissingFieldKeepsZero | internal/conv.go:378-381 | a destination field with no matching key keeps its zero value |
| ConvProperties.DecimalPart | internal/conv.go:207-272 | the decimal form of a 64-bit integer contains no "~" and reads back as that integer |
| ConvProperties.StringSliceRoundTrip | internal/conv.go:136-168 | decimal forms joined with "~" convert back to the same integer slice |
| ConvProperties.UnderscoredDigits | internal/conv.go:225-227 | base-0 parsing accepts underscores between digits: "1_000" converts to `int16(1000)` |
| ConvProperties.OverflowBeforeBadCharacter | internal/conv.go:240-242 | errors come in reading order: "256x" is a range error for `uint8`, not a syntax error |
| LegacyConv.ConverToBool | conv/conv.go:86-112 | nil is false, bools are themselves, integers are true iff non-zero, strings follow `ParseBool`, non-primitives fail |
| LegacyConv.ConvertStringToPrimitive | conv/conv.go:116-180 | the same parsing as the newer engine; a non-primitive destination panics |
| LegacyConv.ConvertPrimitiveToString | conv/conv.go:185-211 | nil becomes "", primitives print as in the newer engine, other values panic |
| LegacyConv.ConvertPrimitiveToPrimitive | conv/conv.go:418-437 | a bool destination applies the bool rule; any other destination goes through the string form |
| LegacyConv.ConvertStringToSlice | conv/conv.go:52-77 | element i is the "~"-separated part i read as the element type; a non-primitive element type panics |
| LegacyConv.TryFlattenEmptyKeyMap | conv/conv.go:403-416 | a one-entry `map[string]interface{}` under key "_" with a non-nil value stands for that value |
| LegacyConv.Convert | conv/conv.go:323-346 | nil converts to nil for nilable types; one pointer level is stripped; as written a pointer destination yields a `*interface{}` pointing at itself, repaired a pointer of the destination type to the converted value |
| LegacyConv.DoConvert | conv/conv.go:348-398 | primitive destinations always take the primitive path; nil to a non-primitive panics |
| LegacyConv.ConvertSliceToSlice | conv/conv.go:215-244 | a non-slice source or destination panics; succeeds iff every element converts to an assignable value, and then element i of the result is `Convert` of element i; otherwise it panics or reports the first failing index with that element's error |
| LegacyConv.AppendItem | conv/conv.go:232-240 | an appended element is the `Convert` result of the source element |
| LegacyConv.ConvertEntry | conv/conv.go:297-312 | a converted entry's key and value are the `Convert` results of the source's |
| LegacyConv.ConvertMapToMap | conv/conv.go:282-316 | non-maps panic; success iff every entry converts; the result is a `reflect.Value` wrapping the map that `SetMapIndex` builds from the converted entries in order |
| LegacyConv.FindKey | conv/conv.go:262-266 | no position iff no key equals the field name, else a position holding it |
| LegacyConv.VisitField | conv/conv.go:259-274 | a field succeeds iff the map has no key for it; a matched field whose value converts panics at `dst.Field(i)` on the pointer; a conversion error is returned, and panics only if the conversion panicked |
| LegacyConv.ConvertMapToStruct | conv/conv.go:249-277 | a non-struct destination panics; success yields a `reflect.Value` of a pointer to the zero struct |
| LegacyProperties.AgreesOnPrimitives | conv/conv.go:418-437 | on primitive values and destinations both engines compute the same result |
| LegacyProperties.SliceToSliceIdentity | conv/conv.go:215-244 | a slice of primitives converted to its own type is returned unchanged, by `ConvertSliceToSlice` and by `Convert` |
| LegacyProperties.MapToMapReflects | conv/conv.go:282-316 | a map of primitives with distinct keys converted to its own type keeps exactly its entries, wrapped in a `reflect.Value` |
| LegacyProperties.EntryIdentity | conv/conv.go:296-313 | an entry of primitives of the map's own types converts to itself |
| LegacyProperties.PrimitiveIdentity | conv/conv.go:418-437 | a primitive converted to its own type is unchanged |
| LegacyProperties.NilOnStringBridge | conv/conv.go:185-211 | nil converts to "" and false, fails for integers, and the newer engine rejects nil to string |
| LegacyProperties.OnePointerLevel | conv/conv.go:331-343 | two pointer levels fail; as written a primitive converted to its own pointer type yields the self-referencing `*interface{}`, repaired a pointer to the primitive |
| LegacyProperties.PointerLosesValue | conv/conv.go:341-343 | as written every successful pointer conversion gives the same self-referencing pointer, whatever the source value |
| LegacyProperties.PointerWrapsConversion | conv/conv.go:331-343 | repaired, converting to `*T` converts to `T` and points at the result; a result not of type `T` panics; an error is passed on |
| LegacyProperties.FlattenUnderscore | conv/conv.go:403-416 | a map holding one value under "_" converts as that value to non-primitive types |
| LegacyProperties.FlattenKeysDiffer | conv/conv.go:403-416 | the older engine flattens key "_" and the newer engine key "" |
| LegacyProperties.NewEngineFlattensEmptyKey | internal/conv.go:851-864 | the newer engine converts `{"": 1}` to 1 |
| LegacyProperties.OldEngineIgnoresEmptyKey | conv/conv.go:403-416 | the older engine does not flatten `{"": "1~2"}` |
| LegacyProperties.OneTwo | conv/conv.go:52-77 | "1~2" converts to `[]int{1, 2}` |
| LegacyProperties.StringSliceRoundTrip | conv/conv.go:52-77 | decimal forms joined with "~" convert back to the same integers |
| LegacyProperties.MapToStructPanicsOnMatch | conv/conv.go:259-274 | a map key naming a struct field, with any primitive value of its type, makes the conversion panic |
| LegacyProperties.MapToStructWithoutMatch | conv/conv.go:276 | without a matching key the result is the pointer to the zero struct, as a `reflect.Value` |
| LegacyProperties.SliceOfMapsPanics | conv/conv.go:232-240 | a slice of maps cannot be converted: the appended `reflect.Value` panics |
| Expiration.NewExpiration | expiration.go:30-49 | accepted iff 0 <= range <= base, with the three rejections in source order |
| Expiration.NewExpirationFrom | expiration.go:52-69 | without overflow, the `From*` constructors scale both arguments by the unit and check them |
| Expiration.NextExpireTime | expiration.go:72-90 | base 0 never expires; without a range the base is returned; a drawn result stays in 64 bits |
| Expiration.NextExpireTimeBounds | expiration.go:27-29 | with a range and no overflow, the result lies strictly within base ± range and is positive |
| Expiration.NextExpireTimeSign | expiration.go:72-90 | for an accepted policy the result is never negative, and 0 exactly when the base is 0 |
| Expiration.CacheExpirationZeroNeverExpires | expiration.go:10-11 | `CacheExpirationZero` is accepted and always yields 0 |
| Expiration.TenPlusMinusTwo | expiration_test.go:43-70 | `From*(10, 2)` always yields between 8 and 12 units |
| Expiration.TenPlusMinusTwoAccepted | expiration.go:52-69 | `From*(10, 2)` is accepted for every unit |
| Expiration.UpwardDrawCanWrap | expiration.go:86-88 | near the top of the 64-bit range an upward draw wraps to a negative duration |
| ExpireTime.NewExpireTime | expire_time.go:23-38 | accepted iff base and range are non-negative; the range may exceed the base |
| ExpireTime.NewExpireTimeFrom | expire_time.go:41-58 | without overflow, the `From*` constructors scale both arguments by the unit |
| ExpireTime.NextExpireTime | expire_time.go:69-84 | base 0 never expires; without a range the base is returned |
| ExpireTime.NextExpireTimeBounds | expire_time.go:69-84 | with a range and no overflow, the result lies strictly within base ± range |
| ExpireTime.NegativeTimeToLive | expire_time.go:23-38 | `(1, 5)` is accepted here but rejected by `Expiration`, and can yield -2 |
| UnixTime.Millis | unix_time.go:36 | nanoseconds divided by a million, truncated toward zero |
| UnixTime.String | unix_time.go:35-38 | non-empty decimal text, negative iff the milliseconds are, which `ParseInt` reads back |
| UnixTime.MarshalJSON | unix_time.go:18-21 | the JSON bytes are the `String` text |
| UnixTime.UnmarshalJSON | unix_time.go:24-32 | fails iff `ParseInt` base 0 fails, leaving the receiver; else the receiver is exactly the parsed milliseconds times 10^6 ns, reduced into 64 bits modulo 2^64 when the product overflows |
| UnixTime.MillisFits | unix_time.go:19 | the milliseconds of a valid time and their nanoseconds fit in 64 bits |
| UnixTime.RoundTrip | unix_time.go:18-32 | unmarshalling the marshalled form succeeds and gives the time truncated to milliseconds |
| UnixTime.QuotedRejected | unix_time.go:24-28 | a quoted number is rejected and the receiver kept |
| Operation.NewOperation | operation.go:39-66 | accepted iff names are non-empty, provider present, count non-negative; key base is `ns:prefix`; nil policy never expires |
| Operation.Indirect | operation.go:164-176 | non-pointers pass unchanged; a non-nil pointer result only comes from a pointer |
| Operation.OneKeyToStr | operation.go:109-161 | a component renders iff it is nil, string, bool, time, integer or Stringer; nil gives `@.nil.@*`, bools "1"/"0" |
| Operation.BuildCacheKey | operation.go:81-94 | no components gives the key base; else the key base and renderings joined by "_"; the first bad component is reported |
| Operation.UnderscoredJoin | operation.go:87-91 | appending "_" before each rendering equals joining with "_" |
| Operation.Key | operation.go:69-78 | a wrong component count fails with both counts; else the key is `BuildCacheKey`'s |
| Operation.IndirectThroughPointers | operation.go:172-175 | every level of typed pointers is stripped |
| Operation.InterfacePointerFollowedOnce | operation.go:172-176 | a pointer to `interface{}` is followed once, and what it holds is not stripped |
| Operation.NilComponents | operation.go:110-113 | only untyped nil renders as `@.nil.@*`; a typed nil pointer whose pointer type has no `String` method panics |
| Operation.RenderingReadsBack | operation.go:116-150 | each rendering parses back to the component (times to their milliseconds) |
| Operation.KeyDecodes | operation.go:81-94 | without "_" in the parts, splitting the key on "_" gives the key base and the renderings |
| Operation.BuildCacheKeyOf | operation.go:81-94 | the key is the key base followed by "_" and each known rendering |
| Operation.UnderscoreCollision | operation.go:89-92 | components joined with "_" collide: (x_y, z) and (x, y_z) build the same key, e.g. ("a_b","c") and ("a","b_c") |
| Operation.ExampleKey | internal/example_test.go:15-51 | the example's key for ("a", 1) is `ns:prefix_a_1` |
| Operation.KeyBaseDecodes | operation.go:55 | without ":" in the names, the key base splits back into namespace and prefix |
| CacheOperation.NewCacheOperation | cache_operation.go:40-65 | as `NewOperation`, and a negative duration is rejected last |
| CacheOperation.Key | cache_operation.go:68-77 | a wrong count fails; else success iff every component renders, and the key is the joined renderings |
| CacheOperation.SameKeysAsOperation | cache_operation.go:80-93 | both operation kinds build the same key from the same names and components |
| CacheOperation.NegativeDurationRejected | cache_operation.go:53-55 | duration -1 is rejected and 0 accepted |
| CacheProvider.Must | cache_provider.go:15-16 | the `Must*` variant panics exactly when the call fails, with the same reason |
| CacheProvider.Get | cache_provider.go:9-13 | `Get` is `TryGet` without the found flag |
| CacheProvider.DeadlineAfter | cache_provider.go:34-38 | a time-to-live of 0 never expires; a positive one keeps the entry visible until it runs out |
| CacheProvider.RefTryGet | cache_provider.go:18-22 | found iff visible, then the receiver takes the value; otherwise the receiver is kept; nothing changes |
| CacheProvider.RefCreate | cache_provider.go:24-29 | true iff nothing was visible, and then the entry is written; false changes nothing |
| CacheProvider.RefSet | cache_provider.go:34-38 | the entry is written and no other key changes |
| CacheProvider.RefRemove | cache_provider.go:43-46 | true iff a visible entry was removed; the key is gone and no other key changes |
| CacheProvider.RefIncreaseBy | cache_provider.go:51-64 | an integer grows by the increment keeping its deadline; absent keys are created or rejected; overflow and non-integers fail unchanged |
| CacheProvider.RefIncrease | cache_provider.go:51-54 | a success is the visible integer plus one |
| CacheProvider.RefIncreaseOrCreate | cache_provider.go:59-64 | an absent key starts at the increment |
| CacheProvider.VisibleLater | cache_provider.go:27 | stores that look the same now look the same later |
| CacheProvider.SetThenTryGet | cache_provider.go:34-38 | a set value reads back until its deadline (forever for 0) and is gone from then on |
| CacheProvider.CreateTwice | cache_provider.go:24-29 | a second create reports false and changes nothing |
| CacheProvider.RemoveTwice | cache_provider.go:43-46 | a second remove reports false |
| CacheProvider.IncreaseAfterCreate | cache_provider.go:51-64 | create with an increment, then increase, gives the increment plus one |
| MemoryProvider.ExpireAt | memory_cache_provider.go:101-104 | as written the expiry is always an instant; repaired, 0 never expires; otherwise `now + ttl` |
| MemoryProvider.TryGet | memory_cache_provider.go:53-80 | absent or expired keys miss (expired ones are deleted); bad receivers fail; a conversion error is a miss, a conversion panic propagates; an unassignable result panics; hits hold the converted value |
| MemoryProvider.ReadInto | memory_cache_provider.go:73-79 | the stored value converted to the pointee type: a returned error is a miss, a conversion panic propagates, an unassignable result panics in `Set`, and a hit holds exactly the converted value |
| MemoryProvider.Create | memory_cache_provider.go:82-90 | true iff nothing was visible; then the entry is written |
| MemoryProvider.Set | memory_cache_provider.go:101-104 | the entry is written and no other key changes |
| MemoryProvider.Remove | memory_cache_provider.go:113-119 | the key is gone; as written the answer is always true, repaired it is whether a visible entry was removed |
| MemoryProvider.Get | memory_cache_provider.go:41-44 | `TryGet` without the found flag; it panics exactly when `TryGet` panics |
| MemoryProvider.MustGet | memory_cache_provider.go:46-51 | panics exactly when `Get` fails |
| MemoryProvider.MustCreate | memory_cache_provider.go:92-99 | never panics and returns `Create`'s answer |
| MemoryProvider.MustSet | memory_cache_provider.go:106-111 | never panics |
| MemoryProvider.MustRemove | memory_cache_provider.go:121-127 | never panics and returns `Remove`'s answer |
| MemoryProvider.ReadBackExactly | memory_cache_provider.go:73-78 | a primitive read into a pointer to its own type comes back unchanged |
| MemoryProvider.TryGetRefines | memory_cache_provider.go:53-80 | in both revisions, a read of a value that reads back exactly answers as the reference store does |
| MemoryProvider.CreateRefines | memory_cache_provider.go:82-90 | repaired, `Create` answers and changes visibility as the reference store does |
| MemoryProvider.SetRefines | memory_cache_provider.go:101-104 | repaired, `Set` changes visibility as the reference store does |
| MemoryProvider.RemoveRefines | memory_cache_provider.go:113-119 | repaired, `Remove` answers and changes visibility as the reference store does |
| MemoryProvider.ZeroTimeToLiveExpiresAtOnce | memory_cache_provider.go:132-138 | as written, a value set with time-to-live 0 is gone at every later read |
| MemoryProvider.ZeroTimeToLiveKept | memory_cache_provider.go:101-104 | repaired, a value set with time-to-live 0 reads back at every later time |
| MemoryProvider.RemoveAbsentReportsTrue | memory_cache_provider.go:113-119 | as written, removing from an empty store reports true; the reference store and the repaired code report false |
| MemoryProvider.TimeNotReadBack | memory_cache_provider.go:73-76 | a stored time never reads back into a `*time.Time` |
| MemoryProvider.MapReadPanics | memory_cache_provider.go:78 | a stored map read into a pointer to its own type panics |
| MemoryProvider.ConversionPanicPropagates | memory_cache_provider.go:73-76 | a stored `map[string]int` read into an `int` panics in `TryGet`, `Get` and `MustGet` instead of missing |
| MemoryProvider.PointerReceiverAsWritten | memory_cache_provider.go:73-78 | as written, a stored primitive read into a pointer variable panics in `reflect.Value.Set` |
| MemoryProvider.PointerReceiverRepaired | memory_cache_provider.go:73-78 | repaired, the pointer variable receives a fresh pointer to the stored primitive |
| Level2Provider.NewLevel2CacheProvider | level2_cache_provider.go:27-33 | a missing policy panics; otherwise both tiers and the policy are kept |
| Level2Provider.TryGet | level2_cache_provider.go:42-58 | level-1 hits and failures return at once; then level 2 decides; a level-2 hit is copied into level 1 |
| Level2Provider.Get | level2_cache_provider.go:36-39 | `TryGet` without the found flag |
| Level2Provider.Create | level2_cache_provider.go:61-70 | level 2 first; level 1 is written only when level 2 created the entry |
| Level2Provider.Set | level2_cache_provider.go:73-81 | level 2 first; a level-2 error leaves level 1 untouched |
| Level2Provider.Remove | level2_cache_provider.go:84-90 | both tiers are removed from and level 2's answer returned |
| Level2Provider.Increase | level2_cache_provider.go:93-95 | panics and changes nothing |
| Level2Provider.IncreaseOrCreate | level2_cache_provider.go:98-100 | panics and changes nothing |
| Level2Provider.CoherentLater | level2_cache_provider.go:9-15 | tiers that agree now still agree later |
| Level2Provider.TryGetReadsLevel2 | level2_cache_provider.go:12-15 | with coherent tiers, a read returns level 2's value when level 2 holds the key, and misses when neither does |
| Level2Provider.StaleReadFromLevel1 | level2_cache_provider.go:20-22 | a level-1 entry outliving level 2 is still served |
| Level2Provider.TryGetKeepsCoherent | level2_cache_provider.go:42-58 | reads keep the tiers coherent |
| Level2Provider.CreateKeepsCoherent | level2_cache_provider.go:61-70 | `Create` keeps the tiers coherent |
| Level2Provider.SetKeepsCoherent | level2_cache_provider.go:73-81 | `Set` keeps the tiers coherent |
| Level2Provider.RemoveKeepsCoherent | level2_cache_provider.go:84-90 | `Remove` keeps the tiers coherent and answers as level 2 does |
| L2Provider.NewL2CacheProvider | L2_cache_provider.go:26-32 | a missing policy panics; otherwise as `NewLevel2CacheProvider` |
| L2Provider.MustGet | L2_cache_provider.go:41-46 | panics exactly when `Get` fails |
| L2Provider.MustCreate | L2_cache_provider.go:80-86 | panics exactly when `Create` fails, else returns its answer |
| L2Provider.MustSet | L2_cache_provider.go:100-105 | panics exactly when `Set` fails |
| L2Provider.MustRemove | L2_cache_provider.go:117-123 | panics exactly when `Remove` fails, else returns its answer |
| L2Provider.Increase | L2_cache_provider.go:127-129 | panics and changes nothing |
| L2Provider.MustIncrease | L2_cache_provider.go:133-135 | panics and changes nothing |
| L2Provider.IncreaseOrCreate | L2_cache_provider.go:139-141 | panics and changes nothing |
| L2Provider.MustIncreaseOrCreate | L2_cache_provider.go:145-147 | panics and changes nothing |
| L2Provider.MustSetThenMustGet | L2_cache_provider.go:89-105 | over reference stores, `MustSet` never panics and a following `MustGet` returns the value |
| KeyOps.TimeToLive | key_operation.go:33 | no policy means time-to-live 0; an accepted policy never yields a negative one |
| KeyOps.Get | key_operation.go:13-15 | `TryGet` under the key without the found flag |
| KeyOps.MustGet | key_operation.go:18-20 | panics exactly when the read fails |
| KeyOps.Create | key_operation.go:32-34 | creates under the key; without a policy with time-to-live 0 |
| KeyOps.MustCreate | key_operation.go:37-39 | panics exactly when `Create` fails, else returns its answer |
| KeyOps.Set | key_operation.go:43-45 | sets under the key; without a policy with time-to-live 0 |
| KeyOps.MustSet | key_operation.go:48-50 | panics exactly when `Set` fails |
| KeyOps.MustRemove | key_operation.go:59-61 | panics exactly when `Remove` fails, else returns its answer |
| KeyOps.SetThenGet | key_operation.go:22-27 | a value set through a key reads back through any operation with that key until its time-to-live runs out |
| KeyOps.CreateTwice | key_operation.go:29-39 | creation succeeds iff nothing is visible, and a second creation reports false |
| KeyOps.RemoveThenGet | key_operation.go:52-61 | after removal nothing is visible and a second removal reports false |
| KeyOps.DistinctKeysIndependent | key_operation.go:43-45 | a write under one key leaves reads under another unchanged |
| KeyOps.NoExpirationOverMemory | operation.go:58-62 | without a policy over the in-memory store, a set value is gone at the next read as written and reads back repaired |

## Left out

- Concurrency: the mutexes of `Expiration` and the in-memory provider, and its unused bookkeeping fields (`isClearning`, `thresholdCount`, `count`). Every call is modelled as atomic.
- Time within a tiered call: one `now` serves every step of a two-level call. Go reads the clock again at each step.
- `NewMemoryCacheProvider`: it only allocates an empty map and ignores its argument. The empty store is `map[]`.
- Floating-point and complex values are outside `Values`. This covers the `float32`/`float64` cases of `oneKeyToStr` and every float conversion.
- RFC 3339 formatting is a parameter (`formatRFC3339`), not a formatter. `DefaultStringToTime` and the `StringToTime` hook are not modelled: no code path calls them.
- Error messages are structured values (`ConvError`, `Fault`), not the formatted text of `buildError` or of the panics.
- The package-level functions at `internal/conv.go:909-961` are not separate members. Each calls the same-named method on a zero `Conv{}`, which is `Conv.DefaultConfig`.
- A key component holding a `reflect.Value` (which is a Stringer) is treated as not renderable.
- Operation.OneKeyToStr: method sets are not modelled. A `NilPtrV` stands for a nil pointer whose pointer type has no `String` method. In Go, a nil `*T` whose `String` method has a pointer receiver stays a typed nil after `indirect`, matches `fmt.Stringer` (`operation.go:153-154`) and renders as whatever that method returns for a nil receiver. Here it is not renderable.
- Operation.NilComponents: its "typed nil pointer panics" clause covers only pointer types without a `String` method, for the same reason.
- Conv.IndexName: the `NameIndexer` hook is limited to the nil indexer (plain lookup) and `CaseInsensitiveNameIndexer`. Go accepts any function of that signature, but no code in the library sets another one.
- Go's map iteration order is not fixed. The model iterates in the order of the entry list.
- The seeding of random sources (`time.Now().UnixNano()`) is left out. Draws are parameters.
- `KeyOps.TryGet` and `KeyOps.Remove` only forward to the provider and carry no contract of their own. Their behaviour is stated by `KeyOps.SetThenGet`, `KeyOps.CreateTwice` and `KeyOps.RemoveThenGet`.
- The redis provider is not part of this model.
- CacheProvider.RefIncreaseBy: the `Increase` family is modelled only in the reference store. No modelled provider implements it: the in-memory provider has no such methods and both two-level providers panic.
- MemoryProvider.CreateRefines: requires `now + ttl` to fit in 64 bits. Beyond that the stored instant wraps and the reference deadline does not.
- Conv.ConvertToNonPtr: its contract states only that a success is non-nil. Its dispatch is stated through the `ConvProperties` lemmas.
- Conv.FillFieldFromMap: states only the field's name and type. The values are stated by `ConvProperties.StructMapRoundTrip` and `ConvProperties.MissingFieldKeepsZero`.
- Conv.FillFieldFromStruct: states only the field's name and type. The values are stated by `ConvProperties.StructCloneRoundTrip`.
- Conv.CaseInsensitiveNameIndexer: keys are compared with ASCII case folding only. Go's `strings.EqualFold` uses Unicode simple folding, so it also matches "Ä" with "ä" and the Kelvin sign with "k"; the Unicode folding tables are not modelled.
- Conv.FieldToMapEntry: a field counts as exported only when its name starts with an ASCII capital. Go's `CanInterface` follows `unicode.IsUpper`, so it also keeps fields such as "Äpfel". `Conv.FillFieldFromStruct` and `Conv.ConvertStructToStruct` skip fields by the same ASCII rule.
- Conv.ConverToBool: a time is true iff its instant is not the zero instant. Go's `IsZero` on the `time.Time` value also compares its location and monotonic reading, so a zero instant with a non-UTC location counts as non-zero there. Locations are not modelled.
- Named types of primitive kind (such as `time.Duration`) are not modelled. In Go they take the primitive paths: `fmt.Sprint` renders them through their `String()` method (`time.Duration(1e9)` becomes "1s"), and in `ConvertSimpleToString` a named bool or string panics on the type assertion. Here a value with a `String()` method is a `StringerV`, which both engines reject.
- Strconv.ParseInt: only base 0 is modelled, the only base the core passes. Bit sizes are those of Go's integer kinds (8 to 64), so `strconv`'s bit-size error does not arise.

## Findings

| source | as written | input that shows it | evidently intended | confidence | as-written member | corrected member |
|---|---|---|---|---|---|---|
| internal/conv.go:727-741 | each pointer level is allocated with `reflect.New(ptrStack[i])`, a pointer to the pointer type, so `Elem().Set` stores a `T` into a `*T` slot and panics | `ConvertType(1, reflect.TypeOf((*int)(nil)))` | a `*int` pointing at 1, as the doc comment at line 714 allows pointer destinations | high; not executed | ConvProperties.PointerTargetAsWritten | ConvProperties.PointerTargetRewrapped |
| internal/conv.go:509-516 | a `time.Time` field is a struct kind, so the struct case turns it into an empty map | `struct{ At time.Time }` with any time, through `ConvertStructToMap` and back | simple values, times included, cloned into the map (doc comment at line 457) | high; not executed | ConvProperties.TimeFieldRoundTripExample | ConvProperties.StructMapRoundTrip |
| internal/conv.go:786-791 | time to string calls `c.TimeToString` without the nil fallback that `ConvertSimpleToString` has at lines 288-289 | `Conv{}.ConvertType(time.Unix(0, 0), reflect.TypeOf(""))` | RFC 3339 text from `DefaultTimeToString` | high; not executed | ConvProperties.TimeToStringAsWritten | ConvProperties.TimeToStringRepaired |
| conv/conv.go:341-343 | for a pointer destination, `dst = &dst` stores in the `interface{}` variable `dst` a pointer to `dst` itself, so the converted value is lost | `Convert(1, reflect.TypeOf((*int)(nil)))` | a `*int` pointing at the converted 1 | high; not executed | LegacyProperties.PointerLosesValue | LegacyProperties.PointerWrapsConversion |
| memory_cache_provider.go:101-104 | the expiry is stored as `now + t` even for `t == 0`, so the entry expires at the next read (line 133) | `Set("k", 1, 0)` then `TryGet("k", &x)` | time-to-live 0 never expires (cache_provider.go:37) | high; not executed | MemoryProvider.ZeroTimeToLiveExpiresAtOnce | MemoryProvider.ZeroTimeToLiveKept |
| memory_cache_provider.go:113-119 | `Remove` returns true whether or not the key existed | `Remove("k")` on an empty provider | true only when an entry was removed (cache_provider.go:45) | high; not executed | MemoryProvider.RemoveAbsentReportsTrue | MemoryProvider.RemoveRefines |

=== FILE: cache_operation.dfy ===
/** The second kind of cache operation (`cache_operation.go`): the expiration is a fixed
    duration instead of a policy, and the constructor also rejects a negative duration. Keys are
    built by the same code as in `operation.go`. */
module CacheOperation {
  import opened Wrappers
  import opened Values
  import Strings
  import Operation

  /** A `CacheOperation`; the duration is stored as given (0 means never expires). */
  datatype CacheOperation<P> = CacheOperation(
    namespace: string,
    keyBase: string,
    provider: P,
    expireTime: int,
    uniqueFlagLen: nat)

  /** `NewCacheOperation`: empty names, a missing provider, a negative component count and a
      negative duration are rejected, in that order; everything else is stored unchanged. */
  function NewCacheOperation<P>(namespace: string, prefix: string, uniqueFlagLen: int,
                                provider: Option<P>, expireTime: int)
    : (r: Result<CacheOperation<P>, Operation.SetupError>)
    ensures r.Ok? <==>
      namespace != "" && prefix != "" && provider.Some? && uniqueFlagLen >= 0 && expireTime >= 0
    ensures (namespace == "" || prefix == "") ==> r == Err(Operation.EmptyName)
    ensures namespace != "" && prefix != "" && provider.None? ==> r == Err(Operation.NilProvider)
    ensures namespace != "" && prefix != "" && provider.Some? && uniqueFlagLen < 0 ==>
      r == Err(Operation.NegativeFlagLen)
    ensures namespace != "" && prefix != "" && provider.Some? && uniqueFlagLen >= 0 && expireTime < 0 ==>
      r == Err(Operation.NegativeExpireTime)
    ensures r.Ok? ==>
      && r.value.namespace == namespace
      && r.value.keyBase == namespace + ":" + prefix
      && r.value.provider == provider.value
      && r.value.expireTime == expireTime
      && r.value.uniqueFlagLen == uniqueFlagLen
  {
    if namespace == "" || prefix == "" then Err(Operation.EmptyName)
    else if provider.None? then Err(Operation.NilProvider)
    else if uniqueFlagLen < 0 then Err(Operation.NegativeFlagLen)
    else if expireTime < 0 then Err(Operation.NegativeExpireTime)
    else Ok(CacheOperation(namespace, namespace + ":" + prefix, provider.value, expireTime, uniqueFlagLen))
  }

  /** `Key`: the number of components must equal `uniqueFlagLen`; the key is built as in
      `operation.go`. The result is the key the returned `KeyOperation` carries. */
  function Key<P>(op: CacheOperation<P>, keys: seq<Value>): (r: Result<string, Operation.KeyError>)
    ensures |keys| != op.uniqueFlagLen ==> r == Err(Operation.ArityMismatch(|keys|, op.uniqueFlagLen))
    ensures r.Ok? <==> |keys| == op.uniqueFlagLen && forall i :: 0 <= i < |keys| ==> Operation.OneKeyToStr(keys[i]).Ok?
    ensures r.Ok? ==> exists parts: seq<string> ::
      && |parts| == |keys|
      && (forall i :: 0 <= i < |keys| ==> Operation.OneKeyToStr(keys[i]) == Ok(parts[i]))
      && r.value == Strings.Join([op.keyBase] + parts, '_')
  {
    if |keys| != op.uniqueFlagLen then Err(Operation.ArityMismatch(|keys|, op.uniqueFlagLen))
    else Operation.BuildCacheKey(op.keyBase, keys)
  }

  /** `Operation` and `CacheOperation` build the same key for the same names and components. */
  lemma SameKeysAsOperation<P>(namespace: string, prefix: string, n: int, provider: P,
                               d: int, keys: seq<Value>)
    requires NewCacheOperation(namespace, prefix, n, Some(provider), d).Ok?
    ensures Operation.NewOperation(namespace, prefix, n, Some(provider), None).Ok?
    ensures var c := NewCacheOperation(namespace, prefix, n, Some(provider), d).value;
            var o := Operation.NewOperation(namespace, prefix, n, Some(provider), None).value;
      && (Key(c, keys).Ok? <==> Operation.Key(o, keys).Ok?)
      && (Key(c, keys).Ok? ==> Key(c, keys).value == Operation.Key(o, keys).value.key)
  {
  }

  /** The duration check is the only difference between the constructors: a negative duration is
      rejected here, where `NewOperation` has no duration to check. */
  lemma NegativeDurationRejected<P>(provider: P)
    ensures NewCacheOperation("ns", "prefix", 0, Some(provider), -1) == Err(Operation.NegativeExpireTime)
    ensures NewCacheOperation("ns", "prefix", 0, Some(provider), 0).Ok?
  {
  }
}

=== FILE: cache_provider.dfy ===
/** The provider contract (`cache_provider.go`): the results every provider call can have, the
    operations a tiered provider or a key operation calls through, and a reference store that
    states the interface's documented semantics over a map from keys to entries with deadlines. */
module CacheProvider {
  import opened Wrappers
  import opened GoInt
  import opened Values

  /** A failed call: a returned `error`, or a panic. */
  datatype Fault = Error(reason: string) | Panic(reason: string)

  /** The provider state after a call, and what the call returned. */
  datatype Call<S, T> = Call(state: S, out: Result<T, Fault>)

  /** What `TryGet` reports: whether the key was found, and the receiver (`value any`) after the
      call. A receiver is a pointer whose pointee the call may overwrite. */
  datatype Read = Read(found: bool, receiver: Value)

  /** The `Must*` pattern: an error becomes a panic, anything else passes through. */
  function Must<S, T>(c: Call<S, T>): (r: Call<S, T>)
    ensures r.state == c.state
    ensures r.out.Ok? <==> c.out.Ok?
    ensures c.out.Ok? ==> r.out == c.out
    ensures r.out.Err? ==> r.out.error == Panic(c.out.error.reason)
  {
    match c.out
    case Ok(_) => c
    case Err(e) => Call(c.state, Err(Panic(e.reason)))
  }

  /** A panic aborts whatever follows; a returned error does not. */
  predicate Panicked<T>(out: Result<T, Fault>) {
    out.Err? && out.error.Panic?
  }

  /** The calls through which tiered providers and key operations use a provider: `TryGet`,
      `Create`, `Set` and `Remove`. Arguments are the state, the key, the value or receiver, the
      time-to-live where there is one, and the current time in Unix nanoseconds. `Set` is the
      field `upsert`, `set` being a keyword. */
  datatype Provider<!S> = Provider(
    tryGet: (S, string, Value, int) -> Call<S, Read>,
    create: (S, string, Value, int, int) -> Call<S, bool>,
    upsert: (S, string, Value, int, int) -> Call<S, ()>,
    remove: (S, string, int) -> Call<S, bool>)

  /** `Get`: `TryGet` without the found flag, as every provider of the library implements it. */
  function Get<S>(p: Provider<S>, s: S, key: string, recv: Value, now: int): (r: Call<S, Value>)
    ensures r.state == p.tryGet(s, key, recv, now).state
    ensures r.out.Ok? <==> p.tryGet(s, key, recv, now).out.Ok?
    ensures r.out.Ok? ==> r.out.value == p.tryGet(s, key, recv, now).out.value.receiver
    ensures r.out.Err? ==> r.out.error == p.tryGet(s, key, recv, now).out.error
  {
    var c := p.tryGet(s, key, recv, now);
    match c.out
    case Ok(rd) => Call(c.state, Ok(rd.receiver))
    case Err(e) => Call(c.state, Err(e))
  }

  // ----- the reference store -----

  /** When an entry stops being visible. */
  datatype Deadline = Never | At(nanos: int)

  /** A stored value and its deadline. */
  datatype Item = Item(value: Value, deadline: Deadline)

  type Store = map<string, Item>

  /** An entry is visible strictly before its deadline. */
  predicate Live(it: Item, now: int) {
    it.deadline.Never? || now < it.deadline.nanos
  }

  /** The deadline of a write with time-to-live `ttl`: a time-to-live of 0 never expires. */
  function DeadlineAfter(now: int, ttl: int): (d: Deadline)
    ensures d.Never? <==> ttl == 0
    ensures ttl > 0 ==> forall later :: now <= later < now + ttl ==> Live(Item(Nil, d), later)
  {
    if ttl == 0 then Never else At(now + ttl)
  }

  /** The entries a reader sees at time `now`. */
  function Visible(s: Store, now: int): (r: Store)
    ensures forall k :: k in r <==> k in s && Live(s[k], now)
    ensures forall k :: k in r ==> r[k] == s[k]
  {
    map k | k in s && Live(s[k], now) :: s[k]
  }

  /** The receiver after a hit: the pointee of a pointer receiver is replaced by the value. */
  function Receive(recv: Value, x: Value): (r: Result<Value, Fault>)
    ensures r.Ok? <==> recv.PtrV?
    ensures r.Ok? ==> r.value == PtrV(recv.target, x)
  {
    if recv.PtrV? then Ok(PtrV(recv.target, x)) else Err(Error("the receiver must be a pointer"))
  }

  /** `TryGet`: found iff the key is visible; then the receiver takes its value. A read never
      changes what is stored. */
  function RefTryGet(s: Store, key: string, recv: Value, now: int): (r: Call<Store, Read>)
    ensures r.state == s
    ensures key !in Visible(s, now) ==> r.out == Ok(Read(false, recv))
    ensures r.out.Ok? && r.out.value.found ==> key in Visible(s, now)
    ensures key in Visible(s, now) && recv.PtrV? ==>
      r.out == Ok(Read(true, PtrV(recv.target, s[key].value)))
  {
    if key in s && Live(s[key], now) then
      match Receive(recv, s[key].value)
      case Ok(x) => Call(s, Ok(Read(true, x)))
      case Err(e) => Call(s, Err(e))
    else Call(s, Ok(Read(false, recv)))
  }

  /** `Create`: only when the key is not visible; true iff it created the entry. */
  function RefCreate(s: Store, key: string, x: Value, ttl: int, now: int): (r: Call<Store, bool>)
    ensures r.out.Ok?
    ensures r.out.value <==> key !in Visible(s, now)
    ensures r.out.value ==> r.state == s[key := Item(x, DeadlineAfter(now, ttl))]
    ensures !r.out.value ==> r.state == s
  {
    if key in s && Live(s[key], now) then Call(s, Ok(false))
    else Call(s[key := Item(x, DeadlineAfter(now, ttl))], Ok(true))
  }

  /** `Set`: an upsert that never fails. */
  function RefSet(s: Store, key: string, x: Value, ttl: int, now: int): (r: Call<Store, ()>)
    ensures r.out.Ok?
    ensures key in r.state && r.state[key] == Item(x, DeadlineAfter(now, ttl))
    ensures forall k :: k != key ==> (k in r.state <==> k in s) && (k in s ==> r.state[k] == s[k])
  {
    Call(s[key := Item(x, DeadlineAfter(now, ttl))], Ok(()))
  }

  /** `Remove`: true iff a visible entry was removed. */
  function RefRemove(s: Store, key: string, now: int): (r: Call<Store, bool>)
    ensures r.out == Ok(key in Visible(s, now))
    ensures key !in r.state
    ensures forall k :: k != key ==> (k in r.state <==> k in s) && (k in s ==> r.state[k] == s[k])
  {
    Call(s - {key}, Ok(key in s && Live(s[key], now)))
  }

  /** `IncreaseOrCreate` (and `Increase`, with an increment of 1 and no creation): an existing
      integer grows by the increment and keeps its deadline; an absent key starts at the
      increment. A non-integer entry, or a sum outside int64, is an error. */
  function RefIncreaseBy(s: Store, key: string, increment: int, create: bool, ttl: int, now: int)
    : (r: Call<Store, int>)
    requires IsInt64(increment)
    ensures key !in Visible(s, now) && !create ==> r.out.Err? && r.state == s
    ensures key !in Visible(s, now) && create ==>
      r.out == Ok(increment) && r.state == s[key := Item(IntV(Int64, increment), DeadlineAfter(now, ttl))]
    ensures key in Visible(s, now) && s[key].value.IntV? && IsInt64(s[key].value.i + increment) ==>
      r.out == Ok(s[key].value.i + increment)
      && r.state == s[key := Item(IntV(Int64, s[key].value.i + increment), s[key].deadline)]
    ensures r.out.Ok? ==> IsInt64(r.out.value)
    ensures r.out.Err? ==> r.state == s
  {
    if !(key in s && Live(s[key], now)) then
      if create then Call(s[key := Item(IntV(Int64, increment), DeadlineAfter(now, ttl))], Ok(increment))
      else Call(s, Err(Error("key not found")))
    else
      match s[key].value
      case IntV(_, i) =>
        if IsInt64(i + increment) then Call(s[key := Item(IntV(Int64, i + increment), s[key].deadline)], Ok(i + increment))
        else Call(s, Err(Error("increment or decrement would overflow")))
      case _ => Call(s, Err(Error("value is not an integer")))
  }

  function RefIncrease(s: Store, key: string, now: int): (r: Call<Store, int>)
    ensures r.out.Ok? ==> key in Visible(s, now) && s[key].value.IntV? && r.out.value == s[key].value.i + 1
  {
    RefIncreaseBy(s, key, 1, false, 0, now)
  }

  function RefIncreaseOrCreate(s: Store, key: string, increment: int, ttl: int, now: int): (r: Call<Store, int>)
    requires IsInt64(increment)
    ensures key !in Visible(s, now) ==> r.out == Ok(increment)
  {
    RefIncreaseBy(s, key, increment, true, ttl, now)
  }

  /** The reference store as a provider. */
  function Reference(): Provider<Store> {
    Provider(RefTryGet, RefCreate, RefSet, RefRemove)
  }

  // ----- properties of the contract -----

  /** Visibility only ends: an entry hidden now stays hidden later, so two stores that look the
      same now look the same from then on. */
  lemma VisibleLater(a: Store, b: Store, now: int, later: int)
    requires Visible(a, now) == Visible(b, now) && now <= later
    ensures Visible(a, later) == Visible(b, later)
  {
    forall k | k in a && Live(a[k], later) ensures k in Visible(b, later) && b[k] == a[k] {
      assert k in Visible(a, now);
    }
    forall k | k in b && Live(b[k], later) ensures k in Visible(a, later) && a[k] == b[k] {
      assert k in Visible(b, now);
    }
  }

  /** A value set with time-to-live `ttl` reads back until the deadline, forever when `ttl` is 0,
      and is gone from the deadline on. */
  lemma SetThenTryGet(s: Store, key: string, x: Value, ttl: int, now: int, later: int, t: Shape, old_: Value)
    requires now <= later
    ensures var s2 := RefSet(s, key, x, ttl, now).state;
      && ((ttl == 0 || later < now + ttl) ==> RefTryGet(s2, key, PtrV(t, old_), later).out == Ok(Read(true, PtrV(t, x))))
      && ((ttl != 0 && later >= now + ttl) ==> RefTryGet(s2, key, PtrV(t, old_), later).out == Ok(Read(false, PtrV(t, old_))))
  {
  }

  /** Create twice: the second call reports the key as present and changes nothing. */
  lemma CreateTwice(s: Store, key: string, x: Value, y: Value, ttl: int, now: int)
    requires ttl >= 0
    ensures var c := RefCreate(s, key, x, ttl, now);
      && c.out == Ok(key !in Visible(s, now))
      && RefCreate(c.state, key, y, ttl, now) == Call(c.state, Ok(false))
  {
  }

  /** Remove reports true exactly once. */
  lemma RemoveTwice(s: Store, key: string, now: int)
    ensures RefRemove(RefRemove(s, key, now).state, key, now).out == Ok(false)
  {
  }

  /** `IncreaseOrCreate` on an absent key, then `Increase`, gives the increment plus one. */
  lemma IncreaseAfterCreate(s: Store, key: string, increment: int, ttl: int, now: int)
    requires IsInt64(increment) && increment < MaxInt64
    requires key !in Visible(s, now) && ttl >= 0
    ensures var c := RefIncreaseOrCreate(s, key, increment, ttl, now);
      c.out == Ok(increment) && RefIncrease(c.state, key, now).out == Ok(increment + 1)
  {
    var c := RefIncreaseOrCreate(s, key, increment, ttl, now);
    assert c.state[key] == Item(IntV(Int64, increment), DeadlineAfter(now, ttl));
    if ttl != 0 {
      assert key in Visible(c.state, now) <==> ttl > 0;
    }
  }
}

=== FILE: conv.dfy ===
/** The newer conversion engine (`internal/conv.go`): type-directed conversion between
    primitives, `time.Time`, strings, slices, maps and structs, driven by a `Conv` value whose
    hooks customise splitting, field-name matching and time formatting. */
module Conv {
  import opened Wrappers
  import opened Values
  import Strings
  import Strconv

  /** Which reading of the engine to run: the code as it stands, or with the defects listed under
      Findings in the README repaired. Everything but the Findings lemmas uses `Repaired`. */
  datatype Revision = AsWritten | Repaired

  /** `NameIndexer`: nil (plain map lookup) or `CaseInsensitiveNameIndexer`, the only two the
      library uses. */
  datatype Indexer = ExactIndexer | CaseInsensitiveIndexer

  /** The hooks of a `Conv` value; `None` is a nil hook. `formatRFC3339` stands for
      `time.Time.Format(time.RFC3339)`, applied to Unix nanoseconds. */
  datatype Config = Config(
    splitString: Option<string -> seq<string>>,
    nameIndexer: Indexer,
    timeToString: Option<int -> Result<string, string>>,
    formatRFC3339: int -> string)

  /** The zero `Conv{}`: every hook nil. */
  function DefaultConfig(formatRFC3339: int -> string): Config {
    Config(None, ExactIndexer, None, formatRFC3339)
  }

  /** `StringSliceSep`. */
  const StringSliceSep: char := '~'

  datatype ConvError =
    | SourceNil                              // the source must not be nil
    | Unsupported                            // a source or destination of a kind the function does not handle
    | NilTo(target: Shape)                   // nil cannot become a value of this type
    | ParseFailure(numError: Strconv.NumError)
    | HookFailure(message: string)           // the TimeToString hook failed
    | AtIndex(index: nat, cause: ConvError)
    | AtKey(cause: ConvError)
    | AtValue(cause: ConvError)
    | AtField(name: string, cause: ConvError)
    | Panic(reason: string)                  // the Go code panics

  /** Adds context to an error; a panic unwinds through every frame unchanged. */
  function Within(e: ConvError, context: ConvError -> ConvError): ConvError {
    if e.Panic? then e else context(e)
  }

  function ParseError(e: Strconv.NumError): ConvError {
    ParseFailure(e)
  }

  // ----- hooks -----

  /** `Conv.SplitString`, falling back to `DefaultSplitString` (split on "~"). */
  function SplitString(c: Config, s: string): seq<string> {
    match c.splitString
    case None => Strings.Split(s, StringSliceSep)
    case Some(split) => split(s)
  }

  /** Formats a time through `TimeToString`, falling back to `DefaultTimeToString` when the hook
      is nil, as `ConvertSimpleToString` does. */
  function FormatTime(c: Config, nanos: int): (r: Result<string, ConvError>)
    ensures c.timeToString.None? ==> r == Ok(c.formatRFC3339(nanos))
    ensures c.timeToString.Some? ==> (r.Ok? <==> c.timeToString.value(nanos).Ok?)
  {
    match c.timeToString
    case None => Ok(c.formatRFC3339(nanos))
    case Some(hook) =>
      match hook(nanos)
      case Ok(s) => Ok(s)
      case Err(m) => Err(HookFailure(m))
  }

  /** The name indexer's notion of a match between a candidate key and a field name. */
  predicate NameMatches(ix: Indexer, key: string, name: string) {
    match ix
    case ExactIndexer => key == name
    case CaseInsensitiveIndexer => Strings.EqualFold(name, key)
  }

  predicate Candidate(ix: Indexer, keys: seq<Option<string>>, i: int, name: string)
    requires 0 <= i < |keys|
  {
    keys[i].Some? && NameMatches(ix, keys[i].value, name)
  }

  /** The position the indexer picks among candidate keys (`None` marks a position that is not a
      candidate): the first match. For the exact indexer over a map this is the one key equal to
      the name; `CaseInsensitiveNameIndexer` takes the first `EqualFold` match in iteration order. */
  function IndexName(ix: Indexer, keys: seq<Option<string>>, name: string): (r: Option<nat>)
    ensures r.None? <==> forall i :: 0 <= i < |keys| ==> !Candidate(ix, keys, i, name)
    ensures r.Some? ==> r.value < |keys| && Candidate(ix, keys, r.value, name)
    ensures r.Some? ==> forall i :: 0 <= i < r.value ==> !Candidate(ix, keys, i, name)
    decreases |keys|
  {
    if |keys| == 0 then None
    else if Candidate(ix, keys, 0, name) then Some(0)
    else
      assert forall i :: 1 <= i < |keys| ==> Candidate(ix, keys, i, name) == Candidate(ix, keys[1..], i - 1, name);
      match IndexName(ix, keys[1..], name)
      case None => None
      case Some(j) =>
        assert Candidate(ix, keys, j + 1, name);
        Some(j + 1)
  }

  /** The string keys of a map, position by position. */
  function MapKeyNames(es: seq<Entry>): (keys: seq<Option<string>>)
    ensures |keys| == |es|
    ensures forall i :: 0 <= i < |es| ==> keys[i] == if es[i].key.StrV? then Some(es[i].key.s) else None
  {
    seq(|es|, i requires 0 <= i < |es| => if es[i].key.StrV? then Some(es[i].key.s) else None)
  }

  /** The names a struct value exposes to indexing: its exported fields. */
  function FieldKeyNames(fs: seq<FieldValue>): (keys: seq<Option<string>>)
    ensures |keys| == |fs|
    ensures forall i :: 0 <= i < |fs| ==> keys[i] == if Exported(fs[i].name) then Some(fs[i].name) else None
  {
    seq(|fs|, i requires 0 <= i < |fs| => if Exported(fs[i].name) then Some(fs[i].name) else None)
  }

  /** `CaseInsensitiveNameIndexer(m, key)`: finds a value iff some key of the map equals `key`
      under case folding. */
  function CaseInsensitiveNameIndexer(m: seq<Entry>, key: string): (r: Option<Value>)
    ensures r.Some? <==> exists i :: 0 <= i < |m| && m[i].key.StrV? && Strings.EqualFold(key, m[i].key.s)
    ensures r.Some? ==> exists i :: 0 <= i < |m| && m[i].key.StrV? && Strings.EqualFold(key, m[i].key.s) && r.value == m[i].val
  {
    var keys := MapKeyNames(m);
    match IndexName(CaseInsensitiveIndexer, keys, key)
    case None =>
      assert forall i :: 0 <= i < |m| && m[i].key.StrV? ==> !Candidate(CaseInsensitiveIndexer, keys, i, key);
      None
    case Some(j) => Some(m[j].val)
  }

  // ----- primitives -----

  /** `ConverToBool`: nil is false, a bool is itself, a string is read by `strconv.ParseBool`,
      an integer or time is true exactly when it is not the zero value of its type. */
  function ConverToBool(v: Value): (r: Result<bool, ConvError>)
    ensures v == Nil ==> r == Ok(false)
    ensures v.BoolV? ==> r == Ok(v.b)
    ensures v.IntV? || v.UintV? || v.TimeV? ==> r == Ok(v != ZeroOf(ShapeOf(v)))
    ensures v.StrV? ==> (r.Ok? <==> Strconv.ParseBool(v.s).Ok?)
    ensures v.StrV? && r.Ok? ==> r.value == Strconv.ParseBool(v.s).value
    ensures v != Nil && !IsPrimitiveValue(v) && !v.TimeV? ==> r == Err(Unsupported)
  {
    match v
    case Nil => Ok(false)
    case BoolV(b) => Ok(b)
    case StrV(s) =>
      (match Strconv.ParseBool(s)
       case Ok(b) => Ok(b)
       case Err(e) => Err(ParseError(e)))
    case IntV(_, i) => Ok(i != 0)
    case UintV(_, n) => Ok(n != 0)
    case TimeV(t) => Ok(t != ZeroTimeNanos)
    case _ => Err(Unsupported)
  }

  /** `ConvertStringToPrimitive`: reads a string as a value of a primitive type, integers with
      `strconv.ParseInt`/`ParseUint` in base 0 at the type's bit size. */
  function ConvertStringToPrimitive(s: string, t: Shape): (r: Result<Value, ConvError>)
    ensures !IsPrimitiveShape(t) ==> r == Err(Unsupported)
    ensures t == StringT ==> r == Ok(StrV(s))
    ensures t == BoolT ==> (r.Ok? <==> Strconv.ParseBool(s).Ok?)
    ensures t.IntT? ==> (r.Ok? <==> Strconv.ParseInt(s, IntBits(t.ik)).Ok?)
    ensures t.UintT? ==> (r.Ok? <==> Strconv.ParseUint(s, UintBits(t.uk)).Ok?)
    ensures t.IntT? && r.Ok? ==> r.value == IntV(t.ik, Strconv.ParseInt(s, IntBits(t.ik)).value)
    ensures t.IntT? && r.Err? ==> r.error == ParseFailure(Strconv.ParseInt(s, IntBits(t.ik)).error)
    ensures t.UintT? && r.Ok? ==> r.value == UintV(t.uk, Strconv.ParseUint(s, UintBits(t.uk)).value)
    ensures t.UintT? && r.Err? ==> r.error == ParseFailure(Strconv.ParseUint(s, UintBits(t.uk)).error)
    ensures r.Ok? ==> r.value != Nil && ShapeOf(r.value) == t
    ensures r.Ok? && r.value.IntV? ==> IntFits(r.value.ik, r.value.i)
    ensures r.Ok? && r.value.UintV? ==> UintFits(r.value.uk, r.value.n)
  {
    match t
    case BoolT =>
      (match Strconv.ParseBool(s)
       case Ok(b) => Ok(BoolV(b))
       case Err(e) => Err(ParseError(e)))
    case IntT(k) =>
      (match Strconv.ParseInt(s, IntBits(k))
       case Ok(i) => Ok(IntV(k, i))
       case Err(e) => Err(ParseError(e)))
    case UintT(k) =>
      (match Strconv.ParseUint(s, UintBits(k))
       case Ok(n) => Ok(UintV(k, n))
       case Err(e) => Err(ParseError(e)))
    case StringT => Ok(StrV(s))
    case _ => Err(Unsupported)
  }

  /** `ConvertSimpleToString`: bools as "1"/"0", strings verbatim, integers in decimal, times
      through the formatting hook; nil and non-simple values fail. */
  function ConvertSimpleToString(c: Config, v: Value): (r: Result<string, ConvError>)
    ensures v == Nil ==> r == Err(SourceNil)
    ensures v.BoolV? ==> r == Ok(if v.b then "1" else "0")
    ensures v.StrV? ==> r == Ok(v.s)
    ensures v.IntV? ==> r == Ok(Strconv.FormatInt(v.i))
    ensures v.UintV? ==> r == Ok(Strconv.FormatNat(v.n))
    ensures v.TimeV? ==> r == FormatTime(c, v.nanos)
    ensures v != Nil && !IsSimpleShape(ShapeOf(v)) ==> r == Err(Unsupported)
  {
    match v
    case Nil => Err(SourceNil)
    case TimeV(t) => FormatTime(c, t)
    case BoolV(b) => Ok(if b then "1" else "0")
    case StrV(s) => Ok(s)
    case IntV(_, i) => Ok(Strconv.FormatInt(i))
    case UintV(_, n) => Ok(Strconv.FormatNat(n))
    case _ => Err(Unsupported)
  }

  /** `convertPrimitiveToPrimitive`: a bool destination uses the `ConverToBool` rule; every
      other destination goes through the value's string form. */
  function ConvertPrimitiveToPrimitive(c: Config, v: Value, t: Shape): (r: Result<Value, ConvError>)
    ensures t == BoolT ==> (r.Ok? <==> ConverToBool(v).Ok?)
    ensures t == BoolT && r.Ok? ==> r.value == BoolV(ConverToBool(v).value)
    ensures t != BoolT ==> (r.Ok? <==>
      ConvertSimpleToString(c, v).Ok? && ConvertStringToPrimitive(ConvertSimpleToString(c, v).value, t).Ok?)
    ensures t != BoolT && r.Ok? ==>
      r.value == ConvertStringToPrimitive(ConvertSimpleToString(c, v).value, t).value
  {
    if t == BoolT then
      match ConverToBool(v)
      case Ok(b) => Ok(BoolV(b))
      case Err(e) => Err(e)
    else
      match ConvertSimpleToString(c, v)
      case Err(e) => Err(e)
      case Ok(s) => ConvertStringToPrimitive(s, t)
  }

  /** `ConvertStringToSlice`: one element per part of the split string, each read as the
      element type, which must be simple; the first part that fails aborts with its index. */
  function ConvertStringToSlice(c: Config, s: string, t: Shape): (r: Result<Value, ConvError>)
    ensures !t.SliceT? || !IsSimpleShape(t.elem) ==> r == Err(Unsupported)
    ensures r.Ok? ==>
      var parts := SplitString(c, s);
      && r.value.SliceV? && r.value.elem == t.elem
      && |r.value.items| == |parts|
      && forall i :: 0 <= i < |parts| ==> ConvertStringToPrimitive(parts[i], t.elem) == Ok(r.value.items[i])
    ensures r.Err? && t.SliceT? && IsSimpleShape(t.elem) ==>
      var parts := SplitString(c, s);
      && r.error.AtIndex?
      && r.error.index < |parts|
      && ConvertStringToPrimitive(parts[r.error.index], t.elem) == Err(r.error.cause)
      && forall j :: 0 <= j < r.error.index ==> ConvertStringToPrimitive(parts[j], t.elem).Ok?
  {
    if !t.SliceT? || !IsSimpleShape(t.elem) then Err(Unsupported)
    else
      var parts := SplitString(c, s);
      match MapResults(parts, p => ConvertStringToPrimitive(p, t.elem))
      case Err(fail) => Err(AtIndex(fail.index, fail.cause))
      case Ok(items) => Ok(SliceV(t.elem, items))
  }

  // ----- pointers -----

  /** How many pointer levels a type has. */
  function PtrDepth(t: Shape): nat {
    if t.PtrT? then 1 + PtrDepth(t.target) else 0
  }

  /** The type under all pointer levels. */
  function PtrBase(t: Shape): (b: Shape)
    ensures !b.PtrT?
  {
    if t.PtrT? then PtrBase(t.target) else t
  }

  /** Wraps a converted value in freshly allocated pointers, one per pointer level of `t`. */
  function Rewrap(t: Shape, d: Value): (r: Value)
    ensures t.PtrT? ==> r == PtrV(t.target, Rewrap(t.target, d))
    ensures !t.PtrT? ==> r == d
  {
    if t.PtrT? then PtrV(t.target, Rewrap(t.target, d)) else d
  }

  /** The pointer-rebuilding loop at the end of `ConvertType`. As written, each level is
      allocated with `reflect.New(ptrStack[i])`, one level too deep, so the first `Set` panics
      whenever the destination is a pointer type; repaired, each level points to the previous. */
  function RewrapPointers(rev: Revision, t: Shape, d: Value): (r: Result<Value, ConvError>)
    ensures !t.PtrT? ==> r == Ok(d)
    ensures t.PtrT? && rev.AsWritten? ==> r.Err? && r.error.Panic?
    ensures rev.Repaired? ==> r == Ok(Rewrap(t, d))
  {
    if !t.PtrT? then Ok(d)
    else if rev.AsWritten? then Err(Panic("reflect.Set: value is not assignable to a pointer type"))
    else Ok(Rewrap(t, d))
  }

  // ----- the recursive engine -----

  /** `map[string]interface{}`, the only map type the engine converts into structs. */
  predicate IsStringAnyMap(v: Value) {
    (v.MapV? || v.NilMapV?) && v.key == StringT && v.val == AnyT
  }

  /** `tryFlattenEmptyKeyMap`: a `map[string]interface{}` with one entry under the empty key
      stands for that entry's value (a nil value means no flattening). */
  function TryFlattenEmptyKeyMap(v: Value): (r: Option<Value>)
    ensures r.Some? <==>
      v.MapV? && IsStringAnyMap(v) && |v.entries| == 1 && v.entries[0].key == StrV("") && v.entries[0].val != Nil
    ensures r.Some? ==> r.value == v.entries[0].val
  {
    if v.MapV? && IsStringAnyMap(v) && |v.entries| == 1 && v.entries[0].key == StrV("") && v.entries[0].val != Nil
    then Some(v.entries[0].val)
    else None
  }

  /** `dertermineSliceTypeForMapValue`: the slice type an empty slice becomes inside a
      struct-to-map result; slices of maps and structs become slices of `map[string]interface{}`. */
  function DetermineSliceType(s: Shape): (r: Option<Shape>)
    requires s.SliceT?
    ensures r.Some? ==> r.value.SliceT?
    ensures IsSimpleShape(s.elem) ==> r == Some(s)
  {
    if IsSimpleShape(s.elem) then Some(s)
    else if s.elem.MapT? || s.elem.StructT? then Some(SliceT(MapT(StringT, AnyT)))
    else if s.elem.SliceT? then
      match DetermineSliceType(s.elem)
      case None => None
      case Some(inner) => Some(SliceT(inner))
    else None
  }

  /** The entries that are present in a list of optional entries, in order. */
  function Present(cells: seq<Option<Entry>>): (r: seq<Entry>)
    ensures |r| <= |cells|
    ensures forall e :: e in r <==> Some(e) in cells
    decreases |cells|
  {
    if |cells| == 0 then []
    else
      var rest := Present(cells[1..]);
      assert forall x :: x in cells <==> x == cells[0] || x in cells[1..];
      match cells[0]
      case None => rest
      case Some(e) => [e] + rest
  }

  /** `ConvertType`: nil becomes nil for map, slice and pointer types and fails otherwise; any
      other value is converted to the type under all pointer levels and then re-wrapped. */
  function ConvertType(rev: Revision, c: Config, v: Value, t: Shape): (r: Result<Value, ConvError>)
    ensures v == Nil ==> r == if CanBeNil(t) then Ok(Nil) else Err(NilTo(t))
    ensures v != Nil && r.Ok? ==> r.value != Nil
    decreases v, 6
  {
    if v == Nil then (if CanBeNil(t) then Ok(Nil) else Err(NilTo(t)))
    else
      match ConvertToNonPtr(rev, c, v, PtrBase(t))
      case Err(e) => Err(e)
      case Ok(d) => RewrapPointers(rev, t, d)
  }

  /** `convertToNonPtr`: dispatches on the source and destination kinds. */
  function ConvertToNonPtr(rev: Revision, c: Config, v: Value, t: Shape): (r: Result<Value, ConvError>)
    requires v != Nil
    ensures r.Ok? ==> r.value != Nil
    decreases v, 5
  {
    if IsPrimitiveValue(v) && IsPrimitiveShape(t) then ConvertPrimitiveToPrimitive(c, v, t)
    else if v.TimeV? then
      if t == TimeT then Ok(v)
      else if t == StringT then
        if rev.AsWritten? && c.timeToString.None? then Err(Panic("call of nil TimeToString"))
        else
          match FormatTime(c, v.nanos)
          case Ok(s) => Ok(StrV(s))
          case Err(e) => Err(e)
      else if IsPrimitiveShape(t) then ConvertPrimitiveToPrimitive(c, IntV(Int64, UnixSeconds(v.nanos)), t)
      else Err(Unsupported)
    else if v.MapV? || v.NilMapV? then
      match TryFlattenEmptyKeyMap(v)
      case Some(inner) => ConvertType(rev, c, inner, t)
      case None =>
        if t.MapT? then ConvertMapToMap(rev, c, v, t)
        else if IsStructKind(t) then
          if IsStringAnyMap(v) then ConvertMapToStruct(rev, c, v, t) else Err(Unsupported)
        else Err(Unsupported)
    else if v.StructV? then
      if t.MapT? then ConvertStructToMap(rev, c, v)
      else if IsStructKind(t) then ConvertStructToStruct(rev, c, v, t)
      else Err(Unsupported)
    else if t.SliceT? then
      if v.StrV? then ConvertStringToSlice(c, v.s, t)
      else if v.SliceV? then ConvertSliceToSlice(rev, c, v, t)
      else Err(Unsupported)
    else Err(Unsupported)
  }

  /** `ConvertSliceToSlice`: element i of the result is element i of the source converted to
      the destination element type; the first failure aborts with its index. */
  function ConvertSliceToSlice(rev: Revision, c: Config, v: Value, t: Shape): (r: Result<Value, ConvError>)
    ensures v == Nil ==> r == Err(SourceNil)
    ensures v != Nil && (!v.SliceV? || !t.SliceT?) ==> r == Err(Unsupported)
    ensures r.Ok? ==>
      && v.SliceV? && t.SliceT?
      && r.value.SliceV? && r.value.elem == t.elem
      && |r.value.items| == |v.items|
      && forall i :: 0 <= i < |v.items| ==> ConvertType(rev, c, v.items[i], t.elem) == Ok(r.value.items[i])
    ensures v.SliceV? && t.SliceT? ==> (r.Ok? <==> forall i :: 0 <= i < |v.items| ==>
      ConvertType(rev, c, v.items[i], t.elem).Ok? && Assignable(ConvertType(rev, c, v.items[i], t.elem).value, t.elem))
    ensures r.Err? && v.SliceV? && t.SliceT? ==>
      || r.error.Panic?
      || (&& r.error.AtIndex?
          && r.error.index < |v.items|
          && ConvertType(rev, c, v.items[r.error.index], t.elem) == Err(r.error.cause)
          && forall j :: 0 <= j < r.error.index ==> ConvertType(rev, c, v.items[j], t.elem).Ok?)
    decreases v, 4
  {
    if v == Nil then Err(SourceNil)
    else if !v.SliceV? || !t.SliceT? then Err(Unsupported)
    else
      match MapResults(v.items, (x: Value) requires x in v.items =>
        match ConvertType(rev, c, x, t.elem)
        case Err(e) => Err(e)
        case Ok(y) => if Assignable(y, t.elem) then Ok(y) else Err(Panic("reflect.Append: value is not assignable")))
      case Err(fail) => Err(Within(fail.cause, e => AtIndex(fail.index, e)))
      case Ok(ys) => Ok(SliceV(t.elem, ys))
  }

  /** One entry of `ConvertMapToMap`: key and value converted independently, then stored. */
  function ConvertEntry(rev: Revision, c: Config, v: Value, e: Entry, t: Shape): (r: Result<Entry, ConvError>)
    requires v.MapV? && e in v.entries && t.MapT?
    decreases v, 2
  {
    match ConvertType(rev, c, e.key, t.key)
    case Err(x) => Err(Within(x, e => AtKey(e)))
    case Ok(k) =>
      match ConvertType(rev, c, e.val, t.val)
      case Err(x) => Err(Within(x, e => AtValue(e)))
      case Ok(y) =>
        if !Assignable(k, t.key) then Err(Panic("reflect.Value.SetMapIndex: key is not assignable"))
        else if y != Nil && !Assignable(y, t.val) then Err(Panic("reflect.Value.SetMapIndex: value is not assignable"))
        else Ok(Entry(k, y))
  }

  /** No later entry of `v` converts to the same destination key as entry `i`: key collisions
      among converted keys are resolved by the last write. */
  predicate FinalWrite(rev: Revision, c: Config, v: Value, t: Shape, i: nat)
    requires v.MapV? && t.MapT? && i < |v.entries|
    requires forall j :: 0 <= j < |v.entries| ==> ConvertEntry(rev, c, v, v.entries[j], t).Ok?
    decreases v, 3
  {
    forall j :: i < j < |v.entries| ==>
      ConvertEntry(rev, c, v, v.entries[j], t).value.key != ConvertEntry(rev, c, v, v.entries[i], t).value.key
  }

  /** `ConvertMapToMap`: a nil map becomes the nil map of the destination type; otherwise every
      key and value is converted and stored in a new map, and any failure aborts. */
  function ConvertMapToMap(rev: Revision, c: Config, v: Value, t: Shape): (r: Result<Value, ConvError>)
    ensures !(v.MapV? || v.NilMapV?) || !t.MapT? ==> r == Err(Unsupported)
    ensures v.NilMapV? && t.MapT? ==> r == Ok(NilMapV(t.key, t.val))
    ensures v.MapV? && t.MapT? ==> (r.Ok? <==> forall i :: 0 <= i < |v.entries| ==> ConvertEntry(rev, c, v, v.entries[i], t).Ok?)
    ensures r.Ok? && v.MapV? ==>
      && r.value.MapV? && r.value.key == t.key && r.value.val == t.val
      && UniqueKeys(r.value.entries)
      && forall i :: 0 <= i < |v.entries| ==> ConvertEntry(rev, c, v, v.entries[i], t).Ok?
    ensures r.Ok? && v.MapV? ==> forall i :: 0 <= i < |v.entries| && FinalWrite(rev, c, v, t, i) ==>
      MapLookup(r.value.entries, ConvertEntry(rev, c, v, v.entries[i], t).value.key)
        == Stored(ConvertEntry(rev, c, v, v.entries[i], t).value.val)
    decreases v, 4
  {
    if !(v.MapV? || v.NilMapV?) || !t.MapT? then Err(Unsupported)
    else if v.NilMapV? then Ok(NilMapV(t.key, t.val))
    else
      match MapResults(v.entries, (e: Entry) requires e in v.entries => ConvertEntry(rev, c, v, e, t))
      case Err(fail) => Err(fail.cause)
      case Ok(ps) =>
        FromPairsLookup(ps, Nil);
        FromPairsFinal(ps);
        Ok(MapV(t.key, t.val, FromPairs(ps)))
  }

  /** One destination field of `ConvertMapToStruct`: looked up by the indexer; a missing or
      unexported field keeps its zero value, a found one is converted to the field's type. */
  function FillFieldFromMap(rev: Revision, c: Config, v: Value, f: Field): (r: Result<FieldValue, ConvError>)
    requires v.MapV?
    ensures r.Ok? ==> r.value.name == f.name && r.value.shape == f.shape
    decreases v, 3
  {
    var keys := MapKeyNames(v.entries);
    match IndexName(c.nameIndexer, keys, f.name)
    case None => Ok(FieldValue(f.name, f.shape, ZeroOf(f.shape)))
    case Some(j) =>
      if !Exported(f.name) then Ok(FieldValue(f.name, f.shape, ZeroOf(f.shape)))
      else
        match ConvertType(rev, c, v.entries[j].val, f.shape)
        case Err(x) => Err(Within(x, e => AtField(f.name, e)))
        case Ok(y) =>
          if Assignable(y, f.shape) then Ok(FieldValue(f.name, f.shape, y))
          else Err(Panic("reflect.Set: value is not assignable to the field"))
  }

  /** `ConvertMapToStruct` (its source is a `map[string]interface{}`): each field of the
      destination struct is filled from the map; `time.Time` has no exported field and comes out
      zero. */
  function ConvertMapToStruct(rev: Revision, c: Config, v: Value, t: Shape): (r: Result<Value, ConvError>)
    requires IsStringAnyMap(v)
    ensures v.NilMapV? ==> r == Err(SourceNil)
    ensures v.MapV? && !IsStructKind(t) ==> r == Err(Unsupported)
    ensures v.MapV? && t.TimeT? ==> r == Ok(TimeV(ZeroTimeNanos))
    ensures v.MapV? && t.StructT? ==> (r.Ok? <==> forall i :: 0 <= i < |t.fields| ==> FillFieldFromMap(rev, c, v, t.fields[i]).Ok?)
    ensures r.Ok? && t.StructT? ==>
      && r.value.StructV?
      && |r.value.fields| == |t.fields|
      && forall i :: 0 <= i < |t.fields| ==> FillFieldFromMap(rev, c, v, t.fields[i]) == Ok(r.value.fields[i])
    decreases v, 4
  {
    if v.NilMapV? then Err(SourceNil)
    else if !IsStructKind(t) then Err(Unsupported)
    else if t.TimeT? then Ok(TimeV(ZeroTimeNanos))
    else
      match MapResults(t.fields, (f: Field) requires f in t.fields => FillFieldFromMap(rev, c, v, f))
      case Err(fail) => Err(fail.cause)
      case Ok(fvs) => Ok(StructV(fvs))
  }

  /** One destination field of `ConvertStructToStruct`: looked up among the exported source
      fields; handled like `FillFieldFromMap`. */
  function FillFieldFromStruct(rev: Revision, c: Config, v: Value, f: Field): (r: Result<FieldValue, ConvError>)
    requires v.StructV?
    ensures r.Ok? ==> r.value.name == f.name && r.value.shape == f.shape
    decreases v, 3
  {
    var keys := FieldKeyNames(v.fields);
    match IndexName(c.nameIndexer, keys, f.name)
    case None => Ok(FieldValue(f.name, f.shape, ZeroOf(f.shape)))
    case Some(j) =>
      if !Exported(f.name) then Ok(FieldValue(f.name, f.shape, ZeroOf(f.shape)))
      else
        match ConvertType(rev, c, v.fields[j].value, f.shape)
        case Err(x) => Err(Within(x, e => AtField(f.name, e)))
        case Ok(y) =>
          if Assignable(y, f.shape) then Ok(FieldValue(f.name, f.shape, y))
          else Err(Panic("reflect.Set: value is not assignable to the field"))
  }

  /** `ConvertStructToStruct`: the exported source fields are matched to destination fields by
      name; a `time.Time` on either side has no exported field. */
  function ConvertStructToStruct(rev: Revision, c: Config, v: Value, t: Shape): (r: Result<Value, ConvError>)
    ensures v == Nil ==> r == Err(SourceNil)
    ensures v != Nil && (!IsStructKind(t) || !(v.StructV? || v.TimeV?)) ==> r == Err(Unsupported)
    ensures v.StructV? && t.StructT? ==> (r.Ok? <==> forall i :: 0 <= i < |t.fields| ==> FillFieldFromStruct(rev, c, v, t.fields[i]).Ok?)
    ensures r.Ok? && t.StructT? && v.StructV? ==>
      && r.value.StructV?
      && |r.value.fields| == |t.fields|
      && forall i :: 0 <= i < |t.fields| ==> FillFieldFromStruct(rev, c, v, t.fields[i]) == Ok(r.value.fields[i])
    decreases v, 4
  {
    if v == Nil then Err(SourceNil)
    else if !IsStructKind(t) || !(v.StructV? || v.TimeV?) then Err(Unsupported)
    else if v.TimeV? then Ok(ZeroOf(t))
    else if t.TimeT? then Ok(TimeV(ZeroTimeNanos))
    else
      match MapResults(t.fields, (f: Field) requires f in t.fields => FillFieldFromStruct(rev, c, v, f))
      case Err(fail) => Err(fail.cause)
      case Ok(fvs) => Ok(StructV(fvs))
  }

  /** One source field of `ConvertStructToMap`: unexported fields are skipped. */
  function FieldToMapEntry(rev: Revision, c: Config, v: Value, f: FieldValue): (r: Result<Option<Entry>, ConvError>)
    requires v.StructV? && f in v.fields
    ensures r.Ok? ==> (r.value.Some? <==> Exported(f.name))
    ensures r.Ok? && r.value.Some? ==>
      r.value.value.key == StrV(f.name) && ConvertToMapValue(rev, c, f.value) == Ok(r.value.value.val)
    decreases v, 2
  {
    if !Exported(f.name) then Ok(None)
    else
      match ConvertToMapValue(rev, c, f.value)
      case Err(x) => Err(Within(x, e => AtField(f.name, e)))
      case Ok(y) => Ok(Some(Entry(StrV(f.name), y)))
  }

  /** `ConvertStructToMap`: a `map[string]interface{}` holding every exported field under its
      name, each value converted by `ConvertToMapValue`. */
  function ConvertStructToMap(rev: Revision, c: Config, v: Value): (r: Result<Value, ConvError>)
    ensures v == Nil ==> r == Err(SourceNil)
    ensures v != Nil && !(v.StructV? || v.TimeV?) ==> r == Err(Unsupported)
    ensures v.TimeV? ==> r == Ok(MapV(StringT, AnyT, []))
    ensures r.Ok? ==> r.value.MapV? && r.value.key == StringT && r.value.val == AnyT
    ensures v.StructV? ==> (r.Ok? <==> forall i :: 0 <= i < |v.fields| ==> FieldToMapEntry(rev, c, v, v.fields[i]).Ok?)
    ensures r.Ok? && v.StructV? ==> UniqueKeys(r.value.entries)
    ensures r.Ok? && v.StructV? && DistinctFieldNames(v.fields) ==>
      forall i :: 0 <= i < |v.fields| && Exported(v.fields[i].name) ==>
        ConvertToMapValue(rev, c, v.fields[i].value).Ok? &&
        MapLookup(r.value.entries, StrV(v.fields[i].name)) == Stored(ConvertToMapValue(rev, c, v.fields[i].value).value)
    decreases v, 4
  {
    if v == Nil then Err(SourceNil)
    else if v.TimeV? then Ok(MapV(StringT, AnyT, []))
    else if !v.StructV? then Err(Unsupported)
    else
      match MapResults(v.fields, (f: FieldValue) requires f in v.fields => FieldToMapEntry(rev, c, v, f))
      case Err(fail) => Err(fail.cause)
      case Ok(cells) =>
        var es := FromPairs(Present(cells));
        FromPairsLookup(Present(cells), Nil);
        if DistinctFieldNames(v.fields) then
          FieldEntriesLookup(rev, c, v, cells);
          Ok(MapV(StringT, AnyT, es))
        else Ok(MapV(StringT, AnyT, es))
  }

  /** The map built from the converted fields of a struct with distinct field names holds each
      exported field's converted value under its name. */
  lemma FieldEntriesLookup(rev: Revision, c: Config, v: Value, cells: seq<Option<Entry>>)
    requires v.StructV? && DistinctFieldNames(v.fields)
    requires |cells| == |v.fields|
    requires forall i :: 0 <= i < |v.fields| ==> FieldToMapEntry(rev, c, v, v.fields[i]) == Ok(cells[i])
    ensures forall i :: 0 <= i < |v.fields| && Exported(v.fields[i].name) ==>
      ConvertToMapValue(rev, c, v.fields[i].value).Ok? &&
      MapLookup(FromPairs(Present(cells)), StrV(v.fields[i].name)) == Stored(ConvertToMapValue(rev, c, v.fields[i].value).value)
    decreases v, 3
  {
    var ps := Present(cells);
    forall i | 0 <= i < |v.fields| && Exported(v.fields[i].name)
      ensures ConvertToMapValue(rev, c, v.fields[i].value).Ok?
      ensures MapLookup(FromPairs(ps), StrV(v.fields[i].name)) == Stored(ConvertToMapValue(rev, c, v.fields[i].value).value)
    {
      var e := cells[i].value;
      assert e in ps;
      forall j | 0 <= j < |ps| && ps[j].key == e.key
        ensures ps[j] == e
      {
        assert Some(ps[j]) in cells;
        var m :| 0 <= m < |cells| && cells[m] == Some(ps[j]);
        assert v.fields[m].name == v.fields[i].name;
      }
      LastWriteSingle(ps, e);
      FromPairsLookup(ps, e.key);
    }
  }

  /** One map entry inside `convertToMapValue`: the key becomes a string through `Convert`
      (a nil key leaves it empty), the value is converted recursively. */
  function MapEntryToMapValue(rev: Revision, c: Config, v: Value, e: Entry): (r: Result<Entry, ConvError>)
    requires v.MapV? && e in v.entries
    decreases v, 3
  {
    var key: Result<Value, ConvError> :=
      if e.key == Nil then Ok(StrV(""))
      else ConvertToNonPtr(rev, c, e.key, StringT);
    match key
    case Err(x) => Err(Within(x, e => AtKey(e)))
    case Ok(StrV(k)) =>
      (match ConvertToMapValue(rev, c, e.val)
       case Err(x) => Err(Within(x, e => AtValue(e)))
       case Ok(y) => Ok(Entry(StrV(k), y)))
    case Ok(_) => Err(Panic("reflect.Set: value is not assignable to string"))
  }

  /** One slice element inside `convertToMapValue`: every element must convert to the type of
      the first converted element. */
  function SliceItemToMapValue(rev: Revision, c: Config, v: Value, x: Value, s0: Shape): (r: Result<Value, ConvError>)
    requires v.SliceV? && x in v.items
    decreases v, 3
  {
    match ConvertToMapValue(rev, c, x)
    case Err(e) => Err(e)
    case Ok(y) => if Assignable(y, s0) then Ok(y) else Err(Panic("reflect.Append: value is not assignable"))
  }

  /** `convertToMapValue`: what one field value becomes inside a struct-to-map result. Pointers
      are followed, structs become maps, slices and maps are converted element by element, a nil
      interface becomes the zero `reflect.Value` (which deletes its key), simple values are kept.
      As written, a `time.Time` is caught by the struct case and becomes an empty map. */
  function ConvertToMapValue(rev: Revision, c: Config, v: Value): (r: Result<Value, ConvError>)
    ensures v == Nil ==> r == Ok(Nil)
    ensures IsPrimitiveValue(v) ==> r == Ok(v)
    ensures v.TimeV? ==> r == Ok(if rev.AsWritten? then MapV(StringT, AnyT, []) else v)
    ensures v.StructV? ==> r == ConvertStructToMap(rev, c, v)
    decreases v, 5
  {
    match v
    case Nil => Ok(Nil)
    case PtrV(_, p) => ConvertToMapValue(rev, c, p)
    case StructV(_) => ConvertStructToMap(rev, c, v)
    case TimeV(_) => if rev.AsWritten? then ConvertStructToMap(rev, c, v) else Ok(v)
    case SliceV(e, items) =>
      if |items| == 0 then
        (match DetermineSliceType(SliceT(e))
         case None => Err(Unsupported)
         case Some(st) => Ok(SliceV(st.elem, [])))
      else
        (match ConvertToMapValue(rev, c, items[0])
         case Err(x) => Err(Within(x, e => AtIndex(0, e)))
         case Ok(y0) =>
           if y0 == Nil then Err(Panic("reflect: call of reflect.Value.Type on zero Value"))
           else
             var s0 := ShapeOf(y0);
             (match MapResults(items, (x: Value) requires x in items => SliceItemToMapValue(rev, c, v, x, s0))
              case Err(fail) => Err(Within(fail.cause, e => AtIndex(fail.index, e)))
              case Ok(ys) => Ok(SliceV(s0, ys))))
    case MapV(_, _, es) =>
      (match MapResults(es, (e: Entry) requires e in es => MapEntryToMapValue(rev, c, v, e))
       case Err(fail) => Err(fail.cause)
       case Ok(ps) => Ok(MapV(StringT, AnyT, FromPairs(ps))))
    case NilMapV(_, _) => Ok(MapV(StringT, AnyT, []))
    case _ => if IsSimpleShape(ShapeOf(v)) then Ok(v) else Err(Unsupported)
  }

  // ----- Convert -----

  /** The type of the variable a destination pointer finally designates: pointer levels are
      followed until a non-pointer type; a nil pointer on the way leaves nothing to write. */
  function TargetShape(dst: Value): (r: Option<Shape>)
    ensures r.Some? ==> !r.value.PtrT?
    decreases dst
  {
    match dst
    case PtrV(t, p) => if t.PtrT? then TargetShape(p) else Some(t)
    case _ => None
  }

  /** Writes `x` into the variable that `dst` finally designates. */
  function StoreThrough(dst: Value, x: Value): (r: Value)
    ensures dst.PtrV? ==> r.PtrV? && r.target == dst.target
    decreases dst
  {
    match dst
    case PtrV(t, p) => if t.PtrT? then PtrV(t, StoreThrough(p, x)) else PtrV(t, x)
    case _ => dst
  }

  /** The content that a destination pointer finally designates. */
  function LoadThrough(dst: Value): Option<Value>
    decreases dst
  {
    match dst
    case PtrV(t, p) => if t.PtrT? then LoadThrough(p) else Some(p)
    case _ => None
  }

  /** `Conv.Convert(src, dst)`: `dst` must be a pointer (otherwise the call panics); a nil source
      leaves it untouched; otherwise the source is converted to the type under all pointer levels
      and stored there. The result is the destination afterwards. */
  function Convert(rev: Revision, c: Config, src: Value, dst: Value): (r: Result<Value, ConvError>)
    ensures !(dst.PtrV? || dst.NilPtrV?) ==> r.Err? && r.error.Panic?
    ensures (dst.PtrV? || dst.NilPtrV?) && src == Nil ==> r == Ok(dst)
    ensures src != Nil && r.Ok? ==>
      && TargetShape(dst).Some?
      && LoadThrough(r.value).Some?
      && ConvertToNonPtr(rev, c, src, TargetShape(dst).value) == Ok(LoadThrough(r.value).value)
  {
    if !(dst.PtrV? || dst.NilPtrV?) then Err(Panic("the destination value must be a pointer"))
    else if src == Nil then Ok(dst)
    else
      match TargetShape(dst)
      case None => Err(Panic("reflect: call of reflect.Value.Type on zero Value"))
      case Some(base) =>
        match ConvertToNonPtr(rev, c, src, base)
        case Err(e) => Err(e)
        case Ok(x) =>
          if Assignable(x, base) then
            StoreLoad(dst, x);
            Ok(StoreThrough(dst, x))
          else Err(Panic("reflect.Set: value is not assignable"))
  }

  lemma {:induction false} StoreLoad(dst: Value, x: Value)
    requires TargetShape(dst).Some?
    ensures LoadThrough(StoreThrough(dst, x)) == Some(x)
    ensures TargetShape(StoreThrough(dst, x)) == TargetShape(dst)
    decreases dst
  {
    if dst.target.PtrT? {
      StoreLoad(dst.pointee, x);
    }
  }
}

=== FILE: conv_properties.dfy ===
/** Properties of the newer conversion engine: round trips through strings, value-preserving
    integer conversion, the bool rule, flattening, pointer re-wrapping and struct/map round trips. */
module ConvProperties {
  import opened Wrappers
  import opened GoInt
  import opened Values
  import opened Conv
  import Strings
  import Strconv

  /** A primitive value whose integer content fits its declared kind, as every Go value does. */
  predicate WellFormedPrimitive(v: Value) {
    IsPrimitiveValue(v)
    && (v.IntV? ==> IntFits(v.ik, v.i))
    && (v.UintV? ==> UintFits(v.uk, v.n))
  }

  /** Converting a primitive value to its own type gives it back unchanged. */
  lemma PrimitiveIdentity(c: Config, v: Value)
    requires WellFormedPrimitive(v)
    ensures ConvertPrimitiveToPrimitive(c, v, ShapeOf(v)) == Ok(v)
  {
    match v
    case IntV(k, i) =>
      ThroughDecimal(c, v, IntT(k));
      Strconv.ParseIntFormat(i, IntBits(k));
    case UintV(k, n) =>
      ThroughDecimal(c, v, UintT(k));
      Strconv.ParseUintFormat(n, UintBits(k));
    case _ =>
  }

  /** The string form of a primitive value converts back to the same value. */
  lemma PrimitiveStringRoundTrip(c: Config, v: Value)
    requires WellFormedPrimitive(v)
    ensures ConvertPrimitiveToPrimitive(c, v, StringT).Ok?
    ensures ConvertPrimitiveToPrimitive(c, ConvertPrimitiveToPrimitive(c, v, StringT).value, ShapeOf(v)) == Ok(v)
  {
    match v
    case IntV(k, i) => IntStringRoundTrip(c, k, i);
    case UintV(k, n) => UintStringRoundTrip(c, k, n);
    case BoolV(b) =>
      assert ConvertPrimitiveToPrimitive(c, v, StringT) == Ok(StrV(if b then "1" else "0"));
    case StrV(x) =>
      assert ConvertPrimitiveToPrimitive(c, v, StringT) == Ok(v);
  }

  lemma IntStringRoundTrip(c: Config, k: IntKind, i: int)
    requires IntFits(k, i)
    ensures ConvertPrimitiveToPrimitive(c, IntV(k, i), StringT) == Ok(StrV(Strconv.FormatInt(i)))
    ensures ConvertPrimitiveToPrimitive(c, StrV(Strconv.FormatInt(i)), IntT(k)) == Ok(IntV(k, i))
  {
    ThroughDecimal(c, IntV(k, i), StringT);
    FromString(c, Strconv.FormatInt(i), IntT(k));
    Strconv.ParseIntFormat(i, IntBits(k));
  }

  lemma UintStringRoundTrip(c: Config, k: UintKind, n: nat)
    requires UintFits(k, n)
    ensures ConvertPrimitiveToPrimitive(c, UintV(k, n), StringT) == Ok(StrV(Strconv.FormatNat(n)))
    ensures ConvertPrimitiveToPrimitive(c, StrV(Strconv.FormatNat(n)), UintT(k)) == Ok(UintV(k, n))
  {
    ThroughDecimal(c, UintV(k, n), StringT);
    FromString(c, Strconv.FormatNat(n), UintT(k));
    Strconv.ParseUintFormat(n, UintBits(k));
  }

  /** A string reaches every destination other than bool by parsing. */
  lemma FromString(c: Config, s: string, t: Shape)
    requires t != BoolT
    ensures ConvertPrimitiveToPrimitive(c, StrV(s), t) == ConvertStringToPrimitive(s, t)
  {
    assert ConvertSimpleToString(c, StrV(s)) == Ok(s);
  }

  /** The integer content of an integer value. */
  function IntegerOf(v: Value): int
    requires v.IntV? || v.UintV?
  {
    if v.IntV? then v.i else v.n
  }

  /** Conversion between integer kinds keeps the number when it fits the destination and fails
      with a range error when it does not; it never wraps around. */
  lemma IntegerToSigned(c: Config, v: Value, k: IntKind)
    requires v.IntV? || v.UintV?
    ensures ConvertPrimitiveToPrimitive(c, v, IntT(k)) ==
      if IntFits(k, IntegerOf(v)) then Ok(IntV(k, IntegerOf(v)))
      else Err(ParseFailure(Strconv.RangeError))
  {
    ThroughDecimal(c, v, IntT(k));
    Strconv.ParseIntFormat(IntegerOf(v), IntBits(k));
  }

  /** Conversion to an unsigned kind keeps a non-negative number that fits, fails with a range
      error on one that does not fit, and with a syntax error on a negative number. */
  lemma IntegerToUnsigned(c: Config, v: Value, k: UintKind)
    requires v.IntV? || v.UintV?
    ensures ConvertPrimitiveToPrimitive(c, v, UintT(k)) ==
      if IntegerOf(v) < 0 then Err(ParseFailure(Strconv.SyntaxError))
      else if UintFits(k, IntegerOf(v)) then Ok(UintV(k, IntegerOf(v)))
      else Err(ParseFailure(Strconv.RangeError))
  {
    var x := IntegerOf(v);
    ThroughDecimal(c, v, UintT(k));
    if x < 0 {
      Strconv.ParseUintNegative(x, UintBits(k));
    } else {
      Strconv.ParseUintFormat(x, UintBits(k));
    }
  }

  /** An integer reaches every destination other than bool through its decimal form. */
  lemma ThroughDecimal(c: Config, v: Value, t: Shape)
    requires (v.IntV? || v.UintV?) && t != BoolT
    ensures ConvertPrimitiveToPrimitive(c, v, t) == ConvertStringToPrimitive(Strconv.FormatInt(IntegerOf(v)), t)
  {
    assert ConvertSimpleToString(c, v) == Ok(Strconv.FormatInt(IntegerOf(v)));
  }

  /** Every primitive-to-bool conversion applies the truth rule of `ConverToBool` rather than
      going through the string form: 33 becomes true although "33" is no boolean spelling. */
  lemma BoolRuleNotStringBridge(c: Config)
    ensures ConvertPrimitiveToPrimitive(c, IntV(Int, 33), BoolT) == Ok(BoolV(true))
    ensures ConvertSimpleToString(c, IntV(Int, 33)) == Ok("33")
    ensures ConvertStringToPrimitive("33", BoolT).Err?
  {
    assert Strconv.FormatInt(33) == "33" by {
      assert Strconv.FormatNat(33) == Strconv.FormatNat(3) + [Strconv.DigitChar(3)];
    }
  }

  /** An integer converts to true exactly when it is non-zero. */
  lemma IntegerToBool(c: Config, v: Value)
    requires v.IntV? || v.UintV?
    ensures ConvertPrimitiveToPrimitive(c, v, BoolT) == Ok(BoolV(IntegerOf(v) != 0))
  {
  }

  /** The `""`-keyed single-entry map converts exactly as the value it wraps. */
  lemma FlattenConvertsInner(rev: Revision, c: Config, x: Value, t: Shape)
    requires x != Nil
    ensures ConvertType(rev, c, MapV(StringT, AnyT, [Entry(StrV(""), x)]), t) == ConvertType(rev, c, x, t)
  {
    var m := MapV(StringT, AnyT, [Entry(StrV(""), x)]);
    assert TryFlattenEmptyKeyMap(m) == Some(x);
    assert ConvertToNonPtr(rev, c, m, PtrBase(t)) == ConvertType(rev, c, x, PtrBase(t));
    PtrBaseIdempotent(t);
    assert ConvertType(rev, c, x, PtrBase(t)) == ConvertToNonPtr(rev, c, x, PtrBase(t));
  }

  lemma PtrBaseIdempotent(t: Shape)
    ensures PtrBase(PtrBase(t)) == PtrBase(t)
  {
  }

  /** Repaired, a pointer destination receives the conversion to the pointed-to type behind a
      newly allocated pointer, whatever the depth of the pointer chain. */
  lemma PointerTargetRewrapped(c: Config, v: Value, t: Shape)
    requires v != Nil
    ensures ConvertType(Repaired, c, v, PtrT(t)) ==
      match ConvertType(Repaired, c, v, t)
      case Ok(d) => Ok(PtrV(t, d))
      case Err(e) => Err(e)
  {
  }

  /** As written, no non-nil value converts to a pointer type: the conversion either fails or
      panics while re-wrapping. */
  lemma PointerTargetAsWritten(c: Config, v: Value, t: Shape)
    requires v != Nil
    ensures !ConvertType(AsWritten, c, v, PtrT(t)).Ok?
    ensures ConvertToNonPtr(AsWritten, c, v, PtrBase(t)).Ok? ==> ConvertType(AsWritten, c, v, PtrT(t)).error.Panic?
  {
  }

  /** The input that shows it: `ConvertType(1, *int)` panics as written and yields a pointer to 1
      repaired. */
  lemma PointerToIntExample(c: Config)
    ensures ConvertType(AsWritten, c, IntV(Int, 1), PtrT(IntT(Int))).error.Panic?
    ensures ConvertType(Repaired, c, IntV(Int, 1), PtrT(IntT(Int))) == Ok(PtrV(IntT(Int), IntV(Int, 1)))
  {
    var one := IntV(Int, 1);
    assert IntFits(Int, 1) by { assert Pow2(63) == 2 * Pow2(62); }
    PrimitiveIdentity(c, one);
    assert ConvertToNonPtr(AsWritten, c, one, IntT(Int)) == Ok(one);
    PointerTargetAsWritten(c, one, IntT(Int));
    assert ConvertType(Repaired, c, one, IntT(Int)) == Ok(one);
    PointerTargetRewrapped(c, one, IntT(Int));
  }

  /** As written, a time converted to a string calls the `TimeToString` hook even when it is nil
      (the zero `Conv{}`), which panics; repaired, the default RFC 3339 formatting applies. */
  lemma TimeToStringAsWritten(format: int -> string, nanos: int)
    ensures ConvertToNonPtr(AsWritten, DefaultConfig(format), TimeV(nanos), StringT).error.Panic?
    ensures ConvertToNonPtr(Repaired, DefaultConfig(format), TimeV(nanos), StringT) == Ok(StrV(format(nanos)))
  {
  }

  /** Repaired, converting a time to a string agrees with `ConvertSimpleToString` for every
      configuration. */
  lemma TimeToStringRepaired(c: Config, nanos: int)
    ensures ConvertToNonPtr(Repaired, c, TimeV(nanos), StringT).Ok? <==> ConvertSimpleToString(c, TimeV(nanos)).Ok?
    ensures ConvertToNonPtr(Repaired, c, TimeV(nanos), StringT).Ok? ==>
      ConvertToNonPtr(Repaired, c, TimeV(nanos), StringT).value == StrV(ConvertSimpleToString(c, TimeV(nanos)).value)
  {
  }

  // ----- struct and map round trips -----

  /** A field value the struct-to-map direction keeps as it is: a primitive, or (repaired) a time. */
  predicate FlatValue(rev: Revision, x: Value) {
    WellFormedPrimitive(x) || (rev.Repaired? && x.TimeV?)
  }

  /** A struct of exported, distinctly named fields holding flat values of their declared types. */
  predicate FlatRecord(rev: Revision, v: Value) {
    && v.StructV?
    && DistinctFieldNames(v.fields)
    && forall i :: 0 <= i < |v.fields| ==>
      && Exported(v.fields[i].name)
      && FlatValue(rev, v.fields[i].value)
      && v.fields[i].shape == ShapeOf(v.fields[i].value)
  }

  lemma FlatValueConverts(rev: Revision, c: Config, x: Value)
    requires FlatValue(rev, x)
    ensures ConvertType(rev, c, x, ShapeOf(x)) == Ok(x)
    ensures ConvertToMapValue(rev, c, x) == Ok(x)
  {
    if IsPrimitiveValue(x) {
      PrimitiveIdentity(c, x);
    }
  }

  /** A flat record converted to `map[string]interface{}` holds each field under its name. */
  lemma StructToMapFlat(rev: Revision, c: Config, v: Value)
    requires FlatRecord(rev, v)
    ensures ConvertStructToMap(rev, c, v).Ok?
    ensures forall i :: 0 <= i < |v.fields| ==>
      MapLookup(ConvertStructToMap(rev, c, v).value.entries, StrV(v.fields[i].name)) == Some(v.fields[i].value)
  {
    forall i | 0 <= i < |v.fields|
      ensures FieldToMapEntry(rev, c, v, v.fields[i]).Ok?
    {
      FlatValueConverts(rev, c, v.fields[i].value);
    }
  }

  /** Struct to map and back to the same struct type, with the exact name indexer, gives the
      record back. As written this holds for records without time fields; repaired, time fields
      survive too. */
  lemma StructMapRoundTrip(rev: Revision, c: Config, v: Value)
    requires FlatRecord(rev, v) && c.nameIndexer == ExactIndexer
    ensures ConvertStructToMap(rev, c, v).Ok?
    ensures ConvertMapToStruct(rev, c, ConvertStructToMap(rev, c, v).value, ShapeOf(v)) == Ok(v)
  {
    StructToMapFlat(rev, c, v);
    var m := ConvertStructToMap(rev, c, v).value;
    var t := ShapeOf(v);
    forall i | 0 <= i < |t.fields|
      ensures FillFieldFromMap(rev, c, m, t.fields[i]) == Ok(v.fields[i])
    {
      MapFieldBack(rev, c, v, m, i);
    }
    var r := ConvertMapToStruct(rev, c, m, t);
    assert r.value.fields == v.fields;
  }

  /** A field of a flat record fills back from a map holding its value under its name. */
  lemma MapFieldBack(rev: Revision, c: Config, v: Value, m: Value, i: nat)
    requires FlatRecord(rev, v) && c.nameIndexer == ExactIndexer && i < |v.fields|
    requires m.MapV? && UniqueKeys(m.entries) && MapLookup(m.entries, StrV(v.fields[i].name)) == Some(v.fields[i].value)
    ensures FillFieldFromMap(rev, c, m, ShapeOf(v).fields[i]) == Ok(v.fields[i])
  {
    var f := v.fields[i];
    assert ShapeOf(v).fields[i] == Field(f.name, f.shape);
    var keys := MapKeyNames(m.entries);
    var k :| 0 <= k < |m.entries| && m.entries[k].key == StrV(f.name);
    assert Candidate(ExactIndexer, keys, k, f.name);
    var j := IndexName(ExactIndexer, keys, f.name).value;
    assert m.entries[j].key == StrV(f.name);
    MapLookupIn(m.entries, StrV(f.name), m.entries[j].val);
    assert m.entries[j] == Entry(StrV(f.name), m.entries[j].val);
    FlatValueConverts(rev, c, f.value);
    assert Assignable(f.value, f.shape);
  }

  /** Converting a flat record to its own type, with the exact name indexer, copies it. */
  lemma StructCloneRoundTrip(rev: Revision, c: Config, v: Value)
    requires FlatRecord(rev, v) && c.nameIndexer == ExactIndexer
    ensures ConvertStructToStruct(rev, c, v, ShapeOf(v)) == Ok(v)
    ensures ConvertType(rev, c, v, ShapeOf(v)) == Ok(v)
  {
    var t := ShapeOf(v);
    forall i | 0 <= i < |t.fields|
      ensures FillFieldFromStruct(rev, c, v, t.fields[i]) == Ok(v.fields[i])
    {
      CloneField(rev, c, v, i);
    }
    var r := ConvertStructToStruct(rev, c, v, t);
    assert r.value.fields == v.fields;
  }

  /** Each field of a flat record fills from the record itself unchanged. */
  lemma CloneField(rev: Revision, c: Config, v: Value, i: nat)
    requires FlatRecord(rev, v) && c.nameIndexer == ExactIndexer && i < |v.fields|
    ensures FillFieldFromStruct(rev, c, v, ShapeOf(v).fields[i]) == Ok(v.fields[i])
  {
    var fv := v.fields[i];
    var f := ShapeOf(v).fields[i];
    assert f == Field(fv.name, fv.shape);
    var keys := FieldKeyNames(v.fields);
    assert Candidate(ExactIndexer, keys, i, fv.name);
    var j := IndexName(ExactIndexer, keys, fv.name).value;
    assert j == i by {
      assert v.fields[j].name == fv.name;
    }
    FlatValueConverts(rev, c, fv.value);
    assert Assignable(fv.value, f.shape);
  }

  /** As written, a `time.Time` field turns into an empty map in the struct-to-map result;
      repaired, it is kept as a time. */
  lemma TimeFieldInStructToMap(rev: Revision, c: Config, v: Value, i: nat)
    requires v.StructV? && DistinctFieldNames(v.fields)
    requires i < |v.fields| && Exported(v.fields[i].name) && v.fields[i].value.TimeV?
    requires ConvertStructToMap(rev, c, v).Ok?
    ensures MapLookup(ConvertStructToMap(rev, c, v).value.entries, StrV(v.fields[i].name)) ==
      Some(if rev.AsWritten? then MapV(StringT, AnyT, []) else v.fields[i].value)
  {
  }

  /** The input that shows it: a record with one non-zero time field does not survive the struct
      to map to struct round trip as written, and does once repaired. */
  lemma TimeFieldRoundTripExample(c: Config, v: Value)
    requires c.nameIndexer == ExactIndexer && v == StructV([FieldValue("At", TimeT, TimeV(0))])
    ensures ConvertStructToMap(AsWritten, c, v) == Ok(MapV(StringT, AnyT, [Entry(StrV("At"), MapV(StringT, AnyT, []))]))
    ensures var m := ConvertStructToMap(AsWritten, c, v);
      m.Ok? && ConvertMapToStruct(AsWritten, c, m.value, ShapeOf(v)) == Ok(StructV([FieldValue("At", TimeT, TimeV(ZeroTimeNanos))]))
    ensures var m := ConvertStructToMap(Repaired, c, v); m.Ok? && ConvertMapToStruct(Repaired, c, m.value, ShapeOf(v)) == Ok(v)
  {
    TimeFieldToEmptyMap(c, v);
    TimeFieldLostAsWritten(c, v);
    TimeFieldKeptRepaired(c, v);
  }

  lemma TimeFieldLostAsWritten(c: Config, v: Value)
    requires c.nameIndexer == ExactIndexer && v == StructV([FieldValue("At", TimeT, TimeV(0))])
    ensures var m := ConvertStructToMap(AsWritten, c, v);
      m.Ok? && ConvertMapToStruct(AsWritten, c, m.value, ShapeOf(v)) == Ok(StructV([FieldValue("At", TimeT, TimeV(ZeroTimeNanos))]))
  {
    TimeFieldToEmptyMap(c, v);
    EmptyMapToTimeField(c, ConvertStructToMap(AsWritten, c, v).value, ShapeOf(v));
  }

  lemma TimeFieldKeptRepaired(c: Config, v: Value)
    requires c.nameIndexer == ExactIndexer && v == StructV([FieldValue("At", TimeT, TimeV(0))])
    ensures var m := ConvertStructToMap(Repaired, c, v); m.Ok? && ConvertMapToStruct(Repaired, c, m.value, ShapeOf(v)) == Ok(v)
  {
    assert FlatRecord(Repaired, v);
    StructMapRoundTrip(Repaired, c, v);
  }

  lemma TimeFieldToEmptyMap(c: Config, v: Value)
    requires v == StructV([FieldValue("At", TimeT, TimeV(0))])
    ensures ConvertStructToMap(AsWritten, c, v) == Ok(MapV(StringT, AnyT, [Entry(StrV("At"), MapV(StringT, AnyT, []))]))
    ensures ShapeOf(v) == StructT([Field("At", TimeT)])
  {
    assert ShapeOf(v) == StructT([Field("At", TimeT)]);
    var e := Entry(StrV("At"), MapV(StringT, AnyT, []));
    TimeFieldEntry(c, v, v.fields[0]);
    var r := ConvertStructToMap(AsWritten, c, v);
    assert r.Ok?;
    assert MapLookup(r.value.entries, StrV("At")) == Some(MapV(StringT, AnyT, []));
    assert forall x :: x in r.value.entries ==> x == e;
    assert r.value.entries == [e];
  }
  /** As written, the entry for an exported time field holds an empty map. */
  lemma TimeFieldEntry(c: Config, v: Value, f: FieldValue)
    requires v.StructV? && f in v.fields && f == FieldValue("At", TimeT, TimeV(0))
    ensures FieldToMapEntry(AsWritten, c, v, f) == Ok(Some(Entry(StrV("At"), MapV(StringT, AnyT, []))))
  {
  }


  lemma EmptyMapToTimeField(c: Config, m: Value, t: Shape)
    requires c.nameIndexer == ExactIndexer
    requires m == MapV(StringT, AnyT, [Entry(StrV("At"), MapV(StringT, AnyT, []))]) && t == StructT([Field("At", TimeT)])
    ensures ConvertMapToStruct(AsWritten, c, m, t) == Ok(StructV([FieldValue("At", TimeT, TimeV(ZeroTimeNanos))]))
  {
    var empty := MapV(StringT, AnyT, []);
    assert Candidate(ExactIndexer, MapKeyNames(m.entries), 0, "At");
    assert TryFlattenEmptyKeyMap(empty) == None;
    assert ConvertType(AsWritten, c, empty, TimeT) == Ok(TimeV(ZeroTimeNanos));
    assert FillFieldFromMap(AsWritten, c, m, Field("At", TimeT)) == Ok(FieldValue("At", TimeT, TimeV(ZeroTimeNanos)));
    var r := ConvertMapToStruct(AsWritten, c, m, StructT([Field("At", TimeT)]));
    assert r.value.fields == [FieldValue("At", TimeT, TimeV(ZeroTimeNanos))];
  }

  /** Converting a map of primitives to its own type keeps every entry. */
  lemma MapToMapKeepsEntries(rev: Revision, c: Config, v: Value)
    requires v.MapV? && UniqueKeys(v.entries) && IsPrimitiveShape(v.key) && IsPrimitiveShape(v.val)
    requires forall i :: 0 <= i < |v.entries| ==>
      && WellFormedPrimitive(v.entries[i].key) && ShapeOf(v.entries[i].key) == v.key
      && WellFormedPrimitive(v.entries[i].val) && ShapeOf(v.entries[i].val) == v.val
    ensures ConvertMapToMap(rev, c, v, ShapeOf(v)).Ok?
    ensures forall i :: 0 <= i < |v.entries| ==>
      MapLookup(ConvertMapToMap(rev, c, v, ShapeOf(v)).value.entries, v.entries[i].key) == Some(v.entries[i].val)
  {
    var t := ShapeOf(v);
    forall i | 0 <= i < |v.entries|
      ensures ConvertEntry(rev, c, v, v.entries[i], t) == Ok(v.entries[i])
    {
      EntryIdentity(rev, c, v, v.entries[i], t);
    }
    var r := ConvertMapToMap(rev, c, v, t);
    assert r.Ok?;
    forall i | 0 <= i < |v.entries|
      ensures MapLookup(r.value.entries, v.entries[i].key) == Some(v.entries[i].val)
    {
      KeptEntry(rev, c, v, t, i);
    }
  }

  /** Converting a slice of flat values to its own type gives it back unchanged, element by
      element. */
  lemma SliceToSliceIdentity(rev: Revision, c: Config, v: Value)
    requires v.SliceV?
    requires forall i :: 0 <= i < |v.items| ==> FlatValue(rev, v.items[i]) && ShapeOf(v.items[i]) == v.elem
    ensures ConvertSliceToSlice(rev, c, v, ShapeOf(v)) == Ok(v)
  {
    var t := ShapeOf(v);
    forall i | 0 <= i < |v.items|
      ensures ConvertType(rev, c, v.items[i], t.elem) == Ok(v.items[i]) && Assignable(v.items[i], t.elem)
    {
      FlatValueConverts(rev, c, v.items[i]);
    }
    var r := ConvertSliceToSlice(rev, c, v, t);
    assert r.Ok?;
    assert r.value.items == v.items;
  }

  /** When every entry converts to itself and the keys are unique, each entry is the last write
      of its key and survives the map conversion. */
  lemma KeptEntry(rev: Revision, c: Config, v: Value, t: Shape, i: nat)
    requires v.MapV? && t.MapT? && i < |v.entries| && UniqueKeys(v.entries) && v.entries[i].val != Nil
    requires forall j :: 0 <= j < |v.entries| ==> ConvertEntry(rev, c, v, v.entries[j], t) == Ok(v.entries[j])
    ensures ConvertMapToMap(rev, c, v, t).Ok?
    ensures MapLookup(ConvertMapToMap(rev, c, v, t).value.entries, v.entries[i].key) == Some(v.entries[i].val)
  {
    assert FinalWrite(rev, c, v, t, i) by {
      forall j | i < j < |v.entries|
        ensures ConvertEntry(rev, c, v, v.entries[j], t).value.key != ConvertEntry(rev, c, v, v.entries[i], t).value.key
      {
        assert v.entries[j].key != v.entries[i].key;
      }
    }
  }

  lemma EntryIdentity(rev: Revision, c: Config, v: Value, e: Entry, t: Shape)
    requires v.MapV? && e in v.entries && t == MapT(v.key, v.val)
    requires WellFormedPrimitive(e.key) && ShapeOf(e.key) == v.key
    requires WellFormedPrimitive(e.val) && ShapeOf(e.val) == v.val
    ensures ConvertEntry(rev, c, v, e, t) == Ok(e)
  {
    FlatValueConverts(rev, c, e.key);
    FlatValueConverts(rev, c, e.val);
    assert Assignable(e.key, t.key) && Assignable(e.val, t.val);
  }

  /** A destination field the source map has no key for keeps its zero value. */
  lemma MissingFieldKeepsZero(rev: Revision, c: Config, v: Value, t: Shape, i: nat)
    requires IsStringAnyMap(v) && v.MapV? && t.StructT? && i < |t.fields|
    requires forall k :: 0 <= k < |v.entries| ==> !Candidate(c.nameIndexer, MapKeyNames(v.entries), k, t.fields[i].name)
    requires ConvertMapToStruct(rev, c, v, t).Ok?
    ensures ConvertMapToStruct(rev, c, v, t).value.fields[i] == FieldValue(t.fields[i].name, t.fields[i].shape, ZeroOf(t.fields[i].shape))
  {
  }

  // ----- strings and slices -----

  lemma DecimalPart(x: int)
    requires IsInt64(x)
    ensures StringSliceSep !in Strconv.FormatInt(x)
    ensures ConvertStringToPrimitive(Strconv.FormatInt(x), IntT(Int64)) == Ok(IntV(Int64, x))
  {
    var s := Strconv.FormatInt(x);
    Strconv.ParseInt64Format(x);
    if x < 0 {
      assert forall k :: 1 <= k < |s| ==> s[k] == s[1..][k - 1];
    }
  }

  /** The decimal forms of 64-bit integers joined by "~" split back, under the default hooks,
      into the same integers. */
  lemma StringSliceRoundTrip(format: int -> string, xs: seq<int>, parts: seq<string>, ys: seq<Value>)
    requires |xs| >= 1 && forall i :: 0 <= i < |xs| ==> IsInt64(xs[i])
    requires |parts| == |xs| && forall i :: 0 <= i < |xs| ==> parts[i] == Strconv.FormatInt(xs[i])
    requires |ys| == |xs| && forall i :: 0 <= i < |xs| ==> ys[i] == IntV(Int64, xs[i])
    ensures ConvertStringToSlice(DefaultConfig(format), Strings.Join(parts, StringSliceSep), SliceT(IntT(Int64)))
      == Ok(SliceV(IntT(Int64), ys))
  {
    var c := DefaultConfig(format);
    var s := Strings.Join(parts, StringSliceSep);
    forall i | 0 <= i < |parts|
      ensures StringSliceSep !in parts[i]
      ensures ConvertStringToPrimitive(parts[i], IntT(Int64)) == Ok(ys[i])
    {
      DecimalPart(xs[i]);
    }
    Strings.SplitJoin(parts, StringSliceSep);
    assert SplitString(c, s) == parts;
    var r := ConvertStringToSlice(c, s, SliceT(IntT(Int64)));
    assert r.Ok?;
    assert r.value.items == ys;
  }

  /** Integer strings are read in base 0, where underscores may separate digits. */
  lemma UnderscoredDigits(s: string, t: Shape)
    requires s == "1_000" && t == IntT(Int16)
    ensures Conv.ConvertStringToPrimitive(s, t) == Ok(IntV(Int16, 1000))
  {
    Strconv.SignedThousand(s);
    assert Strconv.ParseInt(s, IntBits(t.ik)) == Ok(1000);
  }

  /** The parser reports the first error in reading order: "256x" overflows a `uint8` before the
      bad character is reached. */
  lemma OverflowBeforeBadCharacter(s: string, t: Shape)
    requires s == "256x" && t == UintT(Uint8)
    ensures Conv.ConvertStringToPrimitive(s, t) == Err(Conv.ParseFailure(Strconv.RangeError))
  {
    Strconv.RangeBeforeSyntax();
    assert Strconv.ParseUint(s, UintBits(t.uk)) == Err(Strconv.RangeError);
  }
}

=== FILE: expiration.dfy ===
/** Cache expiration policies (`expiration.go`): a base duration and a random range, both in
    nanoseconds, and the draw of the next time-to-live. The random source is replaced by the two
    numbers it would return. */
module Expiration {
  import opened Wrappers
  import opened GoInt

  /** `NoExpiration`: a time-to-live of 0 means the entry never expires. */
  const NoExpiration: int := 0

  /** `time.Millisecond`, `time.Second`, `time.Minute`, `time.Hour` in nanoseconds. */
  const Millisecond: int := 1_000_000
  const Second: int := 1_000_000_000
  const Minute: int := 60_000_000_000
  const Hour: int := 3_600_000_000_000

  /** An `Expiration`; the random source exists exactly when `jitter` is non-zero. */
  datatype Expiration = Expiration(base: int, jitter: int)

  /** Why the constructor panics. */
  datatype PolicyError = NegativeBase | NegativeJitter | BaseBelowJitter

  /** What the random source yields for one call: `rand.Int31n(2)` and `rand.Int63n(jitter)`. */
  datatype Draw = Draw(coin: int, offset: int)

  /** The contracts of `Int31n(2)` and `Int63n(n)`: a coin in {0, 1}, an offset in [0, n). */
  predicate ValidDraw(e: Expiration, d: Draw) {
    0 <= d.coin < 2 && (e.jitter > 0 ==> 0 <= d.offset < e.jitter)
  }

  /** What the constructor guarantees of every `Expiration` it returns. */
  predicate Valid(e: Expiration) {
    0 <= e.jitter <= e.base <= MaxInt64
  }

  /** `NewExpiration(base, jitter)`: checks, in this order, that the base is not negative, that the
      range is not negative, and that the base is not below the range. */
  function NewExpiration(base: int, jitter: int): (r: Result<Expiration, PolicyError>)
    ensures r.Ok? <==> 0 <= jitter <= base
    ensures r.Ok? ==> r.value == Expiration(base, jitter)
    ensures base < 0 ==> r == Err(NegativeBase)
    ensures 0 <= base && jitter < 0 ==> r == Err(NegativeJitter)
    ensures 0 <= jitter && 0 <= base < jitter ==> r == Err(BaseBelowJitter)
  {
    if base < 0 then Err(NegativeBase)
    else if jitter < 0 then Err(NegativeJitter)
    else if base < jitter then Err(BaseBelowJitter)
    else Ok(Expiration(base, jitter))
  }

  /** `CacheExpirationZero`: never expires. */
  const CacheExpirationZero: Expiration := Expiration(0, 0)

  /** The `NewExpirationFrom*` family: both arguments are multiplied by the unit in 64-bit
      arithmetic (`time.Duration(x) * unit`, which wraps) and handed to `NewExpiration`. */
  function NewExpirationFrom(unit: int, base: int, jitter: int): (r: Result<Expiration, PolicyError>)
    requires unit > 0
    ensures IsInt64(base * unit) && IsInt64(jitter * unit) ==>
      && (r.Ok? <==> 0 <= jitter <= base)
      && (r.Ok? ==> r.value == Expiration(base * unit, jitter * unit))
  {
    NewExpiration(Wrap64(base * unit), Wrap64(jitter * unit))
  }

  function NewExpirationFromMillisecond(base: int, jitter: int): Result<Expiration, PolicyError> {
    NewExpirationFrom(Millisecond, base, jitter)
  }

  function NewExpirationFromSecond(base: int, jitter: int): Result<Expiration, PolicyError> {
    NewExpirationFrom(Second, base, jitter)
  }

  function NewExpirationFromMinute(base: int, jitter: int): Result<Expiration, PolicyError> {
    NewExpirationFrom(Minute, base, jitter)
  }

  function NewExpirationFromHour(base: int, jitter: int): Result<Expiration, PolicyError> {
    NewExpirationFrom(Hour, base, jitter)
  }

  /** `NextExpireTime`: 0 for a policy that never expires, the base when there is no random range,
      otherwise the base moved down or up (with 64-bit wrap-around) by the drawn offset. */
  function NextExpireTime(e: Expiration, d: Draw): (r: int)
    requires ValidDraw(e, d)
    ensures e.base == NoExpiration ==> r == NoExpiration
    ensures e.base != NoExpiration && e.jitter == 0 ==> r == e.base
    ensures IsInt64(e.base) && e.jitter > 0 ==> IsInt64(r)
  {
    if e.base == NoExpiration then NoExpiration
    else if e.jitter == 0 then e.base
    else if d.coin == 0 then Wrap64(e.base - d.offset)
    else Wrap64(e.base + d.offset)
  }

  /** With a random range and no overflow, the result lies strictly within the range around the
      base; for a valid policy it is therefore never 0 or negative, so it cannot turn into the
      never-expires sentinel by accident. */
  lemma NextExpireTimeBounds(e: Expiration, d: Draw)
    requires Valid(e) && ValidDraw(e, d) && e.jitter > 0
    requires e.base + e.jitter <= MaxInt64
    ensures e.base - e.jitter < NextExpireTime(e, d) < e.base + e.jitter
    ensures NextExpireTime(e, d) > 0
  {
  }

  /** Every policy the constructor accepts yields a positive time-to-live or exactly the
      never-expires sentinel, the latter only for a zero base. */
  lemma NextExpireTimeSign(e: Expiration, d: Draw)
    requires Valid(e) && ValidDraw(e, d) && e.base + e.jitter <= MaxInt64
    ensures NextExpireTime(e, d) == NoExpiration <==> e.base == 0
    ensures NextExpireTime(e, d) >= 0
  {
    if e.base != 0 && e.jitter > 0 {
      NextExpireTimeBounds(e, d);
    }
  }

  /** `CacheExpirationZero` never expires, whatever is drawn. */
  lemma CacheExpirationZeroNeverExpires(d: Draw)
    requires ValidDraw(CacheExpirationZero, d)
    ensures NewExpiration(0, 0) == Ok(CacheExpirationZero)
    ensures NextExpireTime(CacheExpirationZero, d) == NoExpiration
  {
  }

  /** `NewExpirationFrom*(10, 2)` always yields between 8 and 12 units, for every unit. */
  lemma TenPlusMinusTwo(unit: int, d: Draw)
    requires unit in {Millisecond, Second, Minute, Hour}
    requires NewExpirationFrom(unit, 10, 2).Ok? && ValidDraw(NewExpirationFrom(unit, 10, 2).value, d)
    ensures 8 * unit <= NextExpireTime(NewExpirationFrom(unit, 10, 2).value, d) <= 12 * unit
  {
    var e := NewExpirationFrom(unit, 10, 2).value;
    assert e == Expiration(10 * unit, 2 * unit);
    NextExpireTimeBounds(e, d);
  }

  /** The `From*` constructors accept `(10, 2)` for every unit. */
  lemma TenPlusMinusTwoAccepted(unit: int)
    requires unit in {Millisecond, Second, Minute, Hour}
    ensures NewExpirationFrom(unit, 10, 2) == Ok(Expiration(10 * unit, 2 * unit))
  {
  }

  /** The bound needs the no-overflow hypothesis: near the top of the 64-bit range an upward draw
      wraps to a negative duration. */
  lemma UpwardDrawCanWrap()
    ensures Valid(Expiration(MaxInt64, 2))
    ensures NextExpireTime(Expiration(MaxInt64, 2), Draw(1, 1)) == MinInt64
  {
  }
}

=== FILE: expire_time.dfy ===
/** The older expiration policy (`expire_time.go`): the same draw as `Expiration`, but its
    constructor does not require the base to be at least the random range, so a drawn
    time-to-live can be negative. */
module ExpireTime {
  import opened Wrappers
  import opened GoInt
  import Expiration

  type ExpireTime = Expiration.Expiration

  datatype ExpireTimeError = NegativeBase | NegativeJitter

  /** `NewExpiration` of this file: only the signs are checked, base first. */
  function NewExpireTime(base: int, jitter: int): (r: Result<ExpireTime, ExpireTimeError>)
    ensures r.Ok? <==> 0 <= base && 0 <= jitter
    ensures r.Ok? ==> BaseExpireTime(r.value) == base && RandomRangeTime(r.value) == jitter
    ensures base < 0 ==> r == Err(NegativeBase)
    ensures 0 <= base && jitter < 0 ==> r == Err(NegativeJitter)
  {
    if base < 0 then Err(NegativeBase)
    else if jitter < 0 then Err(NegativeJitter)
    else Ok(Expiration.Expiration(base, jitter))
  }

  /** `NewExpireTimeFrom{Millisecond,Second,Minute,Hour}`: both arguments scaled by the unit in
      64-bit arithmetic. */
  function NewExpireTimeFrom(unit: int, base: int, jitter: int): (r: Result<ExpireTime, ExpireTimeError>)
    requires unit > 0
    ensures IsInt64(base * unit) && IsInt64(jitter * unit) ==>
      && (r.Ok? <==> 0 <= base && 0 <= jitter)
      && (r.Ok? ==> BaseExpireTime(r.value) == base * unit && RandomRangeTime(r.value) == jitter * unit)
  {
    NewExpireTime(Wrap64(base * unit), Wrap64(jitter * unit))
  }

  function BaseExpireTime(e: ExpireTime): int {
    e.base
  }

  function RandomRangeTime(e: ExpireTime): int {
    e.jitter
  }

  /** `NextExpireTime` of this file computes exactly what `Expiration.NextExpireTime` computes. */
  function NextExpireTime(e: ExpireTime, d: Expiration.Draw): (r: int)
    requires Expiration.ValidDraw(e, d)
    ensures e.base == 0 ==> r == 0
    ensures e.base != 0 && e.jitter == 0 ==> r == e.base
  {
    Expiration.NextExpireTime(e, d)
  }

  /** Every policy this constructor accepts draws within the range around its base (barring
      64-bit overflow) and, unlike `Expiration`, the result can be negative. */
  lemma NextExpireTimeBounds(base: int, jitter: int, d: Expiration.Draw)
    requires NewExpireTime(base, jitter).Ok? && Expiration.ValidDraw(NewExpireTime(base, jitter).value, d)
    requires base > 0 && jitter > 0 && base + jitter <= MaxInt64
    ensures base - jitter < NextExpireTime(NewExpireTime(base, jitter).value, d) < base + jitter
  {
  }

  /** The input that shows it: base 1, range 5, a downward draw of 3 gives -2. */
  lemma NegativeTimeToLive()
    ensures NewExpireTime(1, 5).Ok?
    ensures Expiration.NewExpiration(1, 5) == Err(Expiration.BaseBelowJitter)
    ensures NextExpireTime(NewExpireTime(1, 5).value, Expiration.Draw(0, 3)) == -2
  {
  }
}

=== FILE: goint.dfy ===
/** Go's fixed-width integer arithmetic, written out over Dafny's unbounded `int`. */
module GoInt {

  const MinInt64: int := -0x8000_0000_0000_0000
  const MaxInt64: int := 0x7fff_ffff_ffff_ffff

  predicate IsInt64(x: int) {
    MinInt64 <= x <= MaxInt64
  }

  /** 2^n, used for the bit widths of Go's integer kinds. */
  function Pow2(n: nat): (r: int)
    ensures r >= 1
  {
    if n == 0 then 1 else 2 * Pow2(n - 1)
  }

  /** Two's-complement wrap-around of a 64-bit signed operation. */
  function Wrap64(x: int): (r: int)
    ensures IsInt64(r)
    ensures IsInt64(x) ==> r == x
    ensures (r - x) % 0x1_0000_0000_0000_0000 == 0
  {
    var m := (x - MinInt64) % 0x1_0000_0000_0000_0000;
    m + MinInt64
  }

  /** Go's `/` on integers: the quotient truncated toward zero. */
  function TruncDiv(a: int, d: int): (q: int)
    requires d > 0
    ensures a >= 0 ==> q * d <= a < q * d + d
    ensures a < 0 ==> q * d - d < a <= q * d
  {
    if a >= 0 then a / d else -((-a) / d)
  }
}

=== FILE: key_operation.dfy ===
/** Cache access through one key (`key_operation.go`): a `KeyOperation` forwards every call to
    its operation's provider under the key `Operation.Key` built, and gives every write a
    time-to-live drawn from the operation's expiration policy (the draw is the parameter `d`). */
module KeyOps {
  import opened Wrappers
  import opened GoInt
  import opened Values
  import opened CacheProvider
  import Expiration
  import Operation
  import MemoryProvider
  import Conv
  import ConvProperties

  type KeyOperation<!S> = Operation.KeyOperation<Provider<S>>

  /** A policy the constructor accepts, whose draws do not overflow. */
  predicate SanePolicy(e: Expiration.Expiration) {
    Expiration.Valid(e) && e.base + e.jitter <= MaxInt64
  }

  /** The time-to-live of a write: the next one the operation's policy yields. An operation built
      without a policy never expires what it writes; any policy the constructor accepts yields no
      negative time-to-live. */
  function TimeToLive<S>(ko: KeyOperation<S>, d: Expiration.Draw): (r: int)
    requires Expiration.ValidDraw(ko.op.expireTime, d)
    ensures ko.op.expireTime == Expiration.CacheExpirationZero ==> r == 0
    ensures SanePolicy(ko.op.expireTime) ==> r >= 0 && (r == 0 <==> ko.op.expireTime.base == 0)
  {
    if SanePolicy(ko.op.expireTime) then
      Expiration.NextExpireTimeSign(ko.op.expireTime, d);
      Expiration.NextExpireTime(ko.op.expireTime, d)
    else Expiration.NextExpireTime(ko.op.expireTime, d)
  }

  function TryGet<S>(ko: KeyOperation<S>, s: S, recv: Value, now: int): Call<S, Read> {
    ko.op.provider.tryGet(s, ko.key, recv, now)
  }

  /** `Get`: `TryGet` without the found flag. */
  function Get<S>(ko: KeyOperation<S>, s: S, recv: Value, now: int): (r: Call<S, Value>)
    ensures r.state == TryGet(ko, s, recv, now).state
    ensures r.out.Ok? <==> TryGet(ko, s, recv, now).out.Ok?
    ensures r.out.Ok? ==> r.out.value == TryGet(ko, s, recv, now).out.value.receiver
  {
    CacheProvider.Get(ko.op.provider, s, ko.key, recv, now)
  }

  /** The `Must*` calls panic exactly when the plain call fails. */
  function MustGet<S>(ko: KeyOperation<S>, s: S, recv: Value, now: int): (r: Call<S, Value>)
    ensures r.out.Ok? <==> TryGet(ko, s, recv, now).out.Ok?
    ensures r.out.Err? ==> Panicked(r.out)
  {
    Must(Get(ko, s, recv, now))
  }

  /** `Create` and `Set` write under the operation's key; without a policy, with time-to-live 0. */
  function Create<S>(ko: KeyOperation<S>, s: S, x: Value, d: Expiration.Draw, now: int): (r: Call<S, bool>)
    requires Expiration.ValidDraw(ko.op.expireTime, d)
    ensures ko.op.expireTime == Expiration.CacheExpirationZero ==> r == ko.op.provider.create(s, ko.key, x, 0, now)
  {
    ko.op.provider.create(s, ko.key, x, TimeToLive(ko, d), now)
  }

  function MustCreate<S>(ko: KeyOperation<S>, s: S, x: Value, d: Expiration.Draw, now: int): (r: Call<S, bool>)
    requires Expiration.ValidDraw(ko.op.expireTime, d)
    ensures r.out.Ok? <==> Create(ko, s, x, d, now).out.Ok?
    ensures r.out.Ok? ==> r.out == Create(ko, s, x, d, now).out
    ensures r.out.Err? ==> Panicked(r.out)
  {
    Must(Create(ko, s, x, d, now))
  }

  function Set<S>(ko: KeyOperation<S>, s: S, x: Value, d: Expiration.Draw, now: int): (r: Call<S, ()>)
    requires Expiration.ValidDraw(ko.op.expireTime, d)
    ensures ko.op.expireTime == Expiration.CacheExpirationZero ==> r == ko.op.provider.upsert(s, ko.key, x, 0, now)
  {
    ko.op.provider.upsert(s, ko.key, x, TimeToLive(ko, d), now)
  }

  function MustSet<S>(ko: KeyOperation<S>, s: S, x: Value, d: Expiration.Draw, now: int): (r: Call<S, ()>)
    requires Expiration.ValidDraw(ko.op.expireTime, d)
    ensures r.out.Ok? <==> Set(ko, s, x, d, now).out.Ok?
    ensures r.out.Err? ==> Panicked(r.out)
  {
    Must(Set(ko, s, x, d, now))
  }

  function Remove<S>(ko: KeyOperation<S>, s: S, now: int): Call<S, bool> {
    ko.op.provider.remove(s, ko.key, now)
  }

  function MustRemove<S>(ko: KeyOperation<S>, s: S, now: int): (r: Call<S, bool>)
    ensures r.out.Ok? <==> Remove(ko, s, now).out.Ok?
    ensures r.out.Ok? ==> r.out == Remove(ko, s, now).out
    ensures r.out.Err? ==> Panicked(r.out)
  {
    Must(Remove(ko, s, now))
  }

  // ----- over the reference store -----

  /** The same key operation, writing through provider `p`. */
  function Through<P, S>(ko: Operation.KeyOperation<P>, p: Provider<S>): KeyOperation<S> {
    var o := ko.op;
    Operation.KeyOperation(Operation.Operation(o.namespace, o.keyBase, p, o.expireTime, o.uniqueFlagLen), ko.key)
  }

  /** A value set through a key operation reads back, through the same key operation and through
      any other with the same key, until the drawn time-to-live runs out; with a policy that never
      expires it reads back forever. */
  lemma SetThenGet<P>(ko: Operation.KeyOperation<P>, other: Operation.KeyOperation<P>, s: Store, x: Value,
                      d: Expiration.Draw, now: int, later: int, t: Shape, old_: Value)
    requires SanePolicy(ko.op.expireTime) && other.key == ko.key
    requires Expiration.ValidDraw(ko.op.expireTime, d) && now <= later
    ensures var k := Through(ko, Reference());
            var s2 := Set(k, s, x, d, now).state;
      (ko.op.expireTime.base == 0 || later < now + TimeToLive(k, d)) ==>
        && TryGet(k, s2, PtrV(t, old_), later).out == Ok(Read(true, PtrV(t, x)))
        && MustGet(Through(other, Reference()), s2, PtrV(t, old_), later).out == Ok(PtrV(t, x))
  {
    var k := Through(ko, Reference());
    Expiration.NextExpireTimeSign(ko.op.expireTime, d);
    CacheProvider.SetThenTryGet(s, ko.key, x, TimeToLive(k, d), now, later, t, old_);
  }

  /** Creating through a key operation succeeds exactly when nothing is visible under its key,
      and a second creation through it reports the key as present. */
  lemma CreateTwice<P>(ko: Operation.KeyOperation<P>, s: Store, x: Value, y: Value,
                       d: Expiration.Draw, d2: Expiration.Draw, now: int)
    requires SanePolicy(ko.op.expireTime)
    requires Expiration.ValidDraw(ko.op.expireTime, d) && Expiration.ValidDraw(ko.op.expireTime, d2)
    ensures var k := Through(ko, Reference());
            var c := MustCreate(k, s, x, d, now);
      && c.out == Ok(ko.key !in Visible(s, now))
      && MustCreate(k, c.state, y, d2, now).out == Ok(false)
  {
    var k := Through(ko, Reference());
    Expiration.NextExpireTimeSign(ko.op.expireTime, d);
    var c := Create(k, s, x, d, now);
    if c.out == Ok(true) {
      assert c.state[ko.key] == Item(x, DeadlineAfter(now, TimeToLive(k, d)));
    }
  }

  /** After a removal through a key operation nothing is visible under its key, and a second
      removal reports false. */
  lemma RemoveThenGet<P>(ko: Operation.KeyOperation<P>, s: Store, now: int, t: Shape, old_: Value)
    ensures var k := Through(ko, Reference());
            var s2 := MustRemove(k, s, now).state;
      && TryGet(k, s2, PtrV(t, old_), now).out == Ok(Read(false, PtrV(t, old_)))
      && MustRemove(k, s2, now).out == Ok(false)
  {
  }

  /** Key operations with different keys do not interfere: a write through one leaves what the
      other reads unchanged. */
  lemma DistinctKeysIndependent<P>(ko: Operation.KeyOperation<P>, other: Operation.KeyOperation<P>, s: Store,
                                   x: Value, d: Expiration.Draw, now: int, recv: Value)
    requires ko.key != other.key && Expiration.ValidDraw(ko.op.expireTime, d)
    ensures var k, o := Through(ko, Reference()), Through(other, Reference());
      TryGet(o, Set(k, s, x, d, now).state, recv, now).out == TryGet(o, s, recv, now).out
  {
    var s2 := Set(Through(ko, Reference()), s, x, d, now).state;
    assert (other.key in s2) == (other.key in s) && (other.key in s ==> s2[other.key] == s[other.key]);
  }

  // ----- over the in-memory store -----

  /** An operation built without an expiration over the in-memory store, as written: every value
      it sets is already gone at the next read, because the policy's time-to-live of 0 is stored
      as the instant of the write. Repaired, the same value reads back. */
  lemma NoExpirationOverMemory(s: Store, now: int, later: int, d: Expiration.Draw, old_: int)
    requires IsInt64(now) && now <= later && Expiration.ValidDraw(Expiration.CacheExpirationZero, d)
    ensures var asWritten := Operation.Key(Operation.NewOperation("ns", "p", 0, Some(MemoryProvider.Memory(Conv.AsWritten)), None).value, []);
            var repaired := Operation.Key(Operation.NewOperation("ns", "p", 0, Some(MemoryProvider.Memory(Conv.Repaired)), None).value, []);
            var recv := PtrV(IntT(Int), IntV(Int, old_));
      && asWritten.Ok? && repaired.Ok?
      && TryGet(asWritten.value, Set(asWritten.value, s, IntV(Int, 7), d, now).state, recv, later).out
           == Ok(Read(false, recv))
      && TryGet(repaired.value, Set(repaired.value, s, IntV(Int, 7), d, now).state, recv, later).out
           == Ok(Read(true, PtrV(IntT(Int), IntV(Int, 7))))
  {
    NoExpirationOverMemoryAt(Conv.AsWritten, s, now, later, d, old_);
    NoExpirationOverMemoryAt(Conv.Repaired, s, now, later, d, old_);
  }

  lemma NoExpirationOverMemoryAt(rev: MemoryProvider.Revision, s: Store, now: int, later: int, d: Expiration.Draw, old_: int)
    requires IsInt64(now) && now <= later && Expiration.ValidDraw(Expiration.CacheExpirationZero, d)
    ensures var k := Operation.Key(Operation.NewOperation("ns", "p", 0, Some(MemoryProvider.Memory(rev)), None).value, []);
            var recv := PtrV(IntT(Int), IntV(Int, old_));
      && k.Ok?
      && TryGet(k.value, Set(k.value, s, IntV(Int, 7), d, now).state, recv, later).out
           == if rev.AsWritten? then Ok(Read(false, recv)) else Ok(Read(true, PtrV(IntT(Int), IntV(Int, 7))))
  {
    assert Operation.BuildCacheKey("ns:p", []) == Ok("ns:p");
    if rev.AsWritten? {
      ExpiresOverMemoryAsWritten(s, now, later, d, old_);
    } else {
      KeptOverMemoryRepaired(s, now, later, d, old_);
    }
  }

  lemma ExpiresOverMemoryAsWritten(s: Store, now: int, later: int, d: Expiration.Draw, old_: int)
    requires IsInt64(now) && now <= later && Expiration.ValidDraw(Expiration.CacheExpirationZero, d)
    ensures var p := Operation.NewOperation("ns", "p", 0, Some(MemoryProvider.Memory(Conv.AsWritten)), None).value;
            var recv := PtrV(IntT(Int), IntV(Int, old_));
      TryGet(Operation.KeyOperation(p, "ns:p"), Set(Operation.KeyOperation(p, "ns:p"), s, IntV(Int, 7), d, now).state, recv, later).out == Ok(Read(false, recv))
  {
    MemoryProvider.ZeroTimeToLiveExpiresAtOnce(s, "ns:p", IntV(Int, 7), PtrV(IntT(Int), IntV(Int, old_)), now, later);
  }

  lemma KeptOverMemoryRepaired(s: Store, now: int, later: int, d: Expiration.Draw, old_: int)
    requires IsInt64(now) && now <= later && Expiration.ValidDraw(Expiration.CacheExpirationZero, d)
    ensures var p := Operation.NewOperation("ns", "p", 0, Some(MemoryProvider.Memory(Conv.Repaired)), None).value;
            var recv := PtrV(IntT(Int), IntV(Int, old_));
      TryGet(Operation.KeyOperation(p, "ns:p"), Set(Operation.KeyOperation(p, "ns:p"), s, IntV(Int, 7), d, now).state, recv, later).out
        == Ok(Read(true, PtrV(IntT(Int), IntV(Int, 7))))
  {
    var recv := PtrV(IntT(Int), IntV(Int, old_));
    assert MemoryProvider.ReadsBackExactly(IntV(Int, 7), recv);
    MemoryProvider.ZeroTimeToLiveKept(s, "ns:p", IntV(Int, 7), recv, now, later);
  }
}

=== FILE: l2_provider.dfy ===
/** The second two-level provider (`L2_cache_provider.go`). Its reads and writes are the
    algorithm of `Level2Provider`; it adds the `Must*` variants, and its `Increase` family panics
    with a different message. */
module L2Provider {
  import opened Wrappers
  import opened Values
  import opened CacheProvider
  import GoInt
  import Expiration
  import Level2Provider

  /** `NewL2CacheProvider`: a missing expiration panics. */
  function NewL2CacheProvider<S1, S2>(l1: Provider<S1>, l2: Provider<S2>, e: Option<Expiration.Expiration>)
    : (r: Result<Level2Provider.Level2<S1, S2>, Fault>)
    ensures r.Ok? <==> e.Some?
    ensures r.Ok? ==> r.value == Level2Provider.NewLevel2CacheProvider(l1, l2, e).value
    ensures r.Err? ==> r.error.Panic?
  {
    if e.None? then Err(Panic("'expireTime' must not be nil")) else Ok(Level2Provider.Level2(l1, l2, e.value))
  }

  /** `MustGet`: panics exactly when `Get` fails, with the same reason. */
  function MustGet<S1, S2>(p: Level2Provider.Level2<S1, S2>, s: Level2Provider.Tiers<S1, S2>, key: string, recv: Value,
                           d: Expiration.Draw, now: int)
    : (r: Call<Level2Provider.Tiers<S1, S2>, Value>)
    requires Expiration.ValidDraw(p.expireTime, d)
    ensures var g := Level2Provider.Get(p, s, key, recv, d, now);
      && r.state == g.state
      && (r.out.Ok? <==> g.out.Ok?)
      && (g.out.Ok? ==> r.out == g.out)
      && (g.out.Err? ==> r.out == Err(Panic(g.out.error.reason)))
  {
    Must(Level2Provider.Get(p, s, key, recv, d, now))
  }

  /** `MustCreate`: panics exactly when `Create` fails; otherwise returns what it returned. */
  function MustCreate<S1, S2>(p: Level2Provider.Level2<S1, S2>, s: Level2Provider.Tiers<S1, S2>, key: string, x: Value,
                              ttl: int, d: Expiration.Draw, now: int)
    : (r: Call<Level2Provider.Tiers<S1, S2>, bool>)
    requires Expiration.ValidDraw(p.expireTime, d)
    ensures var c := Level2Provider.Create(p, s, key, x, ttl, d, now);
      && r.state == c.state
      && (r.out.Ok? <==> c.out.Ok?)
      && (c.out.Ok? ==> r.out == c.out)
      && (c.out.Err? ==> Panicked(r.out))
  {
    Must(Level2Provider.Create(p, s, key, x, ttl, d, now))
  }

  /** `MustSet`: panics exactly when `Set` fails. */
  function MustSet<S1, S2>(p: Level2Provider.Level2<S1, S2>, s: Level2Provider.Tiers<S1, S2>, key: string, x: Value,
                           ttl: int, d: Expiration.Draw, now: int)
    : (r: Call<Level2Provider.Tiers<S1, S2>, ()>)
    requires Expiration.ValidDraw(p.expireTime, d)
    ensures var c := Level2Provider.Set(p, s, key, x, ttl, d, now);
      && r.state == c.state
      && (r.out.Ok? <==> c.out.Ok?)
      && (c.out.Err? ==> Panicked(r.out))
  {
    Must(Level2Provider.Set(p, s, key, x, ttl, d, now))
  }

  /** `MustRemove`: panics exactly when `Remove` fails; otherwise returns level 2's answer. */
  function MustRemove<S1, S2>(p: Level2Provider.Level2<S1, S2>, s: Level2Provider.Tiers<S1, S2>, key: string, now: int)
    : (r: Call<Level2Provider.Tiers<S1, S2>, bool>)
    ensures var c := Level2Provider.Remove(p, s, key, now);
      && r.state == c.state
      && (r.out.Ok? <==> c.out.Ok?)
      && (c.out.Ok? ==> r.out == c.out)
      && (c.out.Err? ==> Panicked(r.out))
  {
    Must(Level2Provider.Remove(p, s, key, now))
  }

  /** The `Increase` family is not implemented: each call panics and changes nothing. */
  function Increase<S1, S2>(p: Level2Provider.Level2<S1, S2>, s: Level2Provider.Tiers<S1, S2>, key: string)
    : (r: Call<Level2Provider.Tiers<S1, S2>, int>)
    ensures r.state == s && Panicked(r.out)
  {
    Call(s, Err(Panic("not implemented")))
  }

  function MustIncrease<S1, S2>(p: Level2Provider.Level2<S1, S2>, s: Level2Provider.Tiers<S1, S2>, key: string)
    : (r: Call<Level2Provider.Tiers<S1, S2>, int>)
    ensures r.state == s && Panicked(r.out)
  {
    Must(Increase(p, s, key))
  }

  function IncreaseOrCreate<S1, S2>(p: Level2Provider.Level2<S1, S2>, s: Level2Provider.Tiers<S1, S2>, key: string,
                                    increment: int, ttl: int)
    : (r: Call<Level2Provider.Tiers<S1, S2>, int>)
    ensures r.state == s && Panicked(r.out)
  {
    Call(s, Err(Panic("not implemented")))
  }

  function MustIncreaseOrCreate<S1, S2>(p: Level2Provider.Level2<S1, S2>, s: Level2Provider.Tiers<S1, S2>, key: string,
                                        increment: int, ttl: int)
    : (r: Call<Level2Provider.Tiers<S1, S2>, int>)
    ensures r.state == s && Panicked(r.out)
  {
    Must(IncreaseOrCreate(p, s, key, increment, ttl))
  }

  /** Over two reference stores and a policy the constructor accepts, `MustSet` never panics and
      a `MustGet` right after it returns the value just set, from level 1. */
  lemma MustSetThenMustGet(e: Expiration.Expiration, s: Level2Provider.Tiers<Store, Store>, key: string, x: Value,
                           ttl: int, t: Shape, old_: Value, d: Expiration.Draw, d2: Expiration.Draw, now: int)
    requires Expiration.Valid(e) && e.base + e.jitter <= GoInt.MaxInt64
    requires Expiration.ValidDraw(e, d) && Expiration.ValidDraw(e, d2)
    ensures var p := Level2Provider.OverReference(e);
            var c := MustSet(p, s, key, x, ttl, d, now);
      && c.out.Ok?
      && MustGet(p, c.state, key, PtrV(t, old_), d2, now).out == Ok(PtrV(t, x))
  {
    var p := Level2Provider.OverReference(e);
    var c := MustSet(p, s, key, x, ttl, d, now);
    var ttl1 := Expiration.NextExpireTime(e, d);
    assert c.state.l1 == s.l1[key := Item(x, DeadlineAfter(now, ttl1))];
    Expiration.NextExpireTimeSign(e, d);
  }
}

=== FILE: legacy_conv.dfy ===
/** The older conversion engine (`conv/conv.go`). It shares the primitive rules of the newer one
    but reports misuse by panicking, strips a single pointer level, unwraps maps keyed `"_"`, turns
    a nil source into the empty string on the string bridge, and hands back `reflect.Value`s from
    its map conversions. */
module LegacyConv {
  import opened Wrappers
  import opened Values
  import Strings
  import Strconv
  import Conv

  type ConvError = Conv.ConvError

  /** `StringSliceDelimiter`. */
  const StringSliceDelimiter: char := '~'

  /** The fields `reflect` reports for `time.Time`; all unexported. */
  const TimeFields: seq<Field> :=
    [Field("wall", UintT(Uint64)), Field("ext", IntT(Int64)), Field("loc", PtrT(OtherT("time.Location")))]

  /** The fields of a struct-kind type as `typ.Field(i)` enumerates them. */
  function StructFields(t: Shape): (fs: seq<Field>)
    requires IsStructKind(t)
    ensures t.StructT? ==> fs == t.fields
  {
    if t.TimeT? then TimeFields else t.fields
  }

  /** `ConverToBool`: nil is false, a bool is itself, a string is read by `strconv.ParseBool`, an
      integer is true exactly when it is non-zero; every other kind, `time.Time` included, fails. */
  function ConverToBool(v: Value): (r: Result<bool, ConvError>)
    ensures v == Nil ==> r == Ok(false)
    ensures v.BoolV? ==> r == Ok(v.b)
    ensures v.IntV? ==> r == Ok(v.i != 0)
    ensures v.UintV? ==> r == Ok(v.n != 0)
    ensures v.StrV? ==> (r.Ok? <==> Strconv.ParseBool(v.s).Ok?)
    ensures v.StrV? && r.Ok? ==> r.value == Strconv.ParseBool(v.s).value
    ensures v != Nil && !IsPrimitiveValue(v) ==> r == Err(Conv.Unsupported)
  {
    match v
    case Nil => Ok(false)
    case BoolV(b) => Ok(b)
    case StrV(s) =>
      (match Strconv.ParseBool(s)
       case Ok(b) => Ok(b)
       case Err(e) => Err(Conv.ParseFailure(e)))
    case IntV(_, i) => Ok(i != 0)
    case UintV(_, n) => Ok(n != 0)
    case _ => Err(Conv.Unsupported)
  }

  /** `ConvertStringToPrimitive`: the same parsing as the newer engine, but a non-primitive
      destination kind panics. */
  function ConvertStringToPrimitive(s: string, t: Shape): (r: Result<Value, ConvError>)
    ensures !IsPrimitiveShape(t) ==> r.Err? && r.error.Panic?
    ensures IsPrimitiveShape(t) ==> r == Conv.ConvertStringToPrimitive(s, t)
  {
    if !IsPrimitiveShape(t) then Err(Conv.Panic("not a primitive type"))
    else Conv.ConvertStringToPrimitive(s, t)
  }

  /** `ConvertPrimitiveToString`: nil becomes the empty string, bools "1"/"0", strings verbatim,
      integers in decimal; any other kind panics. */
  function ConvertPrimitiveToString(v: Value): (r: Result<string, ConvError>)
    ensures v == Nil ==> r == Ok("")
    ensures v != Nil && !IsPrimitiveValue(v) ==> r.Err? && r.error.Panic?
    ensures forall c: Conv.Config :: IsPrimitiveValue(v) ==> r == Conv.ConvertSimpleToString(c, v)
  {
    if v == Nil then Ok("")
    else if v.BoolV? then Ok(if v.b then "1" else "0")
    else if v.StrV? then Ok(v.s)
    else if v.IntV? then Ok(Strconv.FormatInt(v.i))
    else if v.UintV? then Ok(Strconv.FormatNat(v.n))
    else Err(Conv.Panic("cannot convert to any primitive value"))
  }

  /** `convertPrimitiveToPrimitive`: bool destinations use `ConverToBool`, every other primitive
      destination goes through the string form. */
  function ConvertPrimitiveToPrimitive(v: Value, t: Shape): (r: Result<Value, ConvError>)
    requires IsPrimitiveShape(t)
    ensures t == BoolT ==> (r.Ok? <==> ConverToBool(v).Ok?)
    ensures t == BoolT && r.Ok? ==> r.value == BoolV(ConverToBool(v).value)
    ensures t != BoolT ==> (r.Ok? <==>
      ConvertPrimitiveToString(v).Ok? && ConvertStringToPrimitive(ConvertPrimitiveToString(v).value, t).Ok?)
    ensures t != BoolT && r.Ok? ==>
      r.value == ConvertStringToPrimitive(ConvertPrimitiveToString(v).value, t).value
  {
    if t == BoolT then
      match ConverToBool(v)
      case Ok(b) => Ok(BoolV(b))
      case Err(e) => Err(e)
    else
      match ConvertPrimitiveToString(v)
      case Err(e) => Err(e)
      case Ok(s) => ConvertStringToPrimitive(s, t)
  }

  /** `ConvertStringToSlice`: one element per "~"-separated part, each read as the element type;
      a non-slice destination or a non-primitive element type panics. */
  function ConvertStringToSlice(s: string, t: Shape): (r: Result<Value, ConvError>)
    ensures !t.SliceT? || !IsPrimitiveShape(t.elem) ==> r.Err? && r.error.Panic?
    ensures r.Ok? ==>
      var parts := Strings.Split(s, StringSliceDelimiter);
      && t.SliceT?
      && r.value.SliceV? && r.value.elem == t.elem
      && |r.value.items| == |parts|
      && forall i :: 0 <= i < |parts| ==> ConvertStringToPrimitive(parts[i], t.elem) == Ok(r.value.items[i])
    ensures r.Err? && t.SliceT? && IsPrimitiveShape(t.elem) ==>
      var parts := Strings.Split(s, StringSliceDelimiter);
      && r.error.AtIndex?
      && r.error.index < |parts|
      && ConvertStringToPrimitive(parts[r.error.index], t.elem) == Err(r.error.cause)
  {
    if !t.SliceT? then Err(Conv.Panic("the destination type must be a slice of a primitive"))
    else if !IsPrimitiveShape(t.elem) then Err(Conv.Panic("the element's type must be primitive"))
    else
      var parts := Strings.Split(s, StringSliceDelimiter);
      match MapResults(parts, p => ConvertStringToPrimitive(p, t.elem))
      case Err(fail) => Err(Conv.AtIndex(fail.index, fail.cause))
      case Ok(items) => Ok(SliceV(t.elem, items))
  }

  /** `tryFlattenEmptyKeyMap`: the value of a one-entry `map[string]interface{}` whose key is
      "_", unless that value is nil. */
  function TryFlattenEmptyKeyMap(v: Value): (r: Option<Value>)
    ensures r.Some? <==>
      v.MapV? && Conv.IsStringAnyMap(v) && |v.entries| == 1 && v.entries[0].key == StrV("_") && v.entries[0].val != Nil
    ensures r.Some? ==> r.value == v.entries[0].val
  {
    if v.MapV? && Conv.IsStringAnyMap(v) && |v.entries| == 1 && v.entries[0].key == StrV("_") && v.entries[0].val != Nil
    then Some(v.entries[0].val)
    else None
  }

  // ----- the recursive engine -----

  /** `Convert(v, typ)`: nil becomes nil for map, slice and pointer types; otherwise one pointer
      level is stripped from the destination and the value converted to the type beneath. For a
      pointer destination the code as written then executes `dst = &dst`: `dst` is the
      `interface{}` variable itself, so it ends up holding a `*interface{}` that points at itself,
      and the converted value is lost. Repaired, the result is a pointer of the destination type
      to the converted value, which `reflect.Value.Set` refuses when the value has another type. */
  function Convert(rev: Conv.Revision, v: Value, t: Shape): (r: Result<Value, ConvError>)
    ensures v == Nil && CanBeNil(t) ==> r == Ok(Nil)
    ensures !(v == Nil && CanBeNil(t)) && !t.PtrT? ==> r == DoConvert(rev, v, t)
    ensures t.PtrT? && v != Nil ==> (r.Ok? <==>
      DoConvert(rev, v, t.target).Ok? && (rev.Repaired? ==> Assignable(DoConvert(rev, v, t.target).value, t.target)))
    ensures t.PtrT? && v != Nil && DoConvert(rev, v, t.target).Err? ==> r == DoConvert(rev, v, t.target)
    ensures rev.AsWritten? && r.Ok? && t.PtrT? && v != Nil ==> r.value == SelfPtrV
    ensures rev.Repaired? && r.Ok? && t.PtrT? && v != Nil ==>
      r.value == PtrV(t.target, DoConvert(rev, v, t.target).value)
    decreases v, 5
  {
    if v == Nil && CanBeNil(t) then Ok(Nil)
    else if t.PtrT? then
      match DoConvert(rev, v, t.target)
      case Err(e) => Err(e)
      case Ok(x) =>
        if rev.AsWritten? then Ok(SelfPtrV)
        else if Assignable(x, t.target) then Ok(PtrV(t.target, x))
        else Err(Conv.Panic("reflect.Set: value is not assignable to the pointer's element type"))
    else DoConvert(rev, v, t)
  }

  /** `doConvert`: a primitive destination always takes the primitive path; otherwise the source
      kind decides, and a nil source panics (its `reflect.Type` is nil). */
  function DoConvert(rev: Conv.Revision, v: Value, t: Shape): (r: Result<Value, ConvError>)
    ensures IsPrimitiveShape(t) ==> r == ConvertPrimitiveToPrimitive(v, t)
    ensures !IsPrimitiveShape(t) && v == Nil ==> r.Err? && r.error.Panic?
    decreases v, 4
  {
    if IsPrimitiveShape(t) then ConvertPrimitiveToPrimitive(v, t)
    else if v == Nil then Err(Conv.Panic("invalid memory address or nil pointer dereference"))
    else if v.MapV? || v.NilMapV? then
      match TryFlattenEmptyKeyMap(v)
      case Some(inner) => Convert(rev, inner, t)
      case None =>
        if t.MapT? then ConvertMapToMap(rev, v, t)
        else if IsStructKind(t) then
          if Conv.IsStringAnyMap(v) then ConvertMapToStruct(rev, v, t) else Err(Conv.Unsupported)
        else Err(Conv.Unsupported)
    else if t.SliceT? then
      if v.StrV? then ConvertStringToSlice(v.s, t)
      else if v.SliceV? then ConvertSliceToSlice(rev, v, t)
      else Err(Conv.Unsupported)
    else Err(Conv.Unsupported)
  }

  /** `ConvertSliceToSlice`: each element converted by `Convert` to the destination element type
      and appended; a failure aborts with its index, and a result that cannot be appended (nil, or
      of another type) panics. */
  function ConvertSliceToSlice(rev: Conv.Revision, v: Value, t: Shape): (r: Result<Value, ConvError>)
    ensures !v.SliceV? || !t.SliceT? ==> r.Err? && r.error.Panic?
    ensures r.Ok? ==>
      && v.SliceV? && t.SliceT?
      && r.value.SliceV? && r.value.elem == t.elem
      && |r.value.items| == |v.items|
      && forall i :: 0 <= i < |v.items| ==> Convert(rev, v.items[i], t.elem) == Ok(r.value.items[i])
    ensures v.SliceV? && t.SliceT? ==> (r.Ok? <==> forall i :: 0 <= i < |v.items| ==>
      Convert(rev, v.items[i], t.elem).Ok? && Assignable(Convert(rev, v.items[i], t.elem).value, t.elem))
    ensures r.Err? && v.SliceV? && t.SliceT? ==>
      || r.error.Panic?
      || (&& r.error.AtIndex?
          && r.error.index < |v.items|
          && Convert(rev, v.items[r.error.index], t.elem) == Err(r.error.cause)
          && forall j :: 0 <= j < r.error.index ==> Convert(rev, v.items[j], t.elem).Ok?)
    decreases v, 3
  {
    if !v.SliceV? then Err(Conv.Panic("src must be a slice"))
    else if !t.SliceT? then Err(Conv.Panic("the destination type must be a slice"))
    else
      match MapResults(v.items, (x: Value) requires x in v.items => AppendItem(rev, v, x, t.elem))
      case Err(fail) => Err(Conv.Within(fail.cause, e => Conv.AtIndex(fail.index, e)))
      case Ok(ys) => Ok(SliceV(t.elem, ys))
  }

  function AppendItem(rev: Conv.Revision, v: Value, x: Value, elem: Shape): (r: Result<Value, ConvError>)
    requires v.SliceV? && x in v.items
    ensures r.Ok? ==> Convert(rev, x, elem) == r
    decreases v, 2
  {
    match Convert(rev, x, elem)
    case Err(e) => Err(e)
    case Ok(y) => if Assignable(y, elem) then Ok(y) else Err(Conv.Panic("reflect.Append: value is not assignable"))
  }

  /** One entry of `ConvertMapToMap`: key and value converted by `Convert`, then stored with
      `SetMapIndex`. */
  function ConvertEntry(rev: Conv.Revision, v: Value, e: Entry, t: Shape): (r: Result<Entry, ConvError>)
    requires v.MapV? && e in v.entries && t.MapT?
    ensures r.Ok? ==> Convert(rev, e.key, t.key) == Ok(r.value.key) && Convert(rev, e.val, t.val) == Ok(r.value.val)
    decreases v, 2
  {
    match Convert(rev, e.key, t.key)
    case Err(x) => Err(Conv.Within(x, e => Conv.AtKey(e)))
    case Ok(k) =>
      match Convert(rev, e.val, t.val)
      case Err(x) => Err(Conv.Within(x, e => Conv.AtValue(e)))
      case Ok(y) =>
        if !Assignable(k, t.key) then Err(Conv.Panic("reflect.Value.SetMapIndex: key is not assignable"))
        else if y != Nil && !Assignable(y, t.val) then Err(Conv.Panic("reflect.Value.SetMapIndex: value is not assignable"))
        else Ok(Entry(k, y))
  }

  /** `ConvertMapToMap`: a new map of the destination type filled entry by entry (a nil source map
      gives an empty one); the result is the `reflect.Value` of that map, not the map itself. */
  function ConvertMapToMap(rev: Conv.Revision, v: Value, t: Shape): (r: Result<Value, ConvError>)
    ensures !(v.MapV? || v.NilMapV?) || !t.MapT? ==> r.Err? && r.error.Panic?
    ensures v.NilMapV? && t.MapT? ==> r == Ok(ReflectedV(MapV(t.key, t.val, [])))
    ensures v.MapV? && t.MapT? ==> (r.Ok? <==> forall i :: 0 <= i < |v.entries| ==> ConvertEntry(rev, v, v.entries[i], t).Ok?)
    ensures r.Ok? ==>
      && r.value.ReflectedV? && r.value.inner.MapV?
      && r.value.inner.key == t.key && r.value.inner.val == t.val
      && UniqueKeys(r.value.inner.entries)
    ensures r.Ok? && v.MapV? ==> exists ps: seq<Entry> ::
      && |ps| == |v.entries|
      && (forall i :: 0 <= i < |ps| ==> ConvertEntry(rev, v, v.entries[i], t) == Ok(ps[i]))
      && r.value.inner.entries == FromPairs(ps)
    decreases v, 3
  {
    if !(v.MapV? || v.NilMapV?) then Err(Conv.Panic("the given value type must be a map"))
    else if !t.MapT? then Err(Conv.Panic("the destination type must be map"))
    else if v.NilMapV? then Ok(ReflectedV(MapV(t.key, t.val, [])))
    else
      match MapResults(v.entries, (e: Entry) requires e in v.entries => ConvertEntry(rev, v, e, t))
      case Err(fail) => Err(fail.cause)
      case Ok(ps) =>
        FromPairsLookup(ps, Nil);
        Ok(ReflectedV(MapV(t.key, t.val, FromPairs(ps))))
  }

  /** The first entry of a `map[string]interface{}` under the key `name`. */
  function FindKey(v: Value, name: string): (r: Option<nat>)
    requires v.MapV?
    ensures r.None? <==> forall i :: 0 <= i < |v.entries| ==> v.entries[i].key != StrV(name)
    ensures r.Some? ==> r.value < |v.entries| && v.entries[r.value].key == StrV(name)
  {
    var keys := Conv.MapKeyNames(v.entries);
    var j := Conv.IndexName(Conv.ExactIndexer, keys, name);
    assert forall i :: 0 <= i < |v.entries| ==> (Conv.Candidate(Conv.ExactIndexer, keys, i, name) <==> v.entries[i].key == StrV(name));
    j
  }

  /** One field of `ConvertMapToStruct`. A field without a key is skipped; for a field with a key
      the value is converted, a conversion error is returned, and otherwise `dst.Field(i)` panics,
      because `dst` is the pointer returned by `reflect.New`, not the struct. */
  function VisitField(rev: Conv.Revision, v: Value, f: Field): (r: Result<(), ConvError>)
    requires v.MapV?
    ensures r.Ok? <==> FindKey(v, f.name).None?
    ensures FindKey(v, f.name).Some? ==>
      var c := Convert(rev, v.entries[FindKey(v, f.name).value].val, f.shape);
      && (c.Ok? ==> r.error.Panic?)
      && (c.Err? ==> r.error.Panic? == c.error.Panic?)
    decreases v, 2
  {
    match FindKey(v, f.name)
    case None => Ok(())
    case Some(j) =>
      match Convert(rev, v.entries[j].val, f.shape)
      case Err(x) => Err(Conv.Within(x, e => Conv.AtField(f.name, e)))
      case Ok(_) => Err(Conv.Panic("reflect: call of reflect.Value.Field on ptr Value"))
  }

  /** `ConvertMapToStruct`: succeeds only when no field of the destination type is a key of the
      map, and then returns the `reflect.Value` of a pointer to the zero struct. */
  function ConvertMapToStruct(rev: Conv.Revision, v: Value, t: Shape): (r: Result<Value, ConvError>)
    requires Conv.IsStringAnyMap(v)
    ensures !IsStructKind(t) ==> r.Err? && r.error.Panic?
    ensures IsStructKind(t) && v.NilMapV? ==> r == Ok(ReflectedV(PtrV(t, ZeroOf(t))))
    ensures IsStructKind(t) && v.MapV? ==>
      (r.Ok? <==> forall i, k :: 0 <= i < |StructFields(t)| && 0 <= k < |v.entries| ==>
        v.entries[k].key != StrV(StructFields(t)[i].name))
    ensures r.Ok? ==> r.value == ReflectedV(PtrV(t, ZeroOf(t)))
    decreases v, 3
  {
    if !IsStructKind(t) then Err(Conv.Panic("the destination type must be struct"))
    else if v.NilMapV? then Ok(ReflectedV(PtrV(t, ZeroOf(t))))
    else
      var fs := StructFields(t);
      match MapResults(fs, (f: Field) requires f in fs => VisitField(rev, v, f))
      case Err(fail) => Err(fail.cause)
      case Ok(_) =>
        assert forall i :: 0 <= i < |fs| ==> FindKey(v, fs[i].name).None?;
        Ok(ReflectedV(PtrV(t, ZeroOf(t))))
  }
}

=== FILE: legacy_properties.dfy ===
/** How the older engine relates to the newer one, and the behaviours peculiar to it. */
module LegacyProperties {
  import opened Wrappers
  import opened Values
  import Strings
  import Strconv
  import Conv
  import ConvProperties
  import opened LegacyConv

  /** On primitive values and primitive destinations both engines compute the same result. */
  lemma AgreesOnPrimitives(rev: Conv.Revision, c: Conv.Config, v: Value, t: Shape)
    requires IsPrimitiveValue(v) && IsPrimitiveShape(t)
    ensures LegacyConv.Convert(rev, v, t) == Conv.ConvertType(rev, c, v, t)
  {
    assert Conv.ConvertType(rev, c, v, t) == Conv.ConvertPrimitiveToPrimitive(c, v, t);
    if t != BoolT {
      assert LegacyConv.ConvertPrimitiveToString(v) == Conv.ConvertSimpleToString(c, v);
    }
  }

  /** A primitive value converted to its own type is unchanged by the older engine as well. */
  lemma PrimitiveIdentity(rev: Conv.Revision, v: Value)
    requires ConvProperties.WellFormedPrimitive(v)
    ensures LegacyConv.Convert(rev, v, ShapeOf(v)) == Ok(v)
  {
    var c := Conv.DefaultConfig(_ => "");
    AgreesOnPrimitives(Conv.Repaired, c, v, ShapeOf(v));
    ConvProperties.PrimitiveIdentity(c, v);
  }

  /** A slice of primitives converted to its own type comes back unchanged, element by element. */
  lemma SliceToSliceIdentity(rev: Conv.Revision, v: Value)
    requires v.SliceV?
    requires forall i :: 0 <= i < |v.items| ==>
      ConvProperties.WellFormedPrimitive(v.items[i]) && ShapeOf(v.items[i]) == v.elem
    ensures LegacyConv.ConvertSliceToSlice(rev, v, ShapeOf(v)) == Ok(v)
    ensures LegacyConv.Convert(rev, v, ShapeOf(v)) == Ok(v)
  {
    var t := ShapeOf(v);
    forall i | 0 <= i < |v.items|
      ensures LegacyConv.Convert(rev, v.items[i], t.elem) == Ok(v.items[i]) && Assignable(v.items[i], t.elem)
    {
      PrimitiveIdentity(rev, v.items[i]);
    }
    var r := LegacyConv.ConvertSliceToSlice(rev, v, t);
    assert r.Ok?;
    assert r.value.items == v.items;
    SliceGoesThroughSliceToSlice(rev, v, t);
  }

  /** A map of primitives with distinct keys converted to its own type keeps exactly its entries,
      in order, but comes back as the `reflect.Value` of the new map. */
  lemma MapToMapReflects(rev: Conv.Revision, v: Value)
    requires v.MapV? && UniqueKeys(v.entries)
    requires forall i :: 0 <= i < |v.entries| ==>
      && ConvProperties.WellFormedPrimitive(v.entries[i].key) && ShapeOf(v.entries[i].key) == v.key
      && ConvProperties.WellFormedPrimitive(v.entries[i].val) && ShapeOf(v.entries[i].val) == v.val
    ensures LegacyConv.ConvertMapToMap(rev, v, ShapeOf(v)) == Ok(ReflectedV(v))
  {
    var t := ShapeOf(v);
    forall i | 0 <= i < |v.entries|
      ensures LegacyConv.ConvertEntry(rev, v, v.entries[i], t) == Ok(v.entries[i])
    {
      EntryIdentity(rev, v, v.entries[i], t);
    }
    FromPairsDistinct(v.entries);
    EntriesKept(rev, v, t);
  }

  /** An entry of primitives of the map's own key and value types converts to itself. */
  lemma EntryIdentity(rev: Conv.Revision, v: Value, e: Entry, t: Shape)
    requires v.MapV? && e in v.entries && t == MapT(v.key, v.val)
    requires ConvProperties.WellFormedPrimitive(e.key) && ShapeOf(e.key) == v.key
    requires ConvProperties.WellFormedPrimitive(e.val) && ShapeOf(e.val) == v.val
    ensures LegacyConv.ConvertEntry(rev, v, e, t) == Ok(e)
  {
    PrimitiveIdentity(rev, e.key);
    PrimitiveIdentity(rev, e.val);
  }

  /** When every entry converts to itself, the new map is built from the source's own entries. */
  lemma EntriesKept(rev: Conv.Revision, v: Value, t: Shape)
    requires v.MapV? && t == MapT(v.key, v.val)
    requires forall i :: 0 <= i < |v.entries| ==> LegacyConv.ConvertEntry(rev, v, v.entries[i], t) == Ok(v.entries[i])
    ensures LegacyConv.ConvertMapToMap(rev, v, t) == Ok(ReflectedV(MapV(v.key, v.val, FromPairs(v.entries))))
  {
    var r := LegacyConv.ConvertMapToMap(rev, v, t);
    assert r.Ok?;
    var ps: seq<Entry> :| && |ps| == |v.entries|
      && (forall i :: 0 <= i < |ps| ==> LegacyConv.ConvertEntry(rev, v, v.entries[i], t) == Ok(ps[i]))
      && r.value.inner.entries == FromPairs(ps);
    assert ps == v.entries;
  }

  /** The older engine turns a nil source into the empty string on its string bridge: nil
      converts to "" and to false, and fails to parse as an integer, where the newer engine
      rejects nil for every type that cannot be nil. */
  lemma NilOnStringBridge(rev: Conv.Revision, c: Conv.Config, k: IntKind)
    ensures LegacyConv.Convert(rev, Nil, StringT) == Ok(StrV(""))
    ensures LegacyConv.Convert(rev, Nil, BoolT) == Ok(BoolV(false))
    ensures LegacyConv.Convert(rev, Nil, IntT(k)) == Err(Conv.ParseFailure(Strconv.SyntaxError))
    ensures Conv.ConvertType(rev, c, Nil, StringT) == Err(Conv.NilTo(StringT))
  {
    assert LegacyConv.ConvertPrimitiveToString(Nil) == Ok("");
    assert LegacyConv.Convert(rev, Nil, IntT(k)) == LegacyConv.ConvertStringToPrimitive("", IntT(k));
  }

  /** Only one pointer level is stripped, so a pointer to a pointer type is not supported. As
      written, a pointer destination yields a `*interface{}` that points at itself; repaired, it
      yields a pointer of the destination type to the converted value. */
  lemma OnePointerLevel(rev: Conv.Revision, v: Value, s: Shape)
    requires ConvProperties.WellFormedPrimitive(v)
    ensures LegacyConv.Convert(rev, v, PtrT(PtrT(s))) == Err(Conv.Unsupported)
    ensures rev.AsWritten? ==> LegacyConv.Convert(rev, v, PtrT(ShapeOf(v))) == Ok(SelfPtrV)
    ensures rev.Repaired? ==> LegacyConv.Convert(rev, v, PtrT(ShapeOf(v))) == Ok(PtrV(ShapeOf(v), v))
  {
    PrimitiveIdentity(rev, v);
    PointerToPointerUnsupported(rev, v, s);
    assert Assignable(v, ShapeOf(v));
  }

  /** A non-nil primitive cannot be converted to a pointer to a pointer: the inner pointer type is
      not a kind the engine handles. */
  lemma PointerToPointerUnsupported(rev: Conv.Revision, v: Value, s: Shape)
    requires IsPrimitiveValue(v)
    ensures LegacyConv.DoConvert(rev, v, PtrT(s)) == Err(Conv.Unsupported)
    ensures LegacyConv.Convert(rev, v, PtrT(PtrT(s))) == Err(Conv.Unsupported)
  {
  }

  /** As written, every successful conversion to a pointer type gives the same self-referencing
      pointer, whatever the source: the converted value is lost. */
  lemma PointerLosesValue(v: Value, w: Value, t: Shape, u: Shape)
    requires v != Nil && w != Nil && !t.PtrT? && !u.PtrT?
    requires LegacyConv.Convert(Conv.AsWritten, v, t).Ok? && LegacyConv.Convert(Conv.AsWritten, w, u).Ok?
    ensures LegacyConv.Convert(Conv.AsWritten, v, PtrT(t)) == LegacyConv.Convert(Conv.AsWritten, w, PtrT(u)) == Ok(SelfPtrV)
  {
  }

  /** Repaired, converting to `*T` is converting to `T` and pointing at the result; a result that
      is not of type `T` (a `reflect.Value` from a map conversion) panics when stored. */
  lemma PointerWrapsConversion(v: Value, t: Shape)
    requires v != Nil && !t.PtrT?
    ensures var x := LegacyConv.Convert(Conv.Repaired, v, t);
      && (x.Ok? && Assignable(x.value, t) ==> LegacyConv.Convert(Conv.Repaired, v, PtrT(t)) == Ok(PtrV(t, x.value)))
      && (x.Ok? && !Assignable(x.value, t) ==> LegacyConv.Convert(Conv.Repaired, v, PtrT(t)).error.Panic?)
      && (x.Err? ==> LegacyConv.Convert(Conv.Repaired, v, PtrT(t)) == x)
  {
  }

  /** A one-entry `map[string]interface{}` keyed "_" converts as the value it wraps, for every
      destination that is not primitive; a primitive destination takes the primitive path first,
      where a map panics. */
  lemma FlattenUnderscore(rev: Conv.Revision, x: Value, t: Shape)
    requires x != Nil
    ensures !IsPrimitiveShape(t) ==> LegacyConv.DoConvert(rev, MapV(StringT, AnyT, [Entry(StrV("_"), x)]), t) == LegacyConv.Convert(rev, x, t)
    ensures IsPrimitiveShape(t) && t != BoolT ==> LegacyConv.DoConvert(rev, MapV(StringT, AnyT, [Entry(StrV("_"), x)]), t).error.Panic?
  {
    assert LegacyConv.TryFlattenEmptyKeyMap(MapV(StringT, AnyT, [Entry(StrV("_"), x)])) == Some(x);
  }

  /** The two engines unwrap different keys: the newer one "" and the older one "_". */
  lemma FlattenKeysDiffer(rev: Conv.Revision, c: Conv.Config)
    ensures Conv.ConvertType(rev, c, MapV(StringT, AnyT, [Entry(StrV(""), IntV(Int, 1))]), IntT(Int)) == Ok(IntV(Int, 1))
    ensures LegacyConv.Convert(rev, MapV(StringT, AnyT, [Entry(StrV(""), StrV("1~2"))]), SliceT(IntT(Int))) == Err(Conv.Unsupported)
    ensures LegacyConv.Convert(rev, MapV(StringT, AnyT, [Entry(StrV("_"), StrV("1~2"))]), SliceT(IntT(Int))) ==
      Ok(SliceV(IntT(Int), [IntV(Int, 1), IntV(Int, 2)]))
  {
    NewEngineFlattensEmptyKey(rev, c);
    OldEngineIgnoresEmptyKey(rev);
    UnderscoreOneTwo(rev);
  }

  lemma UnderscoreOneTwo(rev: Conv.Revision)
    ensures LegacyConv.Convert(rev, MapV(StringT, AnyT, [Entry(StrV("_"), StrV("1~2"))]), SliceT(IntT(Int))) ==
      Ok(SliceV(IntT(Int), [IntV(Int, 1), IntV(Int, 2)]))
  {
    FlattenUnderscore(rev, StrV("1~2"), SliceT(IntT(Int)));
    OneTwo();
  }

  lemma NewEngineFlattensEmptyKey(rev: Conv.Revision, c: Conv.Config)
    ensures Conv.ConvertType(rev, c, MapV(StringT, AnyT, [Entry(StrV(""), IntV(Int, 1))]), IntT(Int)) == Ok(IntV(Int, 1))
  {
    ConvProperties.FlattenConvertsInner(rev, c, IntV(Int, 1), IntT(Int));
    ConvProperties.PrimitiveIdentity(c, IntV(Int, 1));
    assert IntFits(Int, 1) by { Strconv.Pow2Value64(); }
  }

  lemma OldEngineIgnoresEmptyKey(rev: Conv.Revision)
    ensures LegacyConv.Convert(rev, MapV(StringT, AnyT, [Entry(StrV(""), StrV("1~2"))]), SliceT(IntT(Int))) == Err(Conv.Unsupported)
  {
    assert LegacyConv.TryFlattenEmptyKeyMap(MapV(StringT, AnyT, [Entry(StrV(""), StrV("1~2"))])) == None;
  }

  lemma OneTwo()
    ensures LegacyConv.ConvertStringToSlice("1~2", SliceT(IntT(Int))) == Ok(SliceV(IntT(Int), [IntV(Int, 1), IntV(Int, 2)]))
  {
    assert Strconv.FormatInt(1) == "1" && Strconv.FormatInt(2) == "2";
    assert Strings.Join(["1", "2"], StringSliceDelimiter) == "1~2";
    StringSliceRoundTrip([1, 2], ["1", "2"], [IntV(Int, 1), IntV(Int, 2)]);
  }

  /** The decimal forms of 64-bit integers joined by "~" split back into the same integers. */
  lemma StringSliceRoundTrip(xs: seq<int>, parts: seq<string>, ys: seq<Value>)
    requires |xs| >= 1 && forall i :: 0 <= i < |xs| ==> GoInt.IsInt64(xs[i])
    requires |parts| == |xs| && forall i :: 0 <= i < |xs| ==> parts[i] == Strconv.FormatInt(xs[i])
    requires |ys| == |xs| && forall i :: 0 <= i < |xs| ==> ys[i] == IntV(Int, xs[i])
    ensures LegacyConv.ConvertStringToSlice(Strings.Join(parts, StringSliceDelimiter), SliceT(IntT(Int))) == Ok(SliceV(IntT(Int), ys))
  {
    var s := Strings.Join(parts, StringSliceDelimiter);
    forall i | 0 <= i < |parts|
      ensures StringSliceDelimiter !in parts[i]
      ensures LegacyConv.ConvertStringToPrimitive(parts[i], IntT(Int)) == Ok(ys[i])
    {
      ConvProperties.DecimalPart(xs[i]);
      Strconv.ParseInt64Format(xs[i]);
    }
    Strings.SplitJoin(parts, StringSliceDelimiter);
    var r := LegacyConv.ConvertStringToSlice(s, SliceT(IntT(Int)));
    assert r.Ok?;
    assert r.value.items == ys;
  }

  /** A map key naming a field of the destination struct, with a value that converts, makes the
      older `ConvertMapToStruct` panic: it writes through the pointer instead of the struct. */
  lemma MapToStructPanicsOnMatch(rev: Conv.Revision, name: string, x: Value)
    requires ConvProperties.WellFormedPrimitive(x)
    ensures LegacyConv.ConvertMapToStruct(rev, MapV(StringT, AnyT, [Entry(StrV(name), x)]), StructT([Field(name, ShapeOf(x))])).error.Panic?
  {
    var m := MapV(StringT, AnyT, [Entry(StrV(name), x)]);
    var f := Field(name, ShapeOf(x));
    PrimitiveIdentity(rev, x);
    assert LegacyConv.FindKey(m, name) == Some(0);
    assert LegacyConv.VisitField(rev, m, f).error.Panic?;
  }

  /** Without a matching key the older `ConvertMapToStruct` returns the `reflect.Value` of a
      pointer to the zero struct. */
  lemma MapToStructWithoutMatch(rev: Conv.Revision, v: Value, t: Shape)
    requires v == MapV(StringT, AnyT, [Entry(StrV("B"), IntV(Int, 1))])
    requires t == StructT([Field("A", IntT(Int))])
    ensures LegacyConv.ConvertMapToStruct(rev, v, t) == Ok(ReflectedV(PtrV(t, StructV([FieldValue("A", IntT(Int), IntV(Int, 0))]))))
  {
    assert StructFields(t) == [Field("A", IntT(Int))];
    assert v.entries[0].key != StrV("A");
    assert ZeroOf(t) == StructV([FieldValue("A", IntT(Int), IntV(Int, 0))]) by {
      assert ZeroFields(t, 1) == [];
    }
  }

  /** A slice of maps cannot be converted by the older engine: each element comes back as a
      `reflect.Value`, which `reflect.Append` rejects. */
  lemma SliceOfMapsPanics(rev: Conv.Revision, v: Value, t: Shape)
    requires v == SliceV(MapT(StringT, IntT(Int)), [MapV(StringT, IntT(Int), [])])
    requires t == SliceT(MapT(StringT, IntT(Int)))
    ensures LegacyConv.Convert(rev, v, t).Err? && LegacyConv.Convert(rev, v, t).error.Panic?
  {
    AppendEmptyMapPanics(rev, v, v.items[0], t.elem);
    FirstItemPanics(rev, v, t);
    SliceGoesThroughSliceToSlice(rev, v, t);
  }

  /** Appending an empty map read back from `Convert` panics: the item is a `reflect.Value`. */
  lemma AppendEmptyMapPanics(rev: Conv.Revision, v: Value, x: Value, elem: Shape)
    requires v.SliceV? && x in v.items
    requires x == MapV(StringT, IntT(Int), []) && elem == MapT(StringT, IntT(Int))
    ensures LegacyConv.AppendItem(rev, v, x, elem).Err? && LegacyConv.AppendItem(rev, v, x, elem).error.Panic?
  {
    EmptyMapReadsAsReflected(rev, StringT, IntT(Int));
    assert !Assignable(ReflectedV(x), elem);
  }

  /** A slice converted to a slice type takes the `ConvertSliceToSlice` path. */
  lemma SliceGoesThroughSliceToSlice(rev: Conv.Revision, v: Value, t: Shape)
    requires v.SliceV? && t.SliceT?
    ensures LegacyConv.Convert(rev, v, t) == LegacyConv.ConvertSliceToSlice(rev, v, t)
  {
  }

  /** A panic while appending the first item ends the slice conversion with that panic. */
  lemma FirstItemPanics(rev: Conv.Revision, v: Value, t: Shape)
    requires v.SliceV? && t.SliceT? && |v.items| > 0
    requires LegacyConv.AppendItem(rev, v, v.items[0], t.elem).Err?
    requires LegacyConv.AppendItem(rev, v, v.items[0], t.elem).error.Panic?
    ensures LegacyConv.ConvertSliceToSlice(rev, v, t).Err?
    ensures LegacyConv.ConvertSliceToSlice(rev, v, t).error.Panic?
  {
  }

  /** An empty map converted to its own type comes back as a `reflect.Value` holding a fresh map,
      not as the map. */
  lemma EmptyMapReadsAsReflected(rev: Conv.Revision, k: Shape, x: Shape)
    ensures LegacyConv.Convert(rev, MapV(k, x, []), MapT(k, x)) == Ok(ReflectedV(MapV(k, x, [])))
  {
    var v, t := MapV(k, x, []), MapT(k, x);
    assert LegacyConv.TryFlattenEmptyKeyMap(v) == None;
    var r := LegacyConv.ConvertMapToMap(rev, v, t);
    assert r.Ok?;
    assert r.value.inner.entries == [];
  }
}

=== FILE: level2_provider.dfy ===
/** The two-level provider (`level2_cache_provider.go`): level 2 is the primary store and level 1
    a faster copy in front of it, both addressed with the same key. Reads try level 1, then level
    2, and copy a level-2 hit into level 1; writes go to level 2 first and are mirrored into level
    1 only when level 2 accepted them. Level-1 entries get a time-to-live drawn from the
    provider's own expiration policy; the draw is the parameter `d`. `L2_cache_provider.go` runs
    the same algorithm (its `TryGet`, `Create`, `Set` and `Remove` are these functions). */
module Level2Provider {
  import opened Wrappers
  import opened Values
  import opened CacheProvider
  import Expiration

  /** The two tiers and the expiration policy of level 1. */
  datatype Level2<!S1, !S2> = Level2(level1: Provider<S1>, level2: Provider<S2>, expireTime: Expiration.Expiration)

  /** The states of both tiers. */
  datatype Tiers<S1, S2> = Tiers(l1: S1, l2: S2)

  /** `NewLevel2CacheProvider`: a missing expiration panics. */
  function NewLevel2CacheProvider<S1, S2>(l1: Provider<S1>, l2: Provider<S2>, e: Option<Expiration.Expiration>)
    : (r: Result<Level2<S1, S2>, Fault>)
    ensures r.Ok? <==> e.Some?
    ensures r.Ok? ==> r.value.level1 == l1 && r.value.level2 == l2 && r.value.expireTime == e.value
    ensures r.Err? ==> r.error.Panic?
  {
    match e
    case None => Err(Panic("'expireTime' must not be nil"))
    case Some(x) => Ok(Level2(l1, l2, x))
  }

  /** `setLevel1`: a level-1 `Set` with a freshly drawn time-to-live. */
  function SetLevel1<S1, S2>(p: Level2<S1, S2>, s1: S1, key: string, x: Value, d: Expiration.Draw, now: int): Call<S1, ()>
    requires Expiration.ValidDraw(p.expireTime, d)
  {
    p.level1.upsert(s1, key, x, Expiration.NextExpireTime(p.expireTime, d), now)
  }

  /** `TryGet`: a level-1 hit or failure is returned as it is and level 2 is not consulted; after
      a level-1 miss, a level-2 failure or miss is returned as it is; a level-2 hit is copied into
      level 1 (whose error is ignored, whose panic is not) and returned. */
  function TryGet<S1, S2>(p: Level2<S1, S2>, s: Tiers<S1, S2>, key: string, recv: Value, d: Expiration.Draw, now: int)
    : (r: Call<Tiers<S1, S2>, Read>)
    requires Expiration.ValidDraw(p.expireTime, d)
    ensures var c1 := p.level1.tryGet(s.l1, key, recv, now);
      (c1.out.Err? || c1.out.value.found) ==> r == Call(Tiers(c1.state, s.l2), c1.out)
    ensures var c1 := p.level1.tryGet(s.l1, key, recv, now);
      c1.out.Ok? && !c1.out.value.found ==>
        var c2 := p.level2.tryGet(s.l2, key, c1.out.value.receiver, now);
        && r.state.l2 == c2.state
        && (c2.out.Err? ==> r == Call(Tiers(c1.state, c2.state), c2.out))
        && (c2.out.Ok? && !c2.out.value.found ==> r == Call(Tiers(c1.state, c2.state), Ok(Read(false, c2.out.value.receiver))))
        && (c2.out.Ok? && c2.out.value.found && c2.out.value.receiver.PtrV? ==>
              var c3 := SetLevel1(p, c1.state, key, c2.out.value.receiver.pointee, d, now);
              r.state.l1 == c3.state && (r.out.Ok? <==> !Panicked(c3.out)) && (r.out.Ok? ==> r.out == c2.out))
  {
    var c1 := p.level1.tryGet(s.l1, key, recv, now);
    if c1.out.Err? || c1.out.value.found then Call(Tiers(c1.state, s.l2), c1.out)
    else
      var c2 := p.level2.tryGet(s.l2, key, c1.out.value.receiver, now);
      if c2.out.Err? then Call(Tiers(c1.state, c2.state), c2.out)
      else if !c2.out.value.found then Call(Tiers(c1.state, c2.state), Ok(Read(false, c2.out.value.receiver)))
      else
        match c2.out.value.receiver
        case PtrV(_, x) =>
          var c3 := SetLevel1(p, c1.state, key, x, d, now);
          if Panicked(c3.out) then Call(Tiers(c3.state, c2.state), Err(c3.out.error))
          else Call(Tiers(c3.state, c2.state), c2.out)
        case _ => Call(Tiers(c1.state, c2.state), Err(Panic("reflect: call of reflect.Value.Elem on a non-pointer")))
  }

  /** `Get`: `TryGet` without the found flag. */
  function Get<S1, S2>(p: Level2<S1, S2>, s: Tiers<S1, S2>, key: string, recv: Value, d: Expiration.Draw, now: int)
    : (r: Call<Tiers<S1, S2>, Value>)
    requires Expiration.ValidDraw(p.expireTime, d)
    ensures r.state == TryGet(p, s, key, recv, d, now).state
    ensures r.out.Ok? <==> TryGet(p, s, key, recv, d, now).out.Ok?
    ensures r.out.Ok? ==> r.out.value == TryGet(p, s, key, recv, d, now).out.value.receiver
  {
    var c := TryGet(p, s, key, recv, d, now);
    match c.out
    case Ok(rd) => Call(c.state, Ok(rd.receiver))
    case Err(e) => Call(c.state, Err(e))
  }

  /** `Create`: level 2 first; when it fails or reports the key present, level 1 is untouched and
      its answer returned; otherwise level 1 is overwritten and true returned. */
  function Create<S1, S2>(p: Level2<S1, S2>, s: Tiers<S1, S2>, key: string, x: Value, ttl: int, d: Expiration.Draw, now: int)
    : (r: Call<Tiers<S1, S2>, bool>)
    requires Expiration.ValidDraw(p.expireTime, d)
    ensures var c2 := p.level2.create(s.l2, key, x, ttl, now);
      && r.state.l2 == c2.state
      && (c2.out != Ok(true) ==> r == Call(Tiers(s.l1, c2.state), c2.out))
      && (c2.out == Ok(true) ==>
            r.state.l1 == SetLevel1(p, s.l1, key, x, d, now).state
            && (r.out.Ok? <==> !Panicked(SetLevel1(p, s.l1, key, x, d, now).out))
            && (r.out.Ok? ==> r.out == Ok(true)))
  {
    var c2 := p.level2.create(s.l2, key, x, ttl, now);
    if c2.out.Err? || !c2.out.value then Call(Tiers(s.l1, c2.state), c2.out)
    else
      var c1 := SetLevel1(p, s.l1, key, x, d, now);
      if Panicked(c1.out) then Call(Tiers(c1.state, c2.state), Err(c1.out.error))
      else Call(Tiers(c1.state, c2.state), Ok(true))
  }

  /** `Set`: level 2 first; its error is returned with level 1 untouched; otherwise level 1 is
      mirrored and a level-1 error ignored. */
  function Set<S1, S2>(p: Level2<S1, S2>, s: Tiers<S1, S2>, key: string, x: Value, ttl: int, d: Expiration.Draw, now: int)
    : (r: Call<Tiers<S1, S2>, ()>)
    requires Expiration.ValidDraw(p.expireTime, d)
    ensures var c2 := p.level2.upsert(s.l2, key, x, ttl, now);
      && r.state.l2 == c2.state
      && (c2.out.Err? ==> r == Call(Tiers(s.l1, c2.state), c2.out))
      && (c2.out.Ok? ==>
            r.state.l1 == SetLevel1(p, s.l1, key, x, d, now).state
            && (r.out.Ok? <==> !Panicked(SetLevel1(p, s.l1, key, x, d, now).out)))
  {
    var c2 := p.level2.upsert(s.l2, key, x, ttl, now);
    if c2.out.Err? then Call(Tiers(s.l1, c2.state), c2.out)
    else
      var c1 := SetLevel1(p, s.l1, key, x, d, now);
      if Panicked(c1.out) then Call(Tiers(c1.state, c2.state), Err(c1.out.error))
      else Call(Tiers(c1.state, c2.state), Ok(()))
  }

  /** `Remove`: removes from level 2, then from level 1 whatever level 2 answered, and returns
      level 2's answer; only a panic changes that. */
  function Remove<S1, S2>(p: Level2<S1, S2>, s: Tiers<S1, S2>, key: string, now: int): (r: Call<Tiers<S1, S2>, bool>)
    ensures var c2 := p.level2.remove(s.l2, key, now);
      && r.state.l2 == c2.state
      && (!Panicked(c2.out) ==>
            var c1 := p.level1.remove(s.l1, key, now);
            r.state.l1 == c1.state && (!Panicked(c1.out) ==> r.out == c2.out))
  {
    var c2 := p.level2.remove(s.l2, key, now);
    if Panicked(c2.out) then Call(Tiers(s.l1, c2.state), c2.out)
    else
      var c1 := p.level1.remove(s.l1, key, now);
      if Panicked(c1.out) then Call(Tiers(c1.state, c2.state), Err(c1.out.error))
      else Call(Tiers(c1.state, c2.state), c2.out)
  }

  /** `Increase` and `IncreaseOrCreate` are not supported: they panic and change nothing. */
  function Increase<S1, S2>(p: Level2<S1, S2>, s: Tiers<S1, S2>, key: string): (r: Call<Tiers<S1, S2>, int>)
    ensures r.state == s && Panicked(r.out)
  {
    Call(s, Err(Panic("not supported")))
  }

  function IncreaseOrCreate<S1, S2>(p: Level2<S1, S2>, s: Tiers<S1, S2>, key: string, increment: int, ttl: int)
    : (r: Call<Tiers<S1, S2>, int>)
    ensures r.state == s && Panicked(r.out)
  {
    Call(s, Err(Panic("not supported")))
  }

  // ----- both tiers as reference stores -----

  /** Both tiers behave as the provider contract describes. */
  function OverReference(e: Expiration.Expiration): Level2<Store, Store> {
    Level2(Reference(), Reference(), e)
  }

  /** Level 1 never holds a different value from level 2: where both have a visible entry, the
      values agree. (Level 1 may still hold an entry level 2 has lost, since its time-to-live is
      drawn independently.) */
  predicate Coherent(s: Tiers<Store, Store>, now: int) {
    forall k :: k in s.l1 && k in s.l2 && Live(s.l1[k], now) && Live(s.l2[k], now) ==> s.l1[k].value == s.l2[k].value
  }

  /** Coherence survives the passing of time. */
  lemma CoherentLater(s: Tiers<Store, Store>, now: int, later: int)
    requires Coherent(s, now) && now <= later
    ensures Coherent(s, later)
  {
  }

  /** A read of coherent tiers returns what level 2 holds whenever level 2 holds the key, and
      reports a miss, changing nothing, when neither tier holds it. */
  lemma TryGetReadsLevel2(e: Expiration.Expiration, s: Tiers<Store, Store>, key: string, recv: Value, d: Expiration.Draw, now: int)
    requires Expiration.ValidDraw(e, d) && Coherent(s, now) && recv.PtrV?
    ensures key in Visible(s.l2, now) ==>
      TryGet(OverReference(e), s, key, recv, d, now).out == RefTryGet(s.l2, key, recv, now).out
    ensures key !in Visible(s.l1, now) && key !in Visible(s.l2, now) ==>
      TryGet(OverReference(e), s, key, recv, d, now) == Call(s, Ok(Read(false, recv)))
  {
  }

  /** Level 1 can outlive level 2: an entry level 2 no longer has is still served from level 1. */
  lemma StaleReadFromLevel1(e: Expiration.Expiration, key: string, x: Value, t: Shape, old_: Value, d: Expiration.Draw, now: int)
    requires Expiration.ValidDraw(e, d)
    ensures var s := Tiers(map[key := Item(x, Never)], map[]);
      && Coherent(s, now)
      && RefTryGet(s.l2, key, PtrV(t, old_), now).out == Ok(Read(false, PtrV(t, old_)))
      && TryGet(OverReference(e), s, key, PtrV(t, old_), d, now).out == Ok(Read(true, PtrV(t, x)))
  {
  }

  /** Every operation keeps coherent tiers coherent. */
  lemma TryGetKeepsCoherent(e: Expiration.Expiration, s: Tiers<Store, Store>, key: string, recv: Value, d: Expiration.Draw, now: int)
    requires Expiration.ValidDraw(e, d) && Coherent(s, now)
    ensures Coherent(TryGet(OverReference(e), s, key, recv, d, now).state, now)
  {
  }

  lemma CreateKeepsCoherent(e: Expiration.Expiration, s: Tiers<Store, Store>, key: string, x: Value, ttl: int, d: Expiration.Draw, now: int)
    requires Expiration.ValidDraw(e, d) && Coherent(s, now)
    ensures Coherent(Create(OverReference(e), s, key, x, ttl, d, now).state, now)
  {
  }

  lemma SetKeepsCoherent(e: Expiration.Expiration, s: Tiers<Store, Store>, key: string, x: Value, ttl: int, d: Expiration.Draw, now: int)
    requires Expiration.ValidDraw(e, d) && Coherent(s, now)
    ensures Coherent(Set(OverReference(e), s, key, x, ttl, d, now).state, now)
  {
  }

  lemma RemoveKeepsCoherent(e: Expiration.Expiration, s: Tiers<Store, Store>, key: string, now: int)
    requires Coherent(s, now)
    ensures Coherent(Remove(OverReference(e), s, key, now).state, now)
    ensures Remove(OverReference(e), s, key, now).out == RefRemove(s.l2, key, now).out
  {
  }
}

=== FILE: memory_provider.dfy ===
/** The in-memory provider (`memory_cache_provider.go`): a map from keys to a value and an
    absolute expiry instant in Unix nanoseconds. The clock (`time.Now()`) is the `now` parameter
    of every call. Reads convert the stored value to the receiver's type with the older
    conversion engine (`conv/conv.go`).

    `Revision` selects between the code as written and the repaired code: as written, a
    time-to-live of 0 is stored as the instant of the write, so the entry is already expired at
    the next read, and `Remove` reports true even for an absent key; the repaired code keeps an
    entry with time-to-live 0 forever and reports whether a visible entry was removed, which is
    what the provider contract in `cache_provider.go` documents. The same toggle selects the older
    engine's handling of pointer destinations for reads. */
module MemoryProvider {
  import opened Wrappers
  import opened GoInt
  import opened Values
  import opened CacheProvider
  import Conv
  import LegacyConv
  import LegacyProperties
  import ConvProperties

  /** The revision toggle the conversion engines share. */
  type Revision = Conv.Revision

  /** The stored expiry of a write at `now` with time-to-live `ttl`: `now + ttl` in 64-bit
      arithmetic, except that the repaired code never expires a time-to-live of 0. */
  function ExpireAt(rev: Revision, now: int, ttl: int): (d: Deadline)
    ensures rev.AsWritten? ==> d.At? && IsInt64(d.nanos)
    ensures rev.Repaired? ==> (d.Never? <==> ttl == 0)
    ensures IsInt64(now + ttl) && (rev.Repaired? || ttl != 0) ==> d == DeadlineAfter(now, ttl)
  {
    if rev.Repaired? && ttl == 0 then Never else At(Wrap64(now + ttl))
  }

  /** `TryGet`: an absent key, or an expired one (which is deleted), reports not found; a
      receiver that is not a pointer is an error, or a panic when it is nil or a nil pointer. The
      stored value is converted to the receiver's type: a conversion error reports not found, a
      panic in the conversion propagates (nothing recovers it), and a converted value that cannot
      be stored through the pointer panics in `reflect.Value.Set`. */
  function TryGet(rev: Revision, s: Store, key: string, recv: Value, now: int): (r: Call<Store, Read>)
    ensures key !in s ==> r == Call(s, Ok(Read(false, recv)))
    ensures key in s && !Live(s[key], now) ==> r == Call(s - {key}, Ok(Read(false, recv)))
    ensures Visible(r.state, now) == Visible(s, now)
    ensures r.out.Ok? && !r.out.value.found ==> r.out.value.receiver == recv
    ensures r.out.Ok? && r.out.value.found ==>
      && key in Visible(s, now) && recv.PtrV?
      && r.out.value.receiver.PtrV? && r.out.value.receiver.target == recv.target
      && LegacyConv.Convert(rev, s[key].value, recv.target) == Ok(r.out.value.receiver.pointee)
      && Assignable(r.out.value.receiver.pointee, recv.target)
    ensures key in Visible(s, now) && recv.PtrV? ==>
      var c := LegacyConv.Convert(rev, s[key].value, recv.target);
      && (c.Err? && !c.error.Panic? ==> r.out == Ok(Read(false, recv)))
      && (c.Err? && c.error.Panic? ==> Panicked(r.out))
      && (c.Ok? && !Assignable(c.value, recv.target) ==> Panicked(r.out))
    ensures key in Visible(s, now) && !recv.PtrV? ==>
      r.out.Err? && (r.out.error.Panic? <==> recv == Nil || recv.NilPtrV?)
  {
    if key !in s then Call(s, Ok(Read(false, recv)))
    else if !Live(s[key], now) then
      DropExpiredKeepsVisible(s, key, now);
      Call(s - {key}, Ok(Read(false, recv)))
    else
      match recv
      case Nil => Call(s, Err(Panic("reflect: call of reflect.Value.Type on zero Value")))
      case NilPtrV(_) => Call(s, Err(Panic("reflect: call of reflect.Value.Type on zero Value")))
      case PtrV(t, _) => Call(s, ReadInto(rev, s[key].value, recv))
      case _ => Call(s, Err(Error("MemoryCacheProvider: Unmarshal(non-pointer)")))
  }

  /** The read of a live entry holding `v` into the pointer `recv`: `v` converted to the pointee
      type and stored through the pointer. */
  function ReadInto(rev: Revision, v: Value, recv: Value): (r: Result<Read, Fault>)
    requires recv.PtrV?
    ensures r.Ok? && !r.value.found ==> r.value.receiver == recv
    ensures r.Ok? && r.value.found ==>
      && r.value.receiver.PtrV? && r.value.receiver.target == recv.target
      && LegacyConv.Convert(rev, v, recv.target) == Ok(r.value.receiver.pointee)
      && Assignable(r.value.receiver.pointee, recv.target)
    ensures
      var c := LegacyConv.Convert(rev, v, recv.target);
      && (c.Err? && !c.error.Panic? ==> r == Ok(Read(false, recv)))
      && (c.Err? && c.error.Panic? ==> Panicked(r))
      && (c.Ok? && !Assignable(c.value, recv.target) ==> Panicked(r))
  {
    match LegacyConv.Convert(rev, v, recv.target)
    case Err(e) => if e.Panic? then Err(Panic(e.reason)) else Ok(Read(false, recv))
    case Ok(x) =>
      if Assignable(x, recv.target) then Ok(Read(true, PtrV(recv.target, x)))
      else Err(Panic("reflect.Set: value is not assignable to the receiver"))
  }

  /** Deleting an expired entry changes nothing a read can see. */
  lemma DropExpiredKeepsVisible(s: Store, key: string, now: int)
    requires key in s && !Live(s[key], now)
    ensures Visible(s - {key}, now) == Visible(s, now)
  {
  }

  /** `Create`: a visible entry is left alone and reported with false; otherwise the entry is
      written and true returned. */
  function Create(rev: Revision, s: Store, key: string, x: Value, ttl: int, now: int): (r: Call<Store, bool>)
    ensures r.out.Ok?
    ensures r.out.value <==> key !in Visible(s, now)
    ensures r.out.value ==> r.state == s[key := Item(x, ExpireAt(rev, now, ttl))]
    ensures !r.out.value ==> r.state == s
  {
    if key in s && Live(s[key], now) then Call(s, Ok(false))
    else Call(s[key := Item(x, ExpireAt(rev, now, ttl))], Ok(true))
  }

  /** `Set`: an unconditional write that never fails. */
  function Set(rev: Revision, s: Store, key: string, x: Value, ttl: int, now: int): (r: Call<Store, ()>)
    ensures r.out.Ok?
    ensures key in r.state && r.state[key] == Item(x, ExpireAt(rev, now, ttl))
    ensures forall k :: k != key ==> (k in r.state <==> k in s) && (k in s ==> r.state[k] == s[k])
  {
    Call(s[key := Item(x, ExpireAt(rev, now, ttl))], Ok(()))
  }

  /** `Remove`: the key is deleted; as written the result is always true, repaired it is whether
      a visible entry was removed. */
  function Remove(rev: Revision, s: Store, key: string, now: int): (r: Call<Store, bool>)
    ensures r.state == s - {key}
    ensures rev.AsWritten? ==> r.out == Ok(true)
    ensures rev.Repaired? ==> r.out == Ok(key in Visible(s, now))
  {
    if rev.AsWritten? then Call(s - {key}, Ok(true))
    else Call(s - {key}, Ok(key in s && Live(s[key], now)))
  }

  /** The provider as the tiered providers and key operations call it. */
  function Memory(rev: Revision): Provider<Store> {
    Provider(
      (s, k, recv, now) => TryGet(rev, s, k, recv, now),
      (s, k, x, t, now) => Create(rev, s, k, x, t, now),
      (s, k, x, t, now) => Set(rev, s, k, x, t, now),
      (s, k, now) => Remove(rev, s, k, now))
  }

  /** `Get`: `TryGet` without the found flag; a conversion panic propagates. */
  function Get(rev: Revision, s: Store, key: string, recv: Value, now: int): (r: Call<Store, Value>)
    ensures r.state == TryGet(rev, s, key, recv, now).state
    ensures r.out.Ok? <==> TryGet(rev, s, key, recv, now).out.Ok?
    ensures r.out.Ok? ==> r.out.value == TryGet(rev, s, key, recv, now).out.value.receiver
    ensures Panicked(r.out) <==> Panicked(TryGet(rev, s, key, recv, now).out)
  {
    CacheProvider.Get(Memory(rev), s, key, recv, now)
  }

  /** `MustGet`: panics exactly when `Get` fails. */
  function MustGet(rev: Revision, s: Store, key: string, recv: Value, now: int): (r: Call<Store, Value>)
    ensures r.state == Get(rev, s, key, recv, now).state
    ensures r.out.Ok? <==> Get(rev, s, key, recv, now).out.Ok?
    ensures r.out.Ok? ==> r.out == Get(rev, s, key, recv, now).out
    ensures r.out.Err? ==> r.out.error.Panic?
  {
    Must(Get(rev, s, key, recv, now))
  }

  /** `MustCreate`, `MustSet`, `MustRemove`: the writes never fail, so these never panic. */
  function MustCreate(rev: Revision, s: Store, key: string, x: Value, ttl: int, now: int): (r: Call<Store, bool>)
    ensures r == Create(rev, s, key, x, ttl, now) && r.out.Ok?
  {
    Must(Create(rev, s, key, x, ttl, now))
  }

  function MustSet(rev: Revision, s: Store, key: string, x: Value, ttl: int, now: int): (r: Call<Store, ()>)
    ensures r == Set(rev, s, key, x, ttl, now) && r.out.Ok?
  {
    Must(Set(rev, s, key, x, ttl, now))
  }

  function MustRemove(rev: Revision, s: Store, key: string, now: int): (r: Call<Store, bool>)
    ensures r == Remove(rev, s, key, now) && r.out.Ok?
  {
    Must(Remove(rev, s, key, now))
  }

  // ----- the repaired store implements the contract -----

  /** A receiver that reads `x` back unchanged: a pointer to `x`'s own primitive type. */
  predicate ReadsBackExactly(x: Value, recv: Value) {
    ConvProperties.WellFormedPrimitive(x) && recv.PtrV? && recv.target == ShapeOf(x)
  }

  lemma ReadBackExactly(rev: Revision, x: Value, recv: Value)
    requires ReadsBackExactly(x, recv)
    ensures LegacyConv.Convert(rev, x, recv.target) == Ok(x) && Assignable(x, recv.target)
  {
    LegacyProperties.PrimitiveIdentity(rev, x);
  }

  /** Reading: where the stores look the same and the visible value reads back unchanged, the
      provider answers as the reference store does, and the stores still look the same. */
  lemma TryGetRefines(rev: Revision, m: Store, s: Store, key: string, recv: Value, now: int)
    requires Visible(m, now) == Visible(s, now) && recv.PtrV?
    requires key in Visible(s, now) ==> ReadsBackExactly(s[key].value, recv)
    ensures TryGet(rev, m, key, recv, now).out == RefTryGet(s, key, recv, now).out
    ensures Visible(TryGet(rev, m, key, recv, now).state, now) == Visible(RefTryGet(s, key, recv, now).state, now)
  {
    if key in Visible(s, now) {
      assert key in Visible(m, now) && m[key] == s[key];
      ReadBackExactly(rev, s[key].value, recv);
    } else {
      assert key !in Visible(m, now);
    }
  }

  /** Writing the same entry into stores that look the same keeps them looking the same. */
  lemma PutKeepsVisible(m: Store, s: Store, key: string, it: Item, now: int)
    requires Visible(m, now) == Visible(s, now)
    ensures Visible(m[key := it], now) == Visible(s[key := it], now)
  {
    var a, b := m[key := it], s[key := it];
    forall k | k in a ensures (k in Visible(a, now)) == (k in Visible(b, now)) {
      if k != key { assert (k in Visible(m, now)) == (k in Visible(s, now)); }
    }
    forall k | k in b ensures (k in Visible(a, now)) == (k in Visible(b, now)) {
      if k != key { assert (k in Visible(m, now)) == (k in Visible(s, now)); }
    }
  }

  /** `Create`, repaired: the same answer as the reference store, and the same visible entries
      afterwards, as long as the expiry instant does not overflow. */
  lemma CreateRefines(m: Store, s: Store, key: string, x: Value, ttl: int, now: int)
    requires Visible(m, now) == Visible(s, now) && IsInt64(now + ttl)
    ensures Create(Conv.Repaired, m, key, x, ttl, now).out == RefCreate(s, key, x, ttl, now).out
    ensures Visible(Create(Conv.Repaired, m, key, x, ttl, now).state, now) == Visible(RefCreate(s, key, x, ttl, now).state, now)
  {
    assert (key in Visible(m, now)) == (key in Visible(s, now));
    PutKeepsVisible(m, s, key, Item(x, DeadlineAfter(now, ttl)), now);
  }

  /** `Set`, repaired, likewise. */
  lemma SetRefines(m: Store, s: Store, key: string, x: Value, ttl: int, now: int)
    requires Visible(m, now) == Visible(s, now) && IsInt64(now + ttl)
    ensures Set(Conv.Repaired, m, key, x, ttl, now).out == RefSet(s, key, x, ttl, now).out
    ensures Visible(Set(Conv.Repaired, m, key, x, ttl, now).state, now) == Visible(RefSet(s, key, x, ttl, now).state, now)
  {
    PutKeepsVisible(m, s, key, Item(x, DeadlineAfter(now, ttl)), now);
  }

  /** `Remove`, repaired, likewise. */
  lemma RemoveRefines(m: Store, s: Store, key: string, now: int)
    requires Visible(m, now) == Visible(s, now)
    ensures Remove(Conv.Repaired, m, key, now).out == RefRemove(s, key, now).out
    ensures Visible(Remove(Conv.Repaired, m, key, now).state, now) == Visible(RefRemove(s, key, now).state, now)
  {
    assert (key in Visible(m, now)) == (key in Visible(s, now));
    assert Visible(m - {key}, now) == Visible(s - {key}, now) by {
      forall k | k != key ensures (k in Visible(m - {key}, now)) == (k in Visible(s - {key}, now)) {
        assert (k in Visible(m, now)) == (k in Visible(s, now));
      }
    }
  }

  // ----- the code as written -----

  /** As written, a time-to-live of 0 stores the instant of the write, so the value is gone at
      that very instant and at every later read (and the entry is deleted by the read). */
  lemma ZeroTimeToLiveExpiresAtOnce(s: Store, key: string, x: Value, recv: Value, now: int, later: int)
    requires IsInt64(now) && now <= later
    ensures var s2 := Set(Conv.AsWritten, s, key, x, 0, now).state;
      TryGet(Conv.AsWritten, s2, key, recv, later) == Call(s2 - {key}, Ok(Read(false, recv)))
  {
  }

  /** Repaired, a time-to-live of 0 never expires: the value reads back at every later time. */
  lemma ZeroTimeToLiveKept(s: Store, key: string, x: Value, recv: Value, now: int, later: int)
    requires ReadsBackExactly(x, recv)
    ensures var s2 := Set(Conv.Repaired, s, key, x, 0, now).state;
      TryGet(Conv.Repaired, s2, key, recv, later) == Call(s2, Ok(Read(true, PtrV(recv.target, x))))
  {
    var s2 := Set(Conv.Repaired, s, key, x, 0, now).state;
    assert s2[key] == Item(x, Never);
    ReadBackExactly(Conv.Repaired, x, recv);
    assert ReadInto(Conv.Repaired, x, recv) == Ok(Read(true, PtrV(recv.target, x)));
  }

  /** As written, removing from an empty store reports true, where the contract promises false;
      the repaired `Remove` reports false, as the reference store does. */
  lemma RemoveAbsentReportsTrue(key: string, now: int)
    ensures Remove(Conv.AsWritten, map[], key, now).out == Ok(true)
    ensures RefRemove(map[], key, now).out == Ok(false)
    ensures Remove(Conv.Repaired, map[], key, now).out == Ok(false)
  {
  }

  /** A stored `time.Time` never reads back into a `*time.Time`: the older engine has no
      conversion between struct types, so the read reports not found. */
  lemma TimeNotReadBack(rev: Revision, s: Store, key: string, nanos: int, old_: Value, now: int)
    requires key in s && s[key].value == TimeV(nanos) && Live(s[key], now)
    ensures TryGet(rev, s, key, PtrV(TimeT, old_), now) == Call(s, Ok(Read(false, PtrV(TimeT, old_))))
  {
    LiveReadsInto(rev, s, key, PtrV(TimeT, old_), now);
  }

  /** A stored map read back into a pointer to its own map type panics: the older engine returns
      the map as a `reflect.Value`, which `reflect.Value.Set` rejects. */
  lemma MapReadPanics(rev: Revision, s: Store, key: string, now: int)
    requires key in s && s[key].value == MapV(StringT, IntT(Int), []) && Live(s[key], now)
    ensures Panicked(TryGet(rev, s, key, PtrV(MapT(StringT, IntT(Int)), NilMapV(StringT, IntT(Int))), now).out)
  {
    var t := MapT(StringT, IntT(Int));
    LegacyProperties.EmptyMapReadsAsReflected(rev, StringT, IntT(Int));
    assert !Assignable(ReflectedV(MapV(StringT, IntT(Int), [])), t);
    UnassignableReadPanics(rev, s, key, PtrV(t, NilMapV(StringT, IntT(Int))), now);
  }

  /** A value that converts to something the receiver cannot hold makes the read panic. */
  lemma UnassignableReadPanics(rev: Revision, s: Store, key: string, recv: Value, now: int)
    requires key in s && Live(s[key], now) && recv.PtrV?
    requires LegacyConv.Convert(rev, s[key].value, recv.target).Ok?
    requires !Assignable(LegacyConv.Convert(rev, s[key].value, recv.target).value, recv.target)
    ensures Panicked(TryGet(rev, s, key, recv, now).out)
  {
  }

  /** A conversion panic is not a miss: reading a stored `map[string]int` into an `int` panics in
      the older engine's string bridge, and the panic reaches the caller of `TryGet`, `Get` and
      `MustGet`. */
  lemma ConversionPanicPropagates(rev: Revision, s: Store, key: string, old_: Value, now: int)
    requires key in s && s[key].value == MapV(StringT, IntT(Int), [Entry(StrV("a"), IntV(Int, 1))]) && Live(s[key], now)
    ensures Panicked(TryGet(rev, s, key, PtrV(IntT(Int), old_), now).out)
    ensures Panicked(Get(rev, s, key, PtrV(IntT(Int), old_), now).out)
    ensures Panicked(MustGet(rev, s, key, PtrV(IntT(Int), old_), now).out)
  {
    assert LegacyConv.Convert(rev, s[key].value, IntT(Int)).error.Panic?;
  }

  /** Reading a stored primitive into a pointer variable (a `**T` receiver): as written the
      engine hands back a self-referencing `*interface{}`, which cannot be stored in a `*T`, so the
      read panics; repaired, the variable receives a fresh pointer to the value. */
  lemma PointerReceiverAsWritten(s: Store, key: string, old_: Value, now: int)
    requires key in s && Live(s[key], now) && ConvProperties.WellFormedPrimitive(s[key].value)
    ensures Panicked(TryGet(Conv.AsWritten, s, key, PtrV(PtrT(ShapeOf(s[key].value)), old_), now).out)
  {
    LegacyProperties.OnePointerLevel(Conv.AsWritten, s[key].value, AnyT);
  }

  lemma PointerReceiverRepaired(s: Store, key: string, old_: Value, now: int)
    requires key in s && Live(s[key], now) && ConvProperties.WellFormedPrimitive(s[key].value)
    ensures var x := s[key].value;
      TryGet(Conv.Repaired, s, key, PtrV(PtrT(ShapeOf(x)), old_), now) == Call(s, Ok(Read(true, PtrV(PtrT(ShapeOf(x)), PtrV(ShapeOf(x), x)))))
  {
    var x := s[key].value;
    LegacyProperties.OnePointerLevel(Conv.Repaired, x, AnyT);
    assert Assignable(PtrV(ShapeOf(x), x), PtrT(ShapeOf(x)));
    assert ReadInto(Conv.Repaired, x, PtrV(PtrT(ShapeOf(x)), old_)) == Ok(Read(true, PtrV(PtrT(ShapeOf(x)), PtrV(ShapeOf(x), x))));
    LiveReadsInto(Conv.Repaired, s, key, PtrV(PtrT(ShapeOf(x)), old_), now);
  }

  /** A live entry read into a pointer answers what `ReadInto` answers, and keeps the store. */
  lemma LiveReadsInto(rev: Revision, s: Store, key: string, recv: Value, now: int)
    requires key in s && Live(s[key], now) && recv.PtrV?
    ensures TryGet(rev, s, key, recv, now) == Call(s, ReadInto(rev, s[key].value, recv))
  {
  }
}

=== FILE: operation.dfy ===
/** Cache operations (`operation.go`): an operation binds a namespace, a key prefix, a provider
    and an expiration policy, and builds cache keys of the form
    `<namespace>:<prefix>[_<component>]*` from a fixed number of key components. The rendering of
    one component and the pointer stripping before it are shared with `cache_operation.go`, whose
    copies of `oneKeyToStr` and `indirect` are the same code. */
module Operation {
  import opened Wrappers
  import opened Values
  import Strings
  import Strconv
  import UnixTime
  import Expiration

  /** The text a nil key component renders as. */
  const NilKeyString: string := "@.nil.@*"

  /** Why building an operation panics. */
  datatype SetupError = EmptyName | NilProvider | NegativeFlagLen | NegativeExpireTime

  /** Why building a key panics: the wrong number of components, or a component with no text. */
  datatype KeyError = ArityMismatch(got: nat, want: nat) | NotStringable(component: Value)

  /** An `Operation`; `P` is the provider it writes through. */
  datatype Operation<P> = Operation(
    namespace: string,
    keyBase: string,
    provider: P,
    expireTime: Expiration.Expiration,
    uniqueFlagLen: nat)

  /** A `KeyOperation`: the operation it came from and the key it built. */
  datatype KeyOperation<P> = KeyOperation(op: Operation<P>, key: string)

  /** `NewOperation`: the names must be non-empty, the provider present and the component count
      not negative, checked in that order; a missing expiration becomes `CacheExpirationZero`. */
  function NewOperation<P>(namespace: string, prefix: string, uniqueFlagLen: int,
                           provider: Option<P>, expireTime: Option<Expiration.Expiration>)
    : (r: Result<Operation<P>, SetupError>)
    ensures r.Ok? <==> namespace != "" && prefix != "" && provider.Some? && uniqueFlagLen >= 0
    ensures (namespace == "" || prefix == "") ==> r == Err(EmptyName)
    ensures namespace != "" && prefix != "" && provider.None? ==> r == Err(NilProvider)
    ensures namespace != "" && prefix != "" && provider.Some? && uniqueFlagLen < 0 ==> r == Err(NegativeFlagLen)
    ensures r.Ok? ==>
      && r.value.namespace == namespace
      && r.value.keyBase == namespace + ":" + prefix
      && r.value.provider == provider.value
      && r.value.uniqueFlagLen == uniqueFlagLen
      && r.value.expireTime == expireTime.GetOr(Expiration.CacheExpirationZero)
  {
    if namespace == "" || prefix == "" then Err(EmptyName)
    else if provider.None? then Err(NilProvider)
    else if uniqueFlagLen < 0 then Err(NegativeFlagLen)
    else
      var e := if expireTime.None? then Expiration.CacheExpirationZero else expireTime.value;
      Ok(Operation(namespace, namespace + ":" + prefix, provider.value, e, uniqueFlagLen))
  }

  /** `indirect`: follows non-nil pointers to the value they reach. A pointer to `interface{}` is
      followed once, to the dynamic value it holds, which is not inspected further; a nil pointer
      stays a (typed) nil pointer. */
  function Indirect(v: Value): (r: Value)
    ensures !v.PtrV? ==> r == v
    ensures r.PtrV? ==> v.PtrV?
    ensures r.NilPtrV? ==> v.NilPtrV? || v.PtrV?
    decreases v
  {
    match v
    case PtrV(t, p) => if t == AnyT then p else Indirect(p)
    case _ => v
  }

  /** The components `oneKeyToStr` can render once pointers are stripped. */
  predicate Stringable(v: Value) {
    v.Nil? || v.StrV? || v.BoolV? || v.TimeV? || v.IntV? || v.UintV? || v.StringerV?
  }

  /** `oneKeyToStr`: nil as `NilKeyString`, a string as itself, a bool as "1" or "0", a time as
      its `UnixTime` millisecond string, an integer in decimal, a `fmt.Stringer` as its `String()`;
      any other kind panics. */
  function OneKeyToStr(v: Value): (r: Result<string, KeyError>)
    ensures r.Ok? <==> Stringable(Indirect(v))
    ensures r.Err? ==> r.error == NotStringable(Indirect(v))
    ensures Indirect(v) == Nil ==> r == Ok(NilKeyString)
    ensures Indirect(v).BoolV? ==> r == Ok(if Indirect(v).b then "1" else "0")
  {
    match Indirect(v)
    case Nil => Ok(NilKeyString)
    case StrV(s) => Ok(s)
    case BoolV(b) => Ok(if b then "1" else "0")
    case TimeV(n) => Ok(UnixTime.String(UnixTime.UnixTime(n)))
    case IntV(_, i) => Ok(Strconv.FormatInt(i))
    case UintV(_, n) => Ok(Strconv.FormatNat(n))
    case StringerV(_, text) => Ok(text)
    case other => Err(NotStringable(other))
  }

  /** The text the `strings.Builder` loop appends: "_" before every part. */
  function Underscored(parts: seq<string>): string
    decreases |parts|
  {
    if |parts| == 0 then "" else "_" + parts[0] + Underscored(parts[1..])
  }

  /** `buildCacheKey`: the key base alone for no components; otherwise the key base followed by
      "_" and the rendering of each component, in order. The first component that cannot be
      rendered panics. */
  function BuildCacheKey(keyBase: string, keys: seq<Value>): (r: Result<string, KeyError>)
    ensures |keys| == 0 ==> r == Ok(keyBase)
    ensures r.Ok? <==> forall i :: 0 <= i < |keys| ==> OneKeyToStr(keys[i]).Ok?
    ensures r.Ok? ==> exists parts: seq<string> ::
      && |parts| == |keys|
      && (forall i :: 0 <= i < |keys| ==> OneKeyToStr(keys[i]) == Ok(parts[i]))
      && r.value == Strings.Join([keyBase] + parts, '_')
    ensures r.Err? ==> exists i :: (0 <= i < |keys| && OneKeyToStr(keys[i]) == Err(r.error)
      && forall j :: 0 <= j < i ==> OneKeyToStr(keys[j]).Ok?)
  {
    if |keys| == 0 then Ok(keyBase)
    else
      match MapResults(keys, OneKeyToStr)
      case Err(f) => Err(f.cause)
      case Ok(parts) =>
        UnderscoredJoin(keyBase, parts);
        Ok(keyBase + Underscored(parts))
  }

  /** The appended form and the joined form of a key agree. */
  lemma {:induction false} UnderscoredJoin(head: string, parts: seq<string>)
    ensures head + Underscored(parts) == Strings.Join([head] + parts, '_')
    decreases |parts|
  {
    if |parts| > 0 {
      UnderscoredJoin(parts[0], parts[1..]);
      assert [parts[0]] + parts[1..] == parts;
      assert ([head] + parts)[1..] == parts;
      assert head + Underscored(parts) == head + "_" + (parts[0] + Underscored(parts[1..]));
    } else {
      assert head + "" == head;
    }
  }

  /** `Key`: the number of components must equal `uniqueFlagLen`. */
  function Key<P>(op: Operation<P>, keys: seq<Value>): (r: Result<KeyOperation<P>, KeyError>)
    ensures |keys| != op.uniqueFlagLen ==> r == Err(ArityMismatch(|keys|, op.uniqueFlagLen))
    ensures r.Ok? <==> |keys| == op.uniqueFlagLen && BuildCacheKey(op.keyBase, keys).Ok?
    ensures r.Ok? ==> r.value.op == op && Ok(r.value.key) == BuildCacheKey(op.keyBase, keys)
  {
    if |keys| != op.uniqueFlagLen then Err(ArityMismatch(|keys|, op.uniqueFlagLen))
    else
      match BuildCacheKey(op.keyBase, keys)
      case Err(e) => Err(e)
      case Ok(k) => Ok(KeyOperation(op, k))
  }

  // ----- properties -----

  /** Pointer stripping removes every level of typed pointers around a value. */
  lemma IndirectThroughPointers(t: Shape, v: Value)
    requires t != AnyT
    ensures Indirect(PtrV(t, v)) == Indirect(v)
    ensures Indirect(PtrV(t, PtrV(t, v))) == Indirect(v)
  {
  }

  /** A pointer to `interface{}` is followed once: a pointer inside it is not stripped, so the
      component cannot be rendered, while nil inside it renders as `NilKeyString`. */
  lemma InterfacePointerFollowedOnce(t: Shape, x: Value)
    requires t != AnyT
    ensures OneKeyToStr(PtrV(AnyT, PtrV(t, x))) == Err(NotStringable(PtrV(t, x)))
    ensures OneKeyToStr(PtrV(AnyT, Nil)) == Ok(NilKeyString)
  {
  }

  /** Only the untyped nil renders as `NilKeyString`; a typed nil pointer panics, whatever it
      points to. Method sets are not modelled: a `NilPtrV` is a nil pointer whose pointer type
      has no `String` method. */
  lemma NilComponents(t: Shape)
    requires t != AnyT
    ensures OneKeyToStr(Nil) == Ok(NilKeyString)
    ensures OneKeyToStr(NilPtrV(t)) == Err(NotStringable(NilPtrV(t)))
    ensures OneKeyToStr(PtrV(t, NilPtrV(t))) == Err(NotStringable(NilPtrV(t)))
  {
  }

  /** Every rendering reads back: integers and times through `strconv.ParseInt`/`ParseUint` at
      64 bits, bools through `strconv.ParseBool`, strings and `Stringer` texts verbatim. */
  lemma RenderingReadsBack(v: Value)
    requires Stringable(Indirect(v)) && Indirect(v) != Nil
    ensures var x := Indirect(v); var s := OneKeyToStr(v).value;
      && (x.StrV? ==> s == x.s)
      && (x.StringerV? ==> s == x.text)
      && (x.BoolV? ==> Strconv.ParseBool(s) == Ok(x.b))
      && (x.IntV? && GoInt.IsInt64(x.i) ==> Strconv.ParseInt(s, 64) == Ok(x.i))
      && (x.UintV? && x.n < GoInt.Pow2(64) ==> Strconv.ParseUint(s, 64) == Ok(x.n))
      && (x.TimeV? && GoInt.IsInt64(x.nanos) ==>
            Strconv.ParseInt(s, 64) == Ok(UnixTime.Millis(UnixTime.UnixTime(x.nanos))))
  {
    var x := Indirect(v);
    match x
    case BoolV(b) => Strconv.ParseBoolFormat01(b);
    case IntV(_, i) => if GoInt.IsInt64(i) { Strconv.ParseInt64Format(i); }
    case UintV(_, n) => Strconv.ParseUintFormat(n, 64);
    case _ =>
  }

  /** Keys decode: when neither the key base nor any rendered component contains "_", splitting
      the key on "_" gives back the key base and the renderings, in order. */
  lemma KeyDecodes(keyBase: string, keys: seq<Value>, parts: seq<string>)
    requires |parts| == |keys| && forall i :: 0 <= i < |keys| ==> OneKeyToStr(keys[i]) == Ok(parts[i])
    requires '_' !in keyBase && forall i :: 0 <= i < |parts| ==> '_' !in parts[i]
    ensures BuildCacheKey(keyBase, keys).Ok?
    ensures Strings.Split(BuildCacheKey(keyBase, keys).value, '_') == [keyBase] + parts
  {
    var r := BuildCacheKey(keyBase, keys);
    var ps :| |ps| == |keys| && (forall i :: 0 <= i < |keys| ==> OneKeyToStr(keys[i]) == Ok(ps[i]))
      && r.value == Strings.Join([keyBase] + ps, '_');
    assert ps == parts;
    var all := [keyBase] + parts;
    assert forall i :: 0 <= i < |all| ==> '_' !in all[i] by {
      forall i | 0 <= i < |all| ensures '_' !in all[i] {
        if i > 0 { assert all[i] == parts[i - 1]; }
      }
    }
    Strings.SplitJoin(all, '_');
  }

  /** The key built from components whose renderings are known. */
  lemma BuildCacheKeyOf(keyBase: string, keys: seq<Value>, parts: seq<string>)
    requires |parts| == |keys| && forall i :: 0 <= i < |keys| ==> OneKeyToStr(keys[i]) == Ok(parts[i])
    ensures BuildCacheKey(keyBase, keys) == Ok(keyBase + Underscored(parts))
  {
    if |keys| > 0 {
      var m := MapResults(keys, OneKeyToStr);
      assert m.Ok?;
      assert m.value == parts by {
        forall i | 0 <= i < |keys| ensures m.value[i] == parts[i] {
          assert OneKeyToStr(keys[i]) == Ok(m.value[i]);
        }
      }
      assert BuildCacheKey(keyBase, keys) == Ok(keyBase + Underscored(m.value));
    } else {
      assert keyBase + Underscored(parts) == keyBase;
    }
  }

  /** Components that contain "_" can collide: (x + "_" + y, z) and (x, y + "_" + z) build the
      same key, such as ("a_b", "c") and ("a", "b_c"). */
  lemma UnderscoreCollision(keyBase: string, x: string, y: string, z: string)
    ensures BuildCacheKey(keyBase, [StrV(x + "_" + y), StrV(z)]) == Ok(keyBase + "_" + x + "_" + y + "_" + z)
    ensures BuildCacheKey(keyBase, [StrV(x), StrV(y + "_" + z)]) == Ok(keyBase + "_" + x + "_" + y + "_" + z)
  {
    StringPairKey(keyBase, x + "_" + y, z);
    StringPairKey(keyBase, x, y + "_" + z);
    Regroup(keyBase, x, y, z);
  }

  /** Both groupings of the joined components spell the same string. */
  lemma Regroup(keyBase: string, x: string, y: string, z: string)
    ensures keyBase + ("_" + (x + "_" + y) + "_" + z) == keyBase + "_" + x + "_" + y + "_" + z
    ensures keyBase + ("_" + x + "_" + (y + "_" + z)) == keyBase + "_" + x + "_" + y + "_" + z
  {
  }

  /** Two string components: the key base, then "_" before each string. */
  lemma StringPairKey(keyBase: string, a: string, b: string)
    ensures BuildCacheKey(keyBase, [StrV(a), StrV(b)]) == Ok(keyBase + ("_" + a + "_" + b))
  {
    assert OneKeyToStr(StrV(a)) == Ok(a) && OneKeyToStr(StrV(b)) == Ok(b);
    BuildCacheKeyOf(keyBase, [StrV(a), StrV(b)], [a, b]);
    assert [a, b][1..] == [b] && [b][1..] == [];
    assert Underscored([b]) == "_" + b;
    assert Underscored([a, b]) == "_" + a + ("_" + b);
    assert "_" + a + ("_" + b) == "_" + a + "_" + b;
  }

  /** The operation of the package example: namespace "ns", prefix "prefix", two components; the
      key for ("a", 1) is "ns:prefix_a_1". */
  lemma ExampleKey<P>(provider: P)
    ensures NewOperation("ns", "prefix", 2, Some(provider), None).Ok?
    ensures Key(NewOperation("ns", "prefix", 2, Some(provider), None).value, [StrV("a"), IntV(Int, 1)]).Ok?
    ensures Key(NewOperation("ns", "prefix", 2, Some(provider), None).value, [StrV("a"), IntV(Int, 1)]).value.key
      == "ns:prefix_a_1"
  {
    var op := NewOperation("ns", "prefix", 2, Some(provider), None).value;
    assert op.keyBase == "ns:prefix";
    assert Strconv.FormatInt(1) == "1";
    BuildCacheKeyOf("ns:prefix", [StrV("a"), IntV(Int, 1)], ["a", "1"]);
    assert Underscored(["a", "1"]) == "_a_1";
    assert "ns:prefix" + "_a_1" == "ns:prefix_a_1";
    assert Key(op, [StrV("a"), IntV(Int, 1)]) == Ok(KeyOperation(op, "ns:prefix_a_1"));
  }

  /** The key base splits back into namespace and prefix when neither contains ":". */
  lemma KeyBaseDecodes<P>(namespace: string, prefix: string, uniqueFlagLen: int, provider: P,
                          expireTime: Option<Expiration.Expiration>)
    requires NewOperation(namespace, prefix, uniqueFlagLen, Some(provider), expireTime).Ok?
    requires ':' !in namespace && ':' !in prefix
    ensures Strings.Split(NewOperation(namespace, prefix, uniqueFlagLen, Some(provider), expireTime).value.keyBase, ':')
      == [namespace, prefix]
  {
    Strings.SplitJoin([namespace, prefix], ':');
    assert [namespace, prefix][1..] == [prefix];
    assert Strings.Join([namespace, prefix], ':') == namespace + ":" + prefix;
  }
}

=== FILE: strconv.dfy ===
/** The pieces of Go's `strconv` package the cache uses: decimal formatting, base-0 integer parsing
    (radix chosen by a "0b", "0o", "0x" or "0" prefix, underscores between digits) with a bit-size
    range check, and ParseBool. */
module Strconv {
  import opened Wrappers
  import opened GoInt
  import Strings

  /** The two failure kinds strconv reports: ErrSyntax and ErrRange. */
  datatype NumError = SyntaxError | RangeError

  predicate IsDecDigit(c: char) { '0' <= c <= '9' }

  function DigitChar(d: nat): (c: char)
    requires d < 10
    ensures IsDecDigit(c)
  {
    (48 + d) as char
  }

  /** strconv.FormatUint(n, 10): the shortest decimal spelling of `n`. */
  function FormatNat(n: nat): (s: string)
    ensures |s| >= 1
    ensures forall i :: 0 <= i < |s| ==> IsDecDigit(s[i])
    ensures s[0] == '0' <==> n == 0
    decreases n
  {
    if n < 10 then [DigitChar(n)] else FormatNat(n / 10) + [DigitChar(n % 10)]
  }

  /** strconv.FormatInt(i, 10): a minus sign for negative numbers, then the magnitude. */
  function FormatInt(i: int): (s: string)
    ensures |s| >= 1
    ensures s[0] == '-' <==> i < 0
    ensures i >= 0 ==> s == FormatNat(i)
    ensures i < 0 ==> s[1..] == FormatNat(-i)
  {
    if i < 0 then "-" + FormatNat(-i) else FormatNat(i)
  }

  /** The value of one digit in bases up to 36: '0'..'9', then letters of either case from 10. */
  function DigitValue(c: char): (r: Option<nat>)
    ensures r.Some? ==> r.value < 36
    ensures IsDecDigit(c) ==> r == Some(c as int - 48)
  {
    if '0' <= c <= '9' then Some(c as int - 48)
    else if 'a' <= Strings.AsciiLower(c) <= 'z' then Some(Strings.AsciiLower(c) as int - 'a' as int + 10)
    else None
  }

  /** Every character of `s` is a digit of `base` (an underscore is not). */
  predicate AllDigits(s: string, base: nat) {
    forall i :: 0 <= i < |s| ==> DigitValue(s[i]).Some? && DigitValue(s[i]).value < base
  }

  /** The value of the digits `s` in `base`, most significant first, read after digits already
      worth `n`. */
  function Horner(n: nat, s: string, base: nat): nat
    requires AllDigits(s, base)
    decreases |s|
  {
    if |s| == 0 then n else Horner(Shift(n, base) + DigitValue(s[0]).value, s[1..], base)
  }

  /** One place-value step: the digits so far, moved up one position in `base`. */
  function Shift(h: nat, base: nat): nat {
    h * base
  }

  /** The base-0 radix rule of strconv.ParseUint: "0b", "0o", "0x" (either case, at least one more
      character) select 2, 8, 16; any other leading '0' selects octal; otherwise decimal. */
  function RadixPrefix(s: string): (r: (nat, string))
    requires |s| > 0
    ensures r.0 in {2, 8, 10, 16}
    ensures r.0 == 10 <==> s[0] != '0'
    ensures r.0 == 10 ==> r.1 == s
    ensures '_' in r.1 <==> '_' in s
  {
    if s[0] != '0' then (10, s)
    else if |s| >= 3 && Strings.AsciiLower(s[1]) == 'b' then (2, s[2..])
    else if |s| >= 3 && Strings.AsciiLower(s[1]) == 'o' then (8, s[2..])
    else if |s| >= 3 && Strings.AsciiLower(s[1]) == 'x' then (16, s[2..])
    else (8, s[1..])
  }

  /** The digit loop of strconv.ParseUint over `s` (the radix prefix removed), continuing from the
      value `n`: with base 0 an underscore is skipped, a character that is not a digit of `base`
      is a syntax error, and a digit that takes the value above `max` is a range error, each
      reported as soon as the loop reaches it. */
  function ScanDigits(s: string, base: nat, max: nat, n: nat): (r: Result<nat, NumError>)
    ensures r.Ok? && n <= max ==> r.value <= max
    decreases |s|
  {
    if |s| == 0 then Ok(n)
    else if s[0] == '_' then ScanDigits(s[1..], base, max, n)
    else
      var d := DigitValue(s[0]);
      if d.None? || d.value >= base then Err(SyntaxError)
      else if Shift(n, base) + d.value > max then Err(RangeError)
      else ScanDigits(s[1..], base, max, Shift(n, base) + d.value)
  }

  /** What strconv's `underscoreOK` last saw: the start of the number, a digit (the base prefix
      counts as one), an underscore, or any other character. */
  datatype Saw = Start | Digit | Underscore | Other

  /** strconv's `underscoreOK`: after an optional sign and base prefix, every underscore follows a
      digit and is followed by a digit. */
  predicate UnderscoreOK(s: string) {
    var t := if |s| >= 1 && (s[0] == '-' || s[0] == '+') then s[1..] else s;
    if |t| >= 2 && t[0] == '0' && Strings.AsciiLower(t[1]) in {'b', 'o', 'x'} then
      UnderscoresSeparate(t[2..], Strings.AsciiLower(t[1]) == 'x', Digit)
    else UnderscoresSeparate(t, false, Start)
  }

  /** The loop of `underscoreOK` over `s`, having last seen `saw`; `hex` admits the letters a-f as
      digits. */
  predicate UnderscoresSeparate(s: string, hex: bool, saw: Saw)
    decreases |s|
  {
    if |s| == 0 then saw != Underscore
    else if IsDecDigit(s[0]) || (hex && 'a' <= Strings.AsciiLower(s[0]) <= 'f') then UnderscoresSeparate(s[1..], hex, Digit)
    else if s[0] == '_' then saw == Digit && UnderscoresSeparate(s[1..], hex, Underscore)
    else saw != Underscore && UnderscoresSeparate(s[1..], hex, Other)
  }

  /** strconv.ParseUint(s, 0, bits): an unsigned number that must fit in `bits` bits; underscores
      are accepted between digits. The digit loop reports its first syntax or range error; the
      placement of underscores is checked only after the loop. */
  function ParseUint(s: string, bits: nat): (r: Result<nat, NumError>)
    ensures |s| == 0 ==> r == Err(SyntaxError)
    ensures r.Ok? ==> r.value < Pow2(bits)
    ensures r.Ok? && '_' in s ==> UnderscoreOK(s)
    ensures |s| > 0 && ScanDigits(RadixPrefix(s).1, RadixPrefix(s).0, Pow2(bits) - 1, 0).Err? ==>
      r == ScanDigits(RadixPrefix(s).1, RadixPrefix(s).0, Pow2(bits) - 1, 0)
  {
    if |s| == 0 then Err(SyntaxError)
    else
      var (base, digits) := RadixPrefix(s);
      match ScanDigits(digits, base, Pow2(bits) - 1, 0)
      case Err(e) => Err(e)
      case Ok(n) => if '_' in s && !UnderscoreOK(s) then Err(SyntaxError) else Ok(n)
  }

  /** strconv.ParseInt(s, 0, bits): an optional sign, then ParseUint, then the signed range
      -2^(bits-1) .. 2^(bits-1)-1. A range error of ParseUint stands for the largest unsigned
      value, which the signed check then rejects. */
  function ParseInt(s: string, bits: nat): (r: Result<int, NumError>)
    requires bits >= 1
    ensures |s| == 0 ==> r == Err(SyntaxError)
    ensures r.Ok? ==> -Pow2(bits - 1) <= r.value < Pow2(bits - 1)
    ensures |s| > 0 && ParseUint(if s[0] == '+' || s[0] == '-' then s[1..] else s, bits) == Err(SyntaxError) ==>
      r == Err(SyntaxError)
  {
    if |s| == 0 then Err(SyntaxError)
    else
      var neg := s[0] == '-';
      var rest := if s[0] == '+' || s[0] == '-' then s[1..] else s;
      var u := ParseUint(rest, bits);
      if u == Err(SyntaxError) then Err(SyntaxError)
      else
        var un := if u.Ok? then u.value else Pow2(bits) - 1;
        var cutoff := Pow2(bits - 1);
        if !neg && un >= cutoff then Err(RangeError)
        else if neg && un > cutoff then Err(RangeError)
        else Ok(if neg then -(un as int) else un)
  }

  /** strconv.ParseBool: the accepted spellings of true and false. */
  function ParseBool(s: string): (r: Result<bool, NumError>)
    ensures r == Ok(true) <==> s in {"1", "t", "T", "TRUE", "true", "True"}
    ensures r == Ok(false) <==> s in {"0", "f", "F", "FALSE", "false", "False"}
    ensures r.Err? ==> r.error == SyntaxError
  {
    if s in {"1", "t", "T", "TRUE", "true", "True"} then Ok(true)
    else if s in {"0", "f", "F", "FALSE", "false", "False"} then Ok(false)
    else Err(SyntaxError)
  }

  /** Appending a digit shifts the value read so far one place up and adds the digit. */
  lemma {:induction false} HornerSnoc(n: nat, s: string, c: char, base: nat)
    requires AllDigits(s + [c], base)
    ensures AllDigits(s, base) && DigitValue(c).Some?
    ensures Horner(n, s + [c], base) == Shift(Horner(n, s, base), base) + DigitValue(c).value
    decreases |s|
  {
    assert forall i :: 0 <= i < |s| ==> s[i] == (s + [c])[i];
    assert (s + [c])[|s|] == c;
    if |s| > 0 {
      assert (s + [c])[1..] == s[1..] + [c];
      HornerSnoc(Shift(n, base) + DigitValue(s[0]).value, s[1..], c, base);
    } else {
      assert (s + [c])[1..] == [];
    }
  }

  /** Reading more digits never lowers the value. */
  lemma {:induction false} HornerAtLeast(n: nat, s: string, base: nat)
    requires AllDigits(s, base) && base >= 1
    ensures Horner(n, s, base) >= n
    decreases |s|
  {
    if |s| > 0 {
      ShiftAtLeast(n, base);
      HornerAtLeast(Shift(n, base) + DigitValue(s[0]).value, s[1..], base);
    }
  }

  lemma ShiftAtLeast(n: nat, base: nat)
    requires base >= 1
    ensures Shift(n, base) >= n
  {
    assert n * base == n + n * (base - 1);
  }

  /** On a string of digits the loop fails only by a range error, exactly when the value read
      exceeds `max`. */
  lemma {:induction false} ScanAllDigits(s: string, base: nat, max: nat, n: nat)
    requires AllDigits(s, base) && base >= 1 && n <= max
    ensures ScanDigits(s, base, max, n) == if Horner(n, s, base) <= max then Ok(Horner(n, s, base)) else Err(RangeError)
    decreases |s|
  {
    if |s| > 0 {
      var m := Shift(n, base) + DigitValue(s[0]).value;
      assert s[0] != '_';
      if m > max {
        HornerAtLeast(m, s[1..], base);
      } else {
        ScanAllDigits(s[1..], base, max, m);
      }
    }
  }

  /** A decimal spelling is all digits and reads back as the number. */
  lemma {:induction false} HornerFormat(n: nat)
    ensures AllDigits(FormatNat(n), 10)
    ensures Horner(0, FormatNat(n), 10) == n
    decreases n
  {
    var s := FormatNat(n);
    assert forall i :: 0 <= i < |s| ==> IsDecDigit(s[i]);
    if n < 10 {
      assert s[1..] == "";
    } else {
      HornerFormat(n / 10);
      HornerSnoc(0, FormatNat(n / 10), DigitChar(n % 10), 10);
    }
  }

  /** ParseUint reads a decimal spelling back exactly when the number fits the bit size, and
      reports a range error otherwise. */
  lemma ParseUintFormat(n: nat, bits: nat)
    ensures ParseUint(FormatNat(n), bits) == if n < Pow2(bits) then Ok(n) else Err(RangeError)
  {
    var s := FormatNat(n);
    HornerFormat(n);
    assert '_' !in s by {
      assert forall i :: 0 <= i < |s| ==> IsDecDigit(s[i]);
    }
    if n == 0 {
      assert s == "0";
      assert RadixPrefix(s) == (8, "");
    } else {
      ScanAllDigits(s, 10, Pow2(bits) - 1, 0);
    }
  }

  /** ParseUint rejects the spelling of a negative number as a syntax error. */
  lemma ParseUintNegative(i: int, bits: nat)
    requires i < 0
    ensures ParseUint(FormatInt(i), bits) == Err(SyntaxError)
  {
    var s := FormatInt(i);
    assert RadixPrefix(s) == (10, s);
    assert DigitValue(s[0]).None?;
  }

  /** ParseInt reads a decimal spelling back exactly when the number lies in the signed range of
      the bit size, and reports a range error otherwise. */
  lemma ParseIntFormat(i: int, bits: nat)
    requires bits >= 2
    ensures ParseInt(FormatInt(i), bits) ==
      if -Pow2(bits - 1) <= i < Pow2(bits - 1) then Ok(i) else Err(RangeError)
  {
    var s := FormatInt(i);
    assert Pow2(bits) == 2 * Pow2(bits - 1);
    assert Pow2(bits - 1) == 2 * Pow2(bits - 2);
    if i < 0 {
      ParseUintFormat(-i, bits);
    } else {
      ParseUintFormat(i, bits);
      assert IsDecDigit(s[0]);
    }
  }

  /** With base 0, underscores may separate digits, also right after a base prefix. */
  lemma UnderscoreSeparatesDigits()
    ensures ParseUint("1_000", 16) == Ok(1000)
  {
    Pow2Value16();
    assert RadixPrefix("1_000") == (10, "1_000");
    ScanThousand();
    assert UnderscoreOK("1_000") by {
      assert UnderscoresSeparate("000", false, Underscore);
    }
  }

  lemma ScanThousand()
    ensures ScanDigits("1_000", 10, 0xffff, 0) == Ok(1000)
  {
    assert ScanDigits("0", 10, 0xffff, 100) == Ok(1000);
    assert ScanDigits("00", 10, 0xffff, 10) == Ok(1000);
    assert ScanDigits("000", 10, 0xffff, 1) == Ok(1000);
  }

  lemma Pow2Value16()
    ensures Pow2(16) == 0x1_0000
  {
    assert Pow2(8) == 0x100;
    Pow2Add(8, 8);
  }

  lemma SignedThousand(s: string)
    requires s == "1_000"
    ensures ParseInt(s, 16) == Ok(1000)
  {
    assert s[0] == '1';
    UnderscoreSeparatesDigits();
    Pow2Value16();
    assert Pow2(15) == 0x8000;
  }

  lemma UnderscoreAfterPrefix()
    ensures ParseUint("0x_1F", 8) == Ok(31)
  {
    assert RadixPrefix("0x_1F") == (16, "_1F");
    assert ScanDigits("F", 16, 255, 1) == Ok(31);
    assert UnderscoreOK("0x_1F");
  }

  /** An underscore that does not sit between digits is a syntax error. */
  lemma MisplacedUnderscores()
    ensures ParseUint("1__0", 8) == Err(SyntaxError)
    ensures ParseUint("_1", 8) == Err(SyntaxError)
  {
    assert RadixPrefix("1__0") == (10, "1__0");
    assert ScanDigits("1__0", 10, 255, 0) == Ok(10);
    assert !UnderscoreOK("1__0");
    assert RadixPrefix("_1") == (10, "_1");
    assert ScanDigits("_1", 10, 255, 0) == Ok(1);
    assert !UnderscoreOK("_1");
  }

  /** Errors are reported in reading order: a value that overflows before a bad character is a
      range error, a bad character before any overflow a syntax error. */
  lemma RangeBeforeSyntax()
    ensures ParseUint("256x", 8) == Err(RangeError)
    ensures ParseUint("25x6", 8) == Err(SyntaxError)
  {
    assert RadixPrefix("256x") == (10, "256x");
    assert ScanDigits("6x", 10, 255, 25) == Err(RangeError);
    assert RadixPrefix("25x6") == (10, "25x6");
    assert ScanDigits("x6", 10, 255, 25) == Err(SyntaxError);
  }

  /** Every int64 survives a decimal round trip at bit size 64. */
  lemma ParseInt64Format(i: int)
    requires IsInt64(i)
    ensures ParseInt(FormatInt(i), 64) == Ok(i)
  {
    Pow2Value64();
    ParseIntFormat(i, 64);
  }

  lemma Pow2Value64()
    ensures Pow2(63) == 0x8000_0000_0000_0000
    ensures Pow2(64) == 0x1_0000_0000_0000_0000
  {
    Pow2Value16();
    assert Pow2(32) == 0x1_0000_0000 by { Pow2Add(16, 16); }
    assert Pow2(31) == 0x8000_0000;
    Pow2Add(32, 31);
    Pow2Add(32, 32);
  }

  lemma {:induction false} Pow2Add(a: nat, b: nat)
    ensures Pow2(a + b) == Pow2(a) * Pow2(b)
    decreases a
  {
    if a > 0 {
      Pow2Add(a - 1, b);
    }
  }

  /** The "1"/"0" spelling of a boolean parses back to it. */
  lemma ParseBoolFormat01(b: bool)
    ensures ParseBool(if b then "1" else "0") == Ok(b)
  {
  }
}

=== FILE: strings.dfy ===
/** The pieces of Go's `strings` package the model needs: Split on one separator, its inverse Join,
    and ASCII case folding. */
module Strings {

  /** A byte of a Go `[]byte`. */
  newtype byte = x: int | 0 <= x < 256

  /** `[]byte(s)` for a string of single-byte characters. */
  function ToBytes(s: string): (b: seq<byte>)
    requires forall i :: 0 <= i < |s| ==> s[i] as int < 256
    ensures |b| == |s|
    ensures forall i :: 0 <= i < |s| ==> b[i] as int == s[i] as int
  {
    seq(|s|, i requires 0 <= i < |s| => s[i] as int as byte)
  }

  /** `string(b)`, reading each byte as the character with that code; bytes of 128 and above are
      never digits or signs, so the parsers reject them exactly as Go does. */
  function FromBytes(b: seq<byte>): (s: string)
    ensures |s| == |b|
    ensures forall i :: 0 <= i < |b| ==> s[i] as int == b[i] as int
  {
    seq(|b|, i requires 0 <= i < |b| => b[i] as int as char)
  }

  /** Reading back the bytes of a single-byte string gives the string. */
  lemma FromToBytes(s: string)
    requires forall i :: 0 <= i < |s| ==> s[i] as int < 256
    ensures FromBytes(ToBytes(s)) == s
  {
  }

  /** Lower-cases an ASCII letter and leaves every other character alone. */
  function AsciiLower(c: char): char {
    if 'A' <= c <= 'Z' then (c as int + 32) as char else c
  }

  /** strings.Split(s, sep) for a one-character separator: the parts between separators, in order;
      an empty string gives one empty part. */
  function Split(s: string, sep: char): (parts: seq<string>)
    ensures |parts| >= 1
    ensures forall i :: 0 <= i < |parts| ==> sep !in parts[i]
    decreases |s|
  {
    if |s| == 0 then [""]
    else
      var rest := Split(s[1..], sep);
      if s[0] == sep then [""] + rest
      else [[s[0]] + rest[0]] + rest[1..]
  }

  /** strings.Join(parts, sep). */
  function Join(parts: seq<string>, sep: char): string
    requires |parts| >= 1
    decreases |parts|
  {
    if |parts| == 1 then parts[0] else parts[0] + [sep] + Join(parts[1..], sep)
  }

  /** Number of occurrences of `c` in `s`. */
  function Count(s: string, c: char): nat
    decreases |s|
  {
    if |s| == 0 then 0 else (if s[0] == c then 1 else 0) + Count(s[1..], c)
  }

  /** strings.EqualFold restricted to ASCII case folding. */
  predicate EqualFold(a: string, b: string) {
    |a| == |b| && forall i :: 0 <= i < |a| ==> AsciiLower(a[i]) == AsciiLower(b[i])
  }

  /** Joining the parts of a split gives back the string. */
  lemma {:induction false} JoinSplit(s: string, sep: char)
    ensures Join(Split(s, sep), sep) == s
    decreases |s|
  {
    if |s| > 0 {
      JoinSplit(s[1..], sep);
      var rest := Split(s[1..], sep);
      if s[0] == sep {
        assert Split(s, sep) == [""] + rest;
        assert ([""] + rest)[1..] == rest;
      } else {
        var parts := Split(s, sep);
        assert parts == [[s[0]] + rest[0]] + rest[1..];
        if |rest| == 1 {
          assert parts == [[s[0]] + rest[0]];
        } else {
          assert parts[1..] == rest[1..];
          assert Join(rest, sep) == rest[0] + [sep] + Join(rest[1..], sep);
        }
        assert s == [s[0]] + s[1..];
      }
    }
  }

  /** Splitting a prefix that holds no separator extends the first part only. */
  lemma {:induction false} SplitPrefix(a: string, b: string, sep: char)
    requires sep !in a
    ensures Split(a + b, sep) == [a + Split(b, sep)[0]] + Split(b, sep)[1..]
    decreases |a|
  {
    if |a| > 0 {
      assert (a + b)[1..] == a[1..] + b;
      assert (a + b)[0] == a[0];
      SplitPrefix(a[1..], b, sep);
      assert [a[0]] + (a[1..] + Split(b, sep)[0]) == a + Split(b, sep)[0];
    } else {
      var sb := Split(b, sep);
      assert a + b == b;
      assert a + sb[0] == sb[0];
      assert sb == [sb[0]] + sb[1..];
    }
  }

  /** Splitting a join recovers the parts, provided no part contains the separator. */
  lemma {:induction false} SplitJoin(parts: seq<string>, sep: char)
    requires |parts| >= 1
    requires forall i :: 0 <= i < |parts| ==> sep !in parts[i]
    ensures Split(Join(parts, sep), sep) == parts
    decreases |parts|
  {
    if |parts| == 1 {
      SplitPrefix(parts[0], "", sep);
      assert parts[0] + "" == parts[0];
    } else {
      var tail := Join(parts[1..], sep);
      SplitJoin(parts[1..], sep);
      assert Join(parts, sep) == parts[0] + ([sep] + tail);
      SplitPrefix(parts[0], [sep] + tail, sep);
      assert ([sep] + tail)[1..] == tail;
      assert Split([sep] + tail, sep) == [""] + parts[1..];
      assert parts[0] + "" == parts[0];
      assert parts == [parts[0]] + parts[1..];
    }
  }

  /** Split yields one part more than there are separators. */
  lemma {:induction false} SplitCount(s: string, sep: char)
    ensures |Split(s, sep)| == Count(s, sep) + 1
    decreases |s|
  {
    if |s| > 0 {
      SplitCount(s[1..], sep);
    }
  }
}

=== FILE: unix_time.dfy ===
/** `UnixTime` (`unix_time.go`): a `time.Time` that is written to and read from JSON as a
    millisecond Unix timestamp. Time is modelled as 64-bit Unix nanoseconds. */
module UnixTime {
  import opened Wrappers
  import opened GoInt
  import opened Strings
  import Strconv

  /** `time.Millisecond` in nanoseconds. */
  const Millisecond: int := 1_000_000

  /** A time as its `UnixNano()`. */
  datatype UnixTime = UnixTime(nanos: int)

  predicate Valid(t: UnixTime) {
    IsInt64(t.nanos)
  }

  /** Whole milliseconds of a time, truncated toward zero as Go's integer division does. */
  function Millis(t: UnixTime): (ms: int)
    ensures t.nanos >= 0 ==> ms * Millisecond <= t.nanos < ms * Millisecond + Millisecond
    ensures t.nanos < 0 ==> ms * Millisecond - Millisecond < t.nanos <= ms * Millisecond
  {
    TruncDiv(t.nanos, Millisecond)
  }

  /** `String()`: the decimal millisecond count. */
  function String(t: UnixTime): (s: string)
    ensures |s| >= 1
    ensures s[0] == '-' <==> Millis(t) < 0
    ensures Valid(t) ==> Strconv.ParseInt(s, 64) == Ok(Millis(t))
  {
    var s := Strconv.FormatInt(Millis(t));
    if Valid(t) then
      MillisFits(t);
      Strconv.ParseInt64Format(Millis(t));
      s
    else s
  }

  /** `MarshalJSON`: the bytes of `String()`; it never fails. */
  function MarshalJSON(t: UnixTime): (b: seq<byte>)
    ensures FromBytes(b) == String(t)
  {
    var s := String(t);
    FromToBytes(s);
    ToBytes(s)
  }

  /** The receiver after `UnmarshalJSON`, and the error it returned. */
  datatype Unmarshalled = Unmarshalled(receiver: UnixTime, err: Option<Strconv.NumError>)

  /** `UnmarshalJSON`: the bytes are read by `strconv.ParseInt(s, 0, 64)` as a millisecond count,
      which is scaled to nanoseconds in 64-bit arithmetic; on a parse error the receiver keeps its
      value. */
  function UnmarshalJSON(t: UnixTime, b: seq<byte>): (r: Unmarshalled)
    ensures r.err.Some? <==> Strconv.ParseInt(FromBytes(b), 64).Err?
    ensures r.err.Some? ==> r.receiver == t && r.err.value == Strconv.ParseInt(FromBytes(b), 64).error
    ensures r.err.None? ==> Valid(r.receiver)
    ensures r.err.None? && IsInt64(Strconv.ParseInt(FromBytes(b), 64).value * Millisecond) ==>
      && r.receiver == UnixTime(Strconv.ParseInt(FromBytes(b), 64).value * Millisecond)
      && Millis(r.receiver) == Strconv.ParseInt(FromBytes(b), 64).value
    ensures r.err.None? ==>
      (r.receiver.nanos - Strconv.ParseInt(FromBytes(b), 64).value * Millisecond) % 0x1_0000_0000_0000_0000 == 0
  {
    match Strconv.ParseInt(FromBytes(b), 64)
    case Err(e) => Unmarshalled(t, Some(e))
    case Ok(v) => Unmarshalled(UnixTime(Wrap64(v * Millisecond)), None)
  }

  lemma MillisFits(t: UnixTime)
    requires Valid(t)
    ensures IsInt64(Millis(t)) && IsInt64(Millis(t) * Millisecond)
  {
  }

  /** Marshalling then unmarshalling into any receiver succeeds and keeps the millisecond count,
      so the string form survives the round trip; sub-millisecond precision is dropped. */
  lemma RoundTrip(t: UnixTime, into: UnixTime)
    requires Valid(t)
    ensures UnmarshalJSON(into, MarshalJSON(t)).err.None?
    ensures UnmarshalJSON(into, MarshalJSON(t)).receiver == UnixTime(Millis(t) * Millisecond)
    ensures String(UnmarshalJSON(into, MarshalJSON(t)).receiver) == String(t)
  {
    MillisFits(t);
    assert Strconv.ParseInt(FromBytes(MarshalJSON(t)), 64) == Ok(Millis(t));
  }

  /** A JSON value that is not an integer, such as a quoted string, leaves the receiver as it
      was. */
  lemma QuotedRejected(t: UnixTime)
    ensures UnmarshalJSON(t, ToBytes("\"1\"")).receiver == t
    ensures UnmarshalJSON(t, ToBytes("\"1\"")).err.Some?
  {
    FromToBytes("\"1\"");
    assert Strconv.RadixPrefix("\"1\"") == (10, "\"1\"");
  }
}

=== FILE: values.dfy ===
/** Stand-ins for the reflection world the conversion engines work in: a `Shape` is a Go type
    (`reflect.Type`), a `Value` is a dynamic Go value held in an `interface{}`. Only the kinds the
    engines distinguish are represented; floating-point and complex kinds are not modelled. */
module Values {
  import opened Wrappers
  import opened GoInt

  /** The signed integer kinds; `Int` is 64 bits wide (the platform `intSize`). */
  datatype IntKind = Int | Int8 | Int16 | Int32 | Int64
  /** The unsigned integer kinds; `Uint` is 64 bits wide. */
  datatype UintKind = Uint | Uint8 | Uint16 | Uint32 | Uint64

  function IntBits(k: IntKind): (b: nat)
    ensures 8 <= b <= 64
  {
    match k
    case Int => 64
    case Int8 => 8
    case Int16 => 16
    case Int32 => 32
    case Int64 => 64
  }

  function UintBits(k: UintKind): (b: nat)
    ensures 8 <= b <= 64
  {
    match k
    case Uint => 64
    case Uint8 => 8
    case Uint16 => 16
    case Uint32 => 32
    case Uint64 => 64
  }

  /** `i` is representable in the signed kind `k`. */
  predicate IntFits(k: IntKind, i: int) {
    -Pow2(IntBits(k) - 1) <= i < Pow2(IntBits(k) - 1)
  }

  /** `n` is representable in the unsigned kind `k`. */
  predicate UintFits(k: UintKind, n: nat) {
    n < Pow2(UintBits(k))
  }

  /** A Go type. `TimeT` is `time.Time`, a struct kind with no exported fields; `AnyT` is
      `interface{}`; `OtherT` stands for every kind the engines reject (func, chan, ...). Named
      types of primitive kind are not represented: in Go they take the primitive paths, where
      `fmt.Sprint` calls their `String()` method and a named bool or string panics on the type
      assertion; here a value with a `String()` method is a `StringerV` of shape `OtherT`, which
      the engines reject. Struct types are compared structurally. */
  datatype Shape =
    | BoolT
    | IntT(ik: IntKind)
    | UintT(uk: UintKind)
    | StringT
    | TimeT
    | SliceT(elem: Shape)
    | MapT(key: Shape, val: Shape)
    | StructT(fields: seq<Field>)
    | PtrT(target: Shape)
    | AnyT
    | OtherT(name: string)

  /** One struct field of a type: its name and declared type. */
  datatype Field = Field(name: string, shape: Shape)

  /** A dynamic Go value. `Nil` is the untyped nil interface; `TimeV` holds nanoseconds since the
      Unix epoch; a map is the list of its entries in iteration order; a struct lists its fields in
      declaration order; `StringerV` is a value of a named type with a `String()` method;
      `ReflectedV` is a `reflect.Value` returned where a plain value was expected; `SelfPtrV` is a
      `*interface{}` pointing at the very `interface{}` variable that holds it. */
  datatype Value =
    | Nil
    | BoolV(b: bool)
    | IntV(ik: IntKind, i: int)
    | UintV(uk: UintKind, n: nat)
    | StrV(s: string)
    | TimeV(nanos: int)
    | SliceV(elem: Shape, items: seq<Value>)
    | MapV(key: Shape, val: Shape, entries: seq<Entry>)
    | NilMapV(key: Shape, val: Shape)
    | StructV(fields: seq<FieldValue>)
    | PtrV(target: Shape, pointee: Value)
    | NilPtrV(target: Shape)
    | StringerV(typeName: string, text: string)
    | ReflectedV(inner: Value)
    | SelfPtrV
    | OtherV(typeName: string)

  datatype Entry = Entry(key: Value, val: Value)

  /** One struct field of a value: name, declared type, current content. */
  datatype FieldValue = FieldValue(name: string, shape: Shape, value: Value)

  /** Unix nanoseconds of the zero `time.Time` (January 1, year 1, UTC). */
  const ZeroTimeNanos: int := -62_135_596_800 * 1_000_000_000

  /** Whole Unix seconds of a time, rounded toward minus infinity as `time.Time.Unix` does. */
  function UnixSeconds(nanos: int): (s: int)
    ensures s * 1_000_000_000 <= nanos < s * 1_000_000_000 + 1_000_000_000
  {
    nanos / 1_000_000_000
  }

  /** bool, the integer kinds and string: the primitive kinds the engines handle. */
  predicate IsPrimitiveShape(s: Shape) {
    s.BoolT? || s.IntT? || s.UintT? || s.StringT?
  }

  /** The simple types: the primitive ones and `time.Time`. */
  predicate IsSimpleShape(s: Shape) {
    IsPrimitiveShape(s) || s.TimeT?
  }

  predicate IsPrimitiveValue(v: Value) {
    v.BoolV? || v.IntV? || v.UintV? || v.StrV?
  }

  /** Struct kind: user structs and `time.Time`. */
  predicate IsStructKind(s: Shape) {
    s.StructT? || s.TimeT?
  }

  /** The kinds whose zero value is nil: map, slice and pointer. */
  predicate CanBeNil(s: Shape) {
    s.MapT? || s.SliceT? || s.PtrT?
  }

  /** Go exports identifiers that start with an upper-case letter (ASCII letters here). */
  predicate Exported(name: string) {
    |name| > 0 && 'A' <= name[0] <= 'Z'
  }

  /** The fields of a struct type as seen from one of its values. */
  function FieldsShape(fs: seq<FieldValue>): (r: seq<Field>)
    ensures |r| == |fs|
    ensures forall i :: 0 <= i < |fs| ==> r[i] == Field(fs[i].name, fs[i].shape)
  {
    seq(|fs|, i requires 0 <= i < |fs| => Field(fs[i].name, fs[i].shape))
  }

  /** The dynamic type of a non-nil value. */
  function ShapeOf(v: Value): (s: Shape)
    requires v != Nil
    ensures IsPrimitiveValue(v) <==> IsPrimitiveShape(s)
    ensures v.TimeV? <==> s.TimeT?
  {
    match v
    case BoolV(_) => BoolT
    case IntV(k, _) => IntT(k)
    case UintV(k, _) => UintT(k)
    case StrV(_) => StringT
    case TimeV(_) => TimeT
    case SliceV(e, _) => SliceT(e)
    case MapV(k, t, _) => MapT(k, t)
    case NilMapV(k, t) => MapT(k, t)
    case StructV(fs) => StructT(FieldsShape(fs))
    case PtrV(t, _) => PtrT(t)
    case NilPtrV(t) => PtrT(t)
    case StringerV(n, _) => OtherT(n)
    case ReflectedV(_) => OtherT("reflect.Value")
    case SelfPtrV => PtrT(AnyT)
    case OtherV(n) => OtherT(n)
  }

  /** The zero value of a type, as `reflect.New(t).Elem()` holds it. The zero slice is modelled
      as an empty slice. */
  function ZeroOf(s: Shape): (v: Value)
    ensures v == Nil <==> s.AnyT?
    decreases s, 1
  {
    match s
    case BoolT => BoolV(false)
    case IntT(k) => IntV(k, 0)
    case UintT(k) => UintV(k, 0)
    case StringT => StrV("")
    case TimeT => TimeV(ZeroTimeNanos)
    case SliceT(e) => SliceV(e, [])
    case MapT(k, t) => NilMapV(k, t)
    case StructT(fs) => StructV(ZeroFields(s, 0))
    case PtrT(t) => NilPtrV(t)
    case AnyT => Nil
    case OtherT(n) => OtherV(n)
  }

  /** Zero values for the fields of struct type `s` from index `i` on. */
  function ZeroFields(s: Shape, i: nat): (r: seq<FieldValue>)
    requires s.StructT? && i <= |s.fields|
    ensures |r| == |s.fields| - i
    ensures forall j :: 0 <= j < |r| ==>
      r[j].name == s.fields[i + j].name && r[j].shape == s.fields[i + j].shape
    decreases s, 0, |s.fields| - i
  {
    if i == |s.fields| then []
    else
      var f := s.fields[i];
      [FieldValue(f.name, f.shape, ZeroOf(f.shape))] + ZeroFields(s, i + 1)
  }

  /** The zero value of a type other than `interface{}` has that type. */
  lemma ZeroOfShape(s: Shape)
    requires !s.AnyT?
    ensures ShapeOf(ZeroOf(s)) == s
  {
    if s.StructT? {
      var fs := ZeroFields(s, 0);
      assert FieldsShape(fs) == s.fields;
    }
  }

  /** `v` may be stored where a `s` is expected (`reflect.Value.Set`, `reflect.Append`,
      `SetMapIndex`): it is a value, not the zero `reflect.Value`, and its type is `s` or `s` is
      `interface{}`. */
  predicate Assignable(v: Value, s: Shape) {
    v != Nil && (s.AnyT? || ShapeOf(v) == s)
  }

  // ----- Go map semantics over entry lists -----

  /** The value stored under `k`: the first entry with that key. */
  function MapLookup(es: seq<Entry>, k: Value): (r: Option<Value>)
    ensures r.Some? <==> exists i :: 0 <= i < |es| && es[i].key == k
    decreases |es|
  {
    if |es| == 0 then None
    else if es[0].key == k then Some(es[0].val)
    else MapLookup(es[1..], k)
  }

  /** A Go map never holds two entries with equal keys. */
  predicate UniqueKeys(es: seq<Entry>) {
    forall i, j :: 0 <= i < j < |es| ==> es[i].key != es[j].key
  }

  /** `delete(m, k)`. */
  function MapDelete(es: seq<Entry>, k: Value): (r: seq<Entry>)
    ensures forall e :: e in r <==> e in es && e.key != k
    ensures UniqueKeys(es) ==> UniqueKeys(r)
    decreases |es|
  {
    if |es| == 0 then []
    else if es[0].key == k then MapDelete(es[1..], k)
    else [es[0]] + MapDelete(es[1..], k)
  }

  /** `m[k] = x`: overwrite the entry for `k` in place, or add one at the end. */
  function MapPut(es: seq<Entry>, k: Value, x: Value): (r: seq<Entry>)
    ensures Entry(k, x) in r
    ensures forall e :: e in r ==> e == Entry(k, x) || e in es
    ensures UniqueKeys(es) ==> forall e :: e in r ==> e == Entry(k, x) || (e in es && e.key != k)
    ensures forall e :: e in es && e.key != k ==> e in r
    decreases |es|
  {
    if |es| == 0 then [Entry(k, x)]
    else if es[0].key == k then
      assert UniqueKeys(es) ==> forall i :: 1 <= i < |es| ==> es[i].key != es[0].key;
      [Entry(k, x)] + es[1..]
    else [es[0]] + MapPut(es[1..], k, x)
  }

  /** `reflect.Value.SetMapIndex`: storing the zero `reflect.Value` deletes the key. */
  function SetMapIndex(es: seq<Entry>, k: Value, x: Value): seq<Entry> {
    if x == Nil then MapDelete(es, k) else MapPut(es, k, x)
  }

  /** The map a loop of `SetMapIndex` calls builds from an empty map, one call per pair in order. */
  function FromPairs(ps: seq<Entry>): seq<Entry>
    decreases |ps|
  {
    if |ps| == 0 then []
    else SetMapIndex(FromPairs(ps[..|ps| - 1]), ps[|ps| - 1].key, ps[|ps| - 1].val)
  }

  /** What the last write of `k` among `ps` leaves visible: nothing if `k` was never written or
      its last write stored nil. */
  function LastWrite(ps: seq<Entry>, k: Value): Option<Value>
    decreases |ps|
  {
    if |ps| == 0 then None
    else if ps[|ps| - 1].key == k then (if ps[|ps| - 1].val == Nil then None else Some(ps[|ps| - 1].val))
    else LastWrite(ps[..|ps| - 1], k)
  }

  lemma {:induction false} MapLookupIn(es: seq<Entry>, k: Value, x: Value)
    requires UniqueKeys(es)
    ensures MapLookup(es, k) == Some(x) <==> Entry(k, x) in es
    decreases |es|
  {
    if |es| > 0 {
      MapLookupIn(es[1..], k, x);
      if es[0].key != k {
        assert Entry(k, x) in es <==> Entry(k, x) in es[1..];
      } else {
        forall i | 1 <= i < |es| ensures es[i] != Entry(k, x) {
          assert es[0].key != es[i].key;
        }
      }
    }
  }

  lemma {:induction false} MapPutUnique(es: seq<Entry>, k: Value, x: Value)
    requires UniqueKeys(es)
    ensures UniqueKeys(MapPut(es, k, x))
    decreases |es|
  {
    if |es| > 0 && es[0].key != k {
      MapPutUnique(es[1..], k, x);
      var r := MapPut(es, k, x);
      forall j | 1 <= j < |r| ensures r[0].key != r[j].key {
        assert r[j] in MapPut(es[1..], k, x);
      }
    } else if |es| > 0 {
      var r := MapPut(es, k, x);
      forall i, j | 0 <= i < j < |r| ensures r[i].key != r[j].key {
        assert es[i].key != es[j].key;
      }
    }
  }

  /** Storing `x` under `k` changes what `k` maps to and nothing else. */
  lemma SetMapIndexLookup(es: seq<Entry>, k: Value, x: Value, k2: Value)
    requires UniqueKeys(es)
    ensures UniqueKeys(SetMapIndex(es, k, x))
    ensures MapLookup(SetMapIndex(es, k, x), k2) ==
      if k2 == k then (if x == Nil then None else Some(x)) else MapLookup(es, k2)
  {
    var r := SetMapIndex(es, k, x);
    if x != Nil {
      MapPutUnique(es, k, x);
    }
    if k2 == k {
      if x != Nil {
        MapLookupIn(r, k, x);
      }
    } else {
      match MapLookup(es, k2)
      case None =>
      case Some(y) =>
        MapLookupIn(es, k2, y);
        MapLookupIn(r, k2, y);
      match MapLookup(r, k2)
      case None =>
      case Some(y) =>
        MapLookupIn(es, k2, y);
        MapLookupIn(r, k2, y);
    }
  }

  /** A map built by successive writes holds, for every key, what the last write of it left. */
  lemma {:induction false} FromPairsLookup(ps: seq<Entry>, k: Value)
    ensures UniqueKeys(FromPairs(ps))
    ensures MapLookup(FromPairs(ps), k) == LastWrite(ps, k)
    decreases |ps|
  {
    if |ps| > 0 {
      var last := ps[|ps| - 1];
      FromPairsLookup(ps[..|ps| - 1], k);
      SetMapIndexLookup(FromPairs(ps[..|ps| - 1]), last.key, last.val, k);
    }
  }

  lemma {:induction false} MapPutFresh(es: seq<Entry>, k: Value, x: Value)
    requires forall i :: 0 <= i < |es| ==> es[i].key != k
    ensures MapPut(es, k, x) == es + [Entry(k, x)]
    decreases |es|
  {
    if |es| > 0 {
      MapPutFresh(es[1..], k, x);
      assert es == [es[0]] + es[1..];
    }
  }

  /** Writing distinct keys with non-nil values builds exactly those entries, in order. */
  lemma {:induction false} FromPairsDistinct(ps: seq<Entry>)
    requires UniqueKeys(ps)
    requires forall i :: 0 <= i < |ps| ==> ps[i].val != Nil
    ensures FromPairs(ps) == ps
    decreases |ps|
  {
    if |ps| > 0 {
      var init := ps[..|ps| - 1];
      FromPairsDistinct(init);
      MapPutFresh(init, ps[|ps| - 1].key, ps[|ps| - 1].val);
      assert init + [ps[|ps| - 1]] == ps;
    }
  }
  /** What storing `x` under a key leaves visible there: nothing when `x` is nil. */
  function Stored(x: Value): (r: Option<Value>)
    ensures r.None? <==> x == Nil
    ensures r.Some? ==> r.value == x
  {
    if x == Nil then None else Some(x)
  }

  /** When exactly one write among `ps` concerns `k`, that write decides what `k` maps to. */
  lemma {:induction false} LastWriteSingle(ps: seq<Entry>, e: Entry)
    requires e in ps
    requires forall j :: 0 <= j < |ps| && ps[j].key == e.key ==> ps[j] == e
    ensures LastWrite(ps, e.key) == Stored(e.val)
    decreases |ps|
  {
    var init := ps[..|ps| - 1];
    if ps[|ps| - 1].key != e.key {
      assert e in init by {
        var i :| 0 <= i < |ps| && ps[i] == e;
        assert i < |ps| - 1 && init[i] == e;
      }
      LastWriteSingle(init, e);
    }
  }

  /** A write that no later write of the same key overrides is what the key maps to. */
  lemma {:induction false} LastWriteFinal(ps: seq<Entry>, i: nat)
    requires i < |ps|
    requires forall j :: i < j < |ps| ==> ps[j].key != ps[i].key
    ensures LastWrite(ps, ps[i].key) == Stored(ps[i].val)
    decreases |ps|
  {
    if i < |ps| - 1 {
      var init := ps[..|ps| - 1];
      assert init[i] == ps[i];
      LastWriteFinal(init, i);
    }
  }

  /** In a map built by successive writes, every write not overridden later is visible. */
  lemma FromPairsFinal(ps: seq<Entry>)
    ensures forall i :: 0 <= i < |ps| && (forall j :: i < j < |ps| ==> ps[j].key != ps[i].key) ==>
      MapLookup(FromPairs(ps), ps[i].key) == Stored(ps[i].val)
  {
    forall i | 0 <= i < |ps| && (forall j :: i < j < |ps| ==> ps[j].key != ps[i].key)
      ensures MapLookup(FromPairs(ps), ps[i].key) == Stored(ps[i].val)
    {
      LastWriteFinal(ps, i);
      FromPairsLookup(ps, ps[i].key);
    }
  }

  /** Go rejects a struct type with two fields of the same name. */
  predicate DistinctFieldNames(fs: seq<FieldValue>) {
    forall i, j :: 0 <= i < j < |fs| ==> fs[i].name != fs[j].name
  }
}

=== FILE: wrappers.dfy ===
/** Failure-compatible result types shared by every module of the model. */
module Wrappers {

  /** An optional value: `None` stands for Go's nil / "not found". */
  datatype Option<+T> = None | Some(value: T) {
    predicate IsFailure() {
      None?
    }

    function PropagateFailure<U>(): Option<U>
      requires None?
    {
      None
    }

    function Extract(): T
      requires Some?
    {
      value
    }

    function GetOr(default: T): T {
      match this
      case Some(v) => v
      case None => default
    }
  }

  /** The `(value, error)` pair of a Go function, with exactly one side present. */
  datatype Result<+T, +E> = Ok(value: T) | Err(error: E) {
    predicate IsFailure() {
      Err?
    }

    function PropagateFailure<U>(): Result<U, E>
      requires Err?
    {
      Err(error)
    }

    function Extract(): T
      requires Ok?
    {
      value
    }

    function MapError<E2>(wrap: E -> E2): Result<T, E2> {
      match this
      case Ok(v) => Ok(v)
      case Err(e) => Err(wrap(e))
    }
  }

  /** Where an element-wise pass stopped: the index of the first element that failed, and why. */
  datatype Failure<+E> = Failure(index: nat, cause: E)

  /** Applies `f` to each element in order and stops at the first failure, the shape of every
      Go loop that converts element by element and returns on the first error. */
  function MapResults<A, B, E>(xs: seq<A>, f: A --> Result<B, E>): (r: Result<seq<B>, Failure<E>>)
    requires forall x :: x in xs ==> f.requires(x)
    ensures r.Ok? <==> forall i :: 0 <= i < |xs| ==> f(xs[i]).Ok?
    ensures r.Ok? ==> |r.value| == |xs| && forall i :: 0 <= i < |xs| ==> f(xs[i]) == Ok(r.value[i])
    ensures r.Err? ==>
      && r.error.index < |xs|
      && f(xs[r.error.index]) == Err(r.error.cause)
      && forall j :: 0 <= j < r.error.index ==> f(xs[j]).Ok?
    decreases |xs|
  {
    if |xs| == 0 then Ok([])
    else
      match f(xs[0])
      case Err(e) => Err(Failure(0, e))
      case Ok(y) =>
        assert forall x :: x in xs[1..] ==> x in xs;
        match MapResults(xs[1..], f)
        case Err(fail) => Err(Failure(fail.index + 1, fail.cause))
        case Ok(ys) => Ok([y] + ys)
  }
}
